=== FILE: README.md ===
# FormApp forms engine in Dafny

FormApp lets a designer build a questionnaire in the browser (the form
creator) and post it to an Express server. The server turns the title into a
table name and creates two MySQL tables. The metadata table holds the
serialized schema in a row with an `is_active` flag. The response table holds
one column per question. A respondent's live form fetches the schema, renders
one control per question type and posts the answers back. A forms list lets
the designer close and reopen forms. A second, offline generator renders a
schema read from a file.

This project models that engine as pure functions over an abstract database.

- **Database:** a map from table name to a table (columns, rows, next
  AUTO_INCREMENT key). `CREATE TABLE IF NOT EXISTS`, `INSERT`, `UPDATE … WHERE
  … LIKE` and `SELECT` are modelled as pure transitions.
- **Handlers:** each server handler is a function from the request and the
  database to a status, a body and, for the writing handlers, the database
  afterwards.
- **Browser:** each component handler is a function from the component state
  to the next state.
- **JSON:** `JSON.stringify` and `JSON.parse` are an abstract codec, an
  encoder plus a decoder that may fail. Its round trip is a hypothesis where a
  property needs it.

Modules, in dependency order:

| module | file | what it holds |
|---|---|---|
| `Wrappers` | wrappers.dfy | `Option` |
| `Objects` | objects.dfy | JavaScript objects as ordered key/value pairs: assignment and lookup |
| `Text` | text.dfy | whitespace, `replace(/\s+/g, '_')`, `trim`, `split`/`join`, case, substring |
| `Store` | store.dfy | tables, rows, `CREATE TABLE IF NOT EXISTS`, `INSERT` with AUTO_INCREMENT |
| `Schema` | schema.dfy | questions, form documents, table and column names, table layouts, question kinds |
| `Api` | api.dfy | responses and outcomes of the handlers |
| `SqlLike` | sql_like.dfy | MySQL `LIKE` with `%` and `_` |
| `Provisioning` | provisioning.dfy | create-form |
| `Directory` | directory.dfy | get-json-data, active-forms, update-form-status |
| `Submission` | submission.dfy | submit, form-fields |
| `DynamicForm` | dynamic_form.dfy | the live form |
| `FormGenerator` | form_generator.dfy | the offline generator |
| `FormCreator` | form_creator.dfy | the form designer |
| `FormsList` | forms_list.dfy | the forms list and its toggle |
| `Scenarios` | scenarios.dfy | journeys that cross client and server |

How the code is read where it is ambiguous:

- **Failed requests.** A handler that throws before answering (`title.replace` on a
  missing title, a question without text) answers 500, as Express does for
  a synchronous throw. A handler whose callbacks never answer (active-forms
  and update-form-status on a database without tables, where the `forEach`
  runs zero times) is `None`.
- **Status update matching.** update-form-status selects rows with MySQL `LIKE
  '%"title"%'`, wildcards included. For a title without `%`, `_` or `\` this
  is substring search for the quoted title (`Directory.LiteralTitleSelection`).
  With an underscore, the pattern for `a_b` also selects the form titled
  `a b` (`SqlLike.UnderscoreTitleMatchesSpacedTitle`). The pattern is
  written between single quotes, so a title with an apostrophe makes the
  SELECT fail to parse; every table then counts as unmatched and the answer is
  404 with nothing updated.
- **Unquoted table name in get-json-data.** get-json-data is the only handler that puts the
  table name into its SQL without backquotes. A name MySQL cannot read as a
  bare identifier, such as `Sign-up_sheet`, answers 500 even though
  create-form made the table, and the live form then shows the empty default
  form (`Scenarios.CreateThenFetch`).
- **Table names in submit.** Submit appends `_responses` to the route parameter without normalizing
  it, and the guard `if (!tableName)` after the append can never fire.
- **Normalizing answer keys.** The live form posts its answers keyed by question text. The server
  normalizes each key the way create-form normalized column names, so an
  answer lands in its question's column (`Scenarios.AnswersInColumns`).
- **The toggle involution.** Toggling a title twice restores the forms list only when all entries
  with that title showed the same state. With a live and a closed entry under
  one title, two clicks leave both live (`FormsList.ClickTwiceMixedTitles`).

## Model

| member | source | states |
|---|---|---|
| Objects.PutSpec | dynamic-form-app/src/components/DynamicForm.js:53 | assigning a key makes it read the new value, leaves every other key reading what it read, and keeps keys distinct |
| Objects.GetDefined | dynamic-form-app/src/components/DynamicForm.js:58 | `obj[k]` is defined exactly when `k` is one of the object's keys |
| Objects.GetDistinct | backend/server.js:284-288 | in an object with distinct keys each pair is what its key reads |
| Text.Normalize | backend/server.js:72 | `replace(/\s+/g, '_')` leaves no whitespace and never lengthens the string |
| Text.NormalizeFixedPoints | backend/server.js:72 | normalization changes a string exactly when it contains whitespace |
| Text.NormalizeIdempotent | backend/server.js:72 | normalizing twice is normalizing once |
| Text.NormalizeCollapsesRun | backend/server.js:84 | a maximal whitespace run becomes exactly one underscore, with the surrounding text normalized independently |
| Text.NormalizeKeepsCharacter | backend/server.js:286 | a character that is not whitespace is copied through and splits the normalization |
| Text.NormalizeAppend | backend/server.js:286 | normalization distributes over a concatenation whose seam is not inside a whitespace run |
| Text.DropLeadingWhitespaceSpec | form-creator/src/components/FormCreator.js:23 | the dropped prefix is whitespace and the kept suffix starts with a character that is not |
| Text.Trim | form-creator/src/components/FormCreator.js:23 | `trim()` returns a contiguous piece of the input that neither starts nor ends with whitespace, empty exactly for an all-whitespace input |
| Text.TrimFixedPoint | form-creator/src/components/FormCreator.js:23 | a string that neither starts nor ends with whitespace is its own trim |
| Text.Split | form-creator/src/components/FormCreator.js:23 | `split(',')` gives at least one piece and no piece contains the separator |
| Text.SplitCount | form-creator/src/components/FormCreator.js:23 | there is one more piece than there are separators |
| Text.JoinSplit | dynamic-form-app/src/components/DynamicForm.js:57-63 | joining the pieces of a split with the separator gives the string back |
| Text.SplitJoin | dynamic-form-app/src/components/DynamicForm.js:57-63 | splitting a join of separator-free pieces gives the pieces back |
| Text.ToLower | dynamic-form-app/src/components/DynamicForm.js:107 | upper-case ASCII letters become the lower-case letter they are the capital of, and every other character is kept |
| Text.ToLowerIdempotent | dynamic-form-app/src/components/DynamicForm.js:107 | lower-casing twice is lower-casing once |
| Text.Capitalize | backend/server.js:368 | the first character becomes its upper-case form, so a lower-case letter becomes the matching capital and any other first character is kept; the length and the rest are unchanged |
| Text.CapitalizeKeepsLetters | backend/server.js:368 | a capitalized string lower-cases to the same text as the original |
| Text.CapitalizeIdempotent | backend/server.js:368 | capitalizing twice is capitalizing once |
| Text.ReplaceChar | form-creator/src/components/FormCreator.js:131 | position by position, every `x` becomes `y` and every other character is kept, so with `x != y` no `x` is left |
| Text.ReplaceCharBack | form-creator/src/components/FormCreator.js:131 | replacing `x` by a `y` the text did not hold is undone by replacing `y` by `x` |
| Text.TrimPadded | form-creator/src/components/FormCreator.js:23 | `trim` of a text with whitespace on both sides gives the text back when it neither starts nor ends with whitespace |
| Store.CreateTableIfNotExists | backend/server.js:88-99 | an existing table is left exactly as it is whatever layout is asked for; a new table is created empty with key 1 when the name and layout are valid (1 to 64 characters of the Basic Multilingual Plane, no backquote or NUL, column names distinct), and the call fails otherwise |
| Store.Insert | backend/server.js:103 | an accepted INSERT appends exactly one row to the target and reports the key it took, an explicit non-zero `id` or else the AUTO_INCREMENT counter, which then moves past that key; every other table and every earlier row is untouched; a refused one changes nothing |
| Store.AutoKey | backend/server.js:103 | without an `id` cell the new key is the counter and the counter moves on by one |
| Store.InsertExplicitKey | backend/server.js:291-298 | an accepted explicit non-zero `id` n (as in a posted `{"id": 7}`) was free, becomes the new row's key and the reported id, and leaves the counter above n |
| Store.InsertKeepsKeysSound | backend/server.js:89-91 | on a table with an `id` column, an accepted insert keeps every key a distinct number below the counter |
| Store.NewRowContents | backend/server.js:89-91 | the appended row carries every inserted value other than the key under its column, the assigned key under `id`, and the defaults elsewhere |
| Schema.ResponseTableName | backend/server.js:73 | the response table name is the base name followed by `_responses` |
| Schema.TableNamesWellFormed | backend/server.js:72-73 | both table names are free of whitespace, the response table is never the metadata table, and re-normalizing the base name changes nothing |
| Schema.ResponseLayout | backend/server.js:80-99 | the response table has `id`, then `timestamp`, then one nullable VARCHAR column per question, in order, named by the normalized question text |
| Schema.Classify | dynamic-form-app/src/components/DynamicForm.js:107-195 | each of the six handled types, in any letter case, selects its own kind, and a type string is unrecognised exactly when its lower-case form is none of them |
| Schema.ClassifyIgnoresCase | dynamic-form-app/src/components/DynamicForm.js:107 | types that agree up to letter case resolve to the same kind |
| Schema.TimeIsUnrecognised | dynamic-form-app/src/components/DynamicForm.js:185-195 | `time`, in any spelling, falls to the default case |
| SqlLike.LikeIsContains | backend/server.js:231 | `%w%` for a literal `w` matches exactly the strings that contain `w` |
| SqlLike.TitlePatternIsQuotedSubstring | backend/server.js:231 | for a title free of wildcards and backslashes, the status pattern matches exactly the blobs that contain the quoted title |
| SqlLike.LiteralPrefixMatch | backend/server.js:231 | a literal followed by `%` matches exactly the strings it prefixes |
| SqlLike.PercentMatchesAll | backend/server.js:231 | a lone `%` matches every string |
| SqlLike.UnderscoreTitleMatchesSpacedTitle | backend/server.js:228-232 | the pattern for the title `a_b` selects the schema of the form titled `a b` |
| SqlLike.SpacedTitleBlobLacksUnderscoreTitle | backend/server.js:228-232 | that schema does not contain the quoted title `a_b`, so the match is the wildcard's doing |
| Provisioning.CreateForm | backend/server.js:65-127 | a missing title gives 500 before anything else; 400 exactly when the title is present and the question list is missing or empty; a request refused by the checks changes no table; 200 only for an accepted request, with both tables present, every other table unchanged, and one metadata row appended; an accepted request that fails leaves every existing table as it was and appends no row |
| Provisioning.Provision | backend/server.js:106-126 | the three queries run in order: 200 exactly when both table creations and the schema insert are accepted; a failure at the first step leaves the database as it was, one at the second leaves the first step's result, one at the insert leaves both tables; on 200 the metadata table gained exactly one row holding the serialized document |
| Provisioning.FreshMetadataInsert | backend/server.js:89-91 | the first schema row of a fresh metadata table is `{id: 1, json_data: blob, is_active: 1}` |
| Provisioning.CreateFormOnFreshNames | backend/server.js:88-123 | on a database holding neither table and with valid names, create-form succeeds and the metadata table holds exactly that row |
| Provisioning.CreateFormRepeated | backend/server.js:88-123 | repeating a successful create-form succeeds again, creates nothing, keeps every earlier row and appends one more |
| Provisioning.InsertAcceptedByLayout | backend/server.js:103 | without an `id` cell, as in the schema insert, the engine's verdict depends on the target table's layout alone |
| Provisioning.PartialProvisioning | backend/server.js:106-116 | when the response table cannot be created the metadata table created by the first step stays behind, empty, and the answer is 500 |
| Provisioning.ClashingResponseLayout | backend/server.js:84-98 | a question whose text is `id` repeats the key column, so the response table cannot be created |
| Provisioning.MetadataLayoutValid | backend/server.js:88-92 | the metadata layout has valid, distinct column names |
| Directory.FirstWithKey | backend/server.js:34 | the row found has key 1, and none is found exactly when no row has key 1 |
| Directory.FirstWithKeyIgnoresLaterRows | backend/server.js:34 | rows appended after the key-1 row do not change which row is found |
| Directory.GetJsonData | backend/server.js:30-61 | 500 for a name that is not a bare MySQL identifier and for a missing or unreadable table; 404 exactly when no row has key 1; 403 exactly when that row's `is_active` is falsy; 200 exactly when that row is active and its schema cell is NULL or decodes, with `{json_data: null}` for NULL and the parsed schema otherwise |
| Directory.FetchedRow | backend/server.js:34-59 | a name that is not a bare identifier answers 500; otherwise, once the key-1 row is found, a falsy `is_active` answers 403 with the closed-form message, a truthy one with a NULL schema cell answers 200 with `null`, and a truthy one with a parsable schema answers 200 with that schema |
| Directory.GetJsonDataIgnoresLaterRows | backend/server.js:34-59 | a later create-form of the same title, which appends a row, does not change what the live form receives |
| Directory.RowEntries | backend/server.js:163-173 | at most one entry per row; which rows contribute is stated by `Directory.RowEntriesMembership` |
| Directory.RowEntriesMembership | backend/server.js:163-173 | an entry is listed for a table's rows exactly when some row contributes it |
| Directory.CollectMembership | backend/server.js:141-187 | an entry is gathered exactly when some row of some listed table with both `json_data` and `is_active` columns contributes it |
| Directory.ActiveForms | backend/server.js:129-189 | no answer exactly on a database without tables; otherwise 200 with the gathered entries |
| Directory.ActiveFormsCount | backend/server.js:153-177 | the listing holds exactly one entry per parsable schema row of the listed metadata tables, duplicates included |
| Directory.ActiveFormsAfterAppend | backend/server.js:153-177 | appending a schema row to a metadata table adds that row's entry, if its schema parses, to the multiset of entries and changes no other entry |
| Directory.RowEntriesAppend | backend/server.js:163-172 | rows contribute in place: the entries of two runs of rows are those of the first followed by those of the second |
| Directory.RowEntriesCount | backend/server.js:163-172 | a table contributes one entry per row whose schema parses |
| Directory.CollectCount | backend/server.js:141-185 | the gathered entries number the parsable rows of the listed metadata tables |
| Directory.CollectAfterAppend | backend/server.js:141-185 | one more row in a listed metadata table adds its entry and keeps every other |
| Directory.ActiveFormsMembership | backend/server.js:153-177 | the listing holds `{title, isActive}` exactly when a parsable row of some metadata table has that title and that raw flag, whether the form is active or not |
| Directory.SetActive | backend/server.js:240-246 | the update keeps a table's layout, key counter and row count |
| Directory.UpdateFormStatus | backend/server.js:194-270 | no answer exactly on a database without tables; otherwise every table keeps its name, layout and row count; 200 exactly when the title has no apostrophe and some row of some metadata table matches the title pattern, 404 otherwise; a title with an apostrophe leaves the database unchanged |
| Directory.UpdateFormStatusRows | backend/server.js:227-246 | for a title without an apostrophe, a matching row of a metadata table takes the new `is_active` and keeps every other cell; every other row is unchanged |
| Directory.UpdateFormStatusNotFound | backend/server.js:254-265 | a 404 leaves the database exactly as it was |
| Directory.UpdatedRowStaysSelected | backend/server.js:240-246 | setting `is_active` does not change whether a row matches any pattern |
| Directory.UpdateKeepsSelection | backend/server.js:228-246 | the rows that match before the update are the rows that match after it |
| Directory.UpdatedDatabaseIdempotent | backend/server.js:240-246 | updating twice with the same title and value is updating once |
| Directory.UpdateFormStatusIdempotent | backend/server.js:194-270 | repeating a status update gives the same answer and the same database |
| Directory.LiteralTitleSelection | backend/server.js:231 | for a title without wildcards or backslashes a row matches exactly when its schema text contains the title between double quotes |
| Submission.CleanKeysSpec | backend/server.js:284-288 | the cleaned body has distinct keys, and each key reads the last value posted under any key that normalizes to it |
| Submission.CleanKeysEmpty | backend/server.js:284-288 | cleaning yields no key exactly for an empty body |
| Submission.Submit | backend/server.js:273-305 | the target is the parameter plus `_responses`, unnormalized; 200 exactly when the body is non-empty and the engine accepts the timestamp plus the cleaned keys; then exactly that row is appended, the key it took returned and the counter moved past it; on 500 nothing changes |
| Submission.SubmittedRow | backend/server.js:283-302 | the stored row holds, under each posted key other than `id` normalized, the last value posted for it; the submission time under `timestamp`; the assigned key under `id`; and a posted `id` that was accepted is a number or null |
| Submission.LastValueDefined | backend/server.js:285-287 | every posted key normalizes to a key that has a value |
| Submission.SubmitEmptyBody | backend/server.js:291-295 | an empty body is always refused |
| Submission.SubmitTimestampClash | backend/server.js:286-295 | a posted key that normalizes to `timestamp` names that column twice and the insert is refused |
| Submission.SubmitIgnoresOtherTables | backend/server.js:273-305 | the answer depends on the response table alone, so the form's activation plays no part, and every other table is unchanged |
| Submission.FieldFor | backend/server.js:366-371 | a column is described by its name, a caption that is the name with its first character upper-cased and the same text up to case, `number` exactly when the SQL type contains `int`, and `required` exactly when the column is NOT NULL |
| Submission.FormFields | backend/server.js:351-375 | 400 exactly for a name outside `^[a-zA-Z0-9_]+$`; 500 exactly for such a name with no table; otherwise 200 with one field per column, in order |
| Submission.ResponseTableFields | backend/server.js:95-99 | for a response table, `id` is a required number, `timestamp` is optional text, and every question is optional text, whether or not it was marked required |
| Submission.ResponseTableNameIsWord | backend/server.js:355 | form-fields accepts the response table of every table name made of word characters |
| Submission.NotIntegerType | backend/server.js:369 | a type name without the letter `n` is not reported as a number |
| DynamicForm.InitialDataSpec | dynamic-form-app/src/components/DynamicForm.js:31-35 | the initial answers hold the empty string for every question text and no other key, each key once |
| DynamicForm.Load | dynamic-form-app/src/components/DynamicForm.js:18-49 | loading ends whatever the outcome; a schema fills title, description, postscript, questions and the initial answers; a 403 sets its message and keeps every other default; any other outcome keeps all the defaults |
| DynamicForm.DefaultFormShown | dynamic-form-app/src/components/DynamicForm.js:8-16 | without a schema or a refusal, the live form shows the card titled "Dynamic Form" with no description and no questions |
| DynamicForm.RefusalShown | dynamic-form-app/src/components/DynamicForm.js:38-41 | a 403 carrying a message leaves the component showing exactly that message |
| DynamicForm.Render | dynamic-form-app/src/components/DynamicForm.js:86-100 | the form card is shown exactly when loading is over, there is no error and nothing has been submitted; the thank-you screen shows the postscript |
| DynamicForm.HandleChange | dynamic-form-app/src/components/DynamicForm.js:51-54 | the named answer reads the new value |
| DynamicForm.HandleChangeFrame | dynamic-form-app/src/components/DynamicForm.js:51-54 | every other answer is unchanged |
| DynamicForm.CheckedIsSelected | dynamic-form-app/src/components/DynamicForm.js:164 | a non-empty option's box is checked exactly when the option is among the stored selections |
| DynamicForm.IndexOf | dynamic-form-app/src/components/DynamicForm.js:59 | `indexOf` gives the position of an `x` with no `x` before it |
| DynamicForm.RemoveFirst | dynamic-form-app/src/components/DynamicForm.js:59 | `splice(indexOf(x), 1)` removes one element, the first `x`, and keeps the elements before and after it in order; nothing changes when `x` is absent |
| DynamicForm.RemoveFirstDistinct | dynamic-form-app/src/components/DynamicForm.js:58-60 | on distinct selections, removal takes out exactly `x` and keeps the rest distinct |
| DynamicForm.StoredSelections | dynamic-form-app/src/components/DynamicForm.js:57-63 | well-formed selections joined with `,` read back as the same selections |
| DynamicForm.HandleCheckboxChangeSpec | dynamic-form-app/src/components/DynamicForm.js:56-64 | for a non-empty option without commas, on stored selections that are non-empty, comma-free and distinct, a tick flips exactly that option's box, leaves every other box and every other answer unchanged, and keeps the selections well formed |
| DynamicForm.HandleCheckboxChangeTwice | dynamic-form-app/src/components/DynamicForm.js:56-64 | ticking a non-empty option without commas twice restores every non-empty box of the question |
| DynamicForm.EmptyOptionStaysTicked | dynamic-form-app/src/components/DynamicForm.js:56-64 | with nothing else ticked, an empty option once ticked stays ticked: the stored answer is the empty string, which reads back as no selection, so the next tick adds it again |
| DynamicForm.CommaOptionNeverChecked | dynamic-form-app/src/components/DynamicForm.js:164 | an option holding a comma never shows as ticked, whatever is stored |
| DynamicForm.MissingFields | dynamic-form-app/src/components/DynamicForm.js:68-70 | every missing question is one of the schema's questions, is required, and has a blank answer |
| DynamicForm.MissingFieldsSubsequence | dynamic-form-app/src/components/DynamicForm.js:68-70 | the missing questions keep the schema's order: they are a subsequence of the questions |
| DynamicForm.MissingFieldsMembership | dynamic-form-app/src/components/DynamicForm.js:68-70 | a question is missing exactly when it is required and its answer is absent, empty or blank after trimming |
| DynamicForm.HandleSubmit | dynamic-form-app/src/components/DynamicForm.js:66-84 | the answers are posted exactly when no required answer is blank, and then unchanged; the thank-you state is entered only when the post succeeds; a blocked submit changes nothing |
| DynamicForm.FreshFormBlocksRequired | dynamic-form-app/src/components/DynamicForm.js:31-35 | freshly loaded answers are blank, so a form with a required question cannot be sent unanswered |
| DynamicForm.ControlFor | dynamic-form-app/src/components/DynamicForm.js:107-195 | the lower-cased type picks the control: a text input for `string` and unrecognised types, a number input for `integer`, a date input for `date`, each showing the stored answer or nothing and carrying the question's `required`; choice and tick questions without options break the render; a drop-down has the placeholder and the options in order; tick boxes follow the options and the stored selections; the slider spans 0..10 and shows the stored answer, or 5 when that is empty |
| DynamicForm.ControlIgnoresCase | dynamic-form-app/src/components/DynamicForm.js:107 | the control depends on the type's letters, not their case |
| DynamicForm.TimeRendersAsText | dynamic-form-app/src/components/DynamicForm.js:185-195 | a `time` question is rendered as a plain text box |
| FormGenerator.GenerateForm | dynamic-form-app/src/components/DynamicFormGenerator.js:20-23 | the generator shows the schema's title and its question list unchanged |
| FormGenerator.ControlFor | dynamic-form-app/src/components/DynamicFormGenerator.js:51-86 | the lower-cased type picks the element: text for `string` and unrecognised types, number for `integer`, date for `date`, a range of 1..10 for `meter`; choices and boxes follow the options with no placeholder; choice and tick questions without options break |
| FormGenerator.GeneratedLikeLiveForm | dynamic-form-app/src/components/DynamicFormGenerator.js:20-23 | the generator shows the same title and questions as the live form's card for the same schema |
| FormGenerator.SameControlsAsLiveForm | dynamic-form-app/src/components/DynamicFormGenerator.js:51-86 | the generator and the live form pick the same control kind and input type and fail on the same questions; only the range's lower bound differs, 1 against 0 |
| FormGenerator.Query | dynamic-form-app/src/components/DynamicFormGenerator.js:29 | the element found is the first in document order that bears the name, and none is found exactly when no element bears it |
| FormGenerator.CollectValuesSpec | dynamic-form-app/src/components/DynamicFormGenerator.js:27-33 | a question text reads the checked flag or the value of the first element with that name, only when one exists, and nothing else is collected |
| FormGenerator.TickQuestionReadsFirstBox | dynamic-form-app/src/components/DynamicFormGenerator.js:29-31 | for a tick question only the first box is read, so a question whose second option is ticked is recorded as unticked |
| FormCreator.AddQuestion | form-creator/src/components/FormCreator.js:11-13 | exactly one blank `string` question is appended and the earlier ones are unchanged |
| FormCreator.HandleQuestionChange | form-creator/src/components/FormCreator.js:15-19 | only the chosen field of the chosen question changes |
| FormCreator.ParseOptions | form-creator/src/components/FormCreator.js:23 | one option per comma plus one, empty pieces kept; each is the `trim` of its comma-separated piece, so it holds no comma and neither starts nor ends with whitespace |
| FormCreator.ParseOptionsSpaced | form-creator/src/components/FormCreator.js:23 | options typed with whitespace around them come back without it |
| FormCreator.ParseOptionsExample | form-creator/src/components/FormCreator.js:23 | `a, b` is read as the options `a` and `b` |
| FormCreator.ParseOptionsJoin | form-creator/src/components/FormCreator.js:23 | trimmed, comma-free options typed comma-separated are parsed back exactly |
| FormCreator.HandleOptionsChange | form-creator/src/components/FormCreator.js:21-25 | only the chosen question's options change, to the parsed input |
| FormCreator.ClearedOptionsBox | form-creator/src/components/FormCreator.js:23 | clearing the options box leaves one empty option, not none |
| FormCreator.ToQuestion | form-creator/src/components/FormCreator.js:33-38 | the payload question copies text, type and required, and omits options exactly when there are none |
| FormCreator.DraftRoundTrip | form-creator/src/components/FormCreator.js:33-38 | nothing about a draft question is lost in the payload |
| FormCreator.QuestionRoundTrip | form-creator/src/components/FormCreator.js:33-38 | a payload question without options or with some comes back from its draft |
| FormCreator.Payload | form-creator/src/components/FormCreator.js:29-39 | the posted request carries the title, description and postscript and one question per draft, in order |
| FormCreator.PayloadAccepted | form-creator/src/components/FormCreator.js:29-39 | the server's checks pass exactly when there is a question and every question has text |
| FormCreator.SelectableTypesClassified | form-creator/src/components/FormCreator.js:98-106 | of the seven menu types the options box appears exactly for the two rendered from options, and only `time` has no control of its own |
| FormCreator.DisplayName | form-creator/src/components/FormCreator.js:131 | the listed name is the table name with every underscore turned into a space and every other character kept |
| FormCreator.DisplayNameInverse | form-creator/src/components/FormCreator.js:131 | a table name made from a title holds no space, so turning the listed name's spaces back into underscores gives the table name |
| FormCreator.DisplayNameRoundTrip | form-creator/src/components/FormCreator.js:131 | a title without underscores whose whitespace is single spaces is listed under its own title |
| FormCreator.DisplayNameLossy | form-creator/src/components/FormCreator.js:131 | the titles `a b` and `a_b` are listed under the same name |
| FormsList.Load | form-creator/src/components/FormsList.js:9-22 | loading lasts until the request settles; a 2xx listing gives one entry per form, in order, live exactly when its flag is truthy; anything else shows the error |
| FormsList.Line | form-creator/src/components/FormsList.js:52-54 | a form reads `Active` with a `Deactivate` button exactly when it is live |
| FormsList.Toggle | form-creator/src/components/FormsList.js:24-41 | the posted flag is 1 exactly when the current state is not live; after a successful post every entry with the title takes the flipped state and nothing else changes; after a failure nothing changes |
| FormsList.Click | form-creator/src/components/FormsList.js:53 | a button toggles from its own form's state and flips that form on success |
| FormsList.ClickFlipsLine | form-creator/src/components/FormsList.js:24-54 | a successful click switches the form's status word and button caption, and only a successful one changes them |
| FormsList.ClickTwice | form-creator/src/components/FormsList.js:25-37 | after one click all entries with the title agree; two clicks restore the list exactly when they agreed before |
| FormsList.ClickTwiceMixedTitles | form-creator/src/components/FormsList.js:33-37 | with a live and a closed entry under one title, two clicks leave both live |
| Scenarios.CreateThenFetch | backend/server.js:30-127 | create-form on fresh names succeeds; when the name is a bare identifier the form is served back as the posted document and the live form shows its title, description and questions, otherwise the fetch answers 500 and the live form shows the empty default form |
| Scenarios.StatusThenFetch | backend/server.js:30-59 | after a status update that matches the schema row, for a title without an apostrophe and a bare-identifier table name, a falsy value makes the live form show the 403 message and a truthy one serves the unchanged schema |
| Scenarios.StatusThenSubmit | backend/server.js:273-305 | closing or opening a form does not change how its answers are received |
| Scenarios.ClickAgainstServer | form-creator/src/components/FormsList.js:27-37 | the list flips its entry exactly when the title has no apostrophe and the server found a matching row, and the posted flag is truthy exactly when the new state is live |
| Scenarios.ListingShown | form-creator/src/components/FormsList.js:9-22 | the list loaded from active-forms shows one form per parsable schema row of every metadata table, live exactly when its `is_active` is truthy; it keeps loading on a database without tables |
| Scenarios.DesignedFormGenerated | form-creator/src/components/FormCreator.js:29-39 | the designer's document opened in the generator shows the designer's title and one question per draft in order; the generator fails on exactly the choice and tick drafts left without options |
| Scenarios.AnswersInColumns | backend/server.js:284-302 | an accepted submission stores each answer of the live form under its question's column when no two answers share a column |
| Scenarios.LastValueSeparate | backend/server.js:285-287 | when posted keys normalize apart, each key's column reads its own value |

## Left out

- MySQL itself: the connection, SQL text, `mysql.escape` and injection. Each query is a pure transition on the abstract database, and only the engine rules the handlers rely on are modelled: existing names, valid identifiers, duplicate columns, unknown columns, the primary key, and NOT NULL columns without a default.
- Store.Insert: an explicit `id` given as a numeric string (`{"id": "7"}`) is refused; MySQL converts it to the number and stores it. Only numbers and null are taken as keys, and the 32-bit range of the INT key is not modelled.
- DynamicForm.ControlFor: a question stored without a `type` makes `q.type.toLowerCase()` throw and the whole form fails to render; here every question has a type string. FormGenerator.ControlFor has the same gap.
- FormGenerator.ControlFor: see the line above; a missing `type` throws in the generator too.
- DynamicForm.HandleCheckboxChangeSpec: covers non-empty, comma-free options only. The empty option cannot be unticked once it is the only selection (`DynamicForm.EmptyOptionStaysTicked`), and an option with a comma never shows as ticked (`DynamicForm.CommaOptionNeverChecked`).
- Column names are compared exactly. MySQL compares them without regard to case, so `ID` clashing with `id` is not modelled.
- VARCHAR(255) length limits and value conversion on insert are not modelled; answers are stored as posted.
- Directory.ActiveForms: lists entries in table-listing order and row order, the order in which the single connection's queue runs the nested SELECTs. The contracts state membership, the count and the effect of an appended row, not each entry's position.
- Directory.ActiveForms: does not model the hang when a `SHOW COLUMNS` fails, or the 500 when `SHOW TABLES` fails. A failing query on a reachable table is not part of the database model.
- Directory.UpdateFormStatus: answers once, 200 or 404. When rows match in several tables, each match's UPDATE callback calls `res.json`. Every call after the first throws ERR_HTTP_HEADERS_SENT inside the query callback, where nothing catches it; this is not modelled. The 500 when the UPDATE fails and the 404 that can race it are left out too.
- Directory.UpdateFormStatus: treats every title with an apostrophe as a statement that does not parse. Titles whose apostrophes still make valid SQL are not modelled: a doubled `''`, a backslash-escaped `\'`, or a title that completes the statement with SQL of its own.
- Directory.GetJsonData: answers 500 for every name outside `UnquotedIdentifier`, as it does for a missing table. Two cases go the other way and are not modelled. Reserved words such as `Order` pass `UnquotedIdentifier` although MySQL rejects them. Names MySQL reads as numbers, such as `1e5`, also pass it. A `db.table` name is refused here, though MySQL would read it as a table of another database.
- Directory.GetJsonData: a schema cell holding a number, or JSON text that parses to something other than a form document (a number, an array), answers 500 here. In the source `JSON.parse` returns that value and the answer is 200 with it. The codec's decoder yields a form document or nothing, so those values are not represented.
- MySQL's canonical re-serialization of JSON columns is not modelled; the blob read back is the blob written.
- `IsLiteral` excludes titles with `%`, `_` or `\` from the substring characterization. Apostrophes are handled before matching: such a title matches nothing. Backslash escapes inside the string literal are not modelled.
- `JSON.stringify` and `JSON.parse` are the abstract `Codec`. `RoundTrips` is assumed only where stated.
- Whitespace is ASCII (space, tab, line feed, vertical tab, form feed, carriage return). Upper and lower case are ASCII letters only.
- JavaScript orders integer-like object keys before the others. `Objects` keeps insertion order for all keys.
- The thin endpoints `/submit-form`, `/get-forms`, `/get-form-structure/:title`, `/tables` and `/tables/:tableName` wrap a single query each and are not modelled.
- Express, HTTP, axios, React hooks, JSX markup, `alert`, `console` and DOM events are left out. Their effects appear as parameters: an optional response, and whether a post succeeded.
- The generator's `FileReader` upload and its `JSON.parse` are left out; `GenerateForm` starts from the parsed document.
- The browser's own `required` attribute check on inputs is not modelled; only the component's check before posting is.
- form-creator/src/components/TableList.js and both `App.js` files (routing and display only) are not part of this model.
- FormsList.Load: keeps only the truthiness of `isActive`, which is all the component reads.


=== FILE: api.dfy ===
/** What the server's handlers answer: a status code with a JSON body, and
    for the handlers that write, the database after the request. */
module Api {
  import opened Store
  import opened Schema

  /** One element of the active-forms listing: the schema's title and the raw
      `is_active` cell of its metadata row. */
  datatype DirectoryEntry = DirectoryEntry(title: string, isActive: Value)

  /** One element of the form-fields listing; `caption` is its `label`. */
  datatype FieldInfo = FieldInfo(name: string, caption: string, fieldType: string, required: bool)

  datatype Body =
    | Message(text: string)
    | Failure(error: string)
    | Document(doc: FormDoc)
      /** `{json_data: null}`: a NULL schema cell, which `JSON.parse` turns
          into `null` without throwing. */
    | NullSchema
    | Entries(entries: seq<DirectoryEntry>)
    | Inserted(id: int)
    | Fields(fields: seq<FieldInfo>)

  datatype Response = Response(status: int, body: Body)

  /** The answer to a writing request and the database it leaves behind. */
  datatype Outcome = Outcome(response: Response, db: Database)

  const OkStatus := 200
  const BadRequestStatus := 400
  const ForbiddenStatus := 403
  const NotFoundStatus := 404
  const ServerErrorStatus := 500
}

=== FILE: directory.dfy ===
/** The handlers that read and flip a form's metadata: get-json-data (one
    form's schema, refused while the form is inactive), active-forms (every
    form of every metadata table, active or not) and update-form-status (sets
    `is_active` on the rows whose schema mentions a title). */
module Directory {
  import opened Wrappers
  import opened Text
  import opened Objects
  import opened Store
  import opened Schema
  import opened SqlLike
  import opened Api

  /** The schema text in a `json_data` cell; the driver hands JSON columns
      over as strings. */
  function Blob(v: Value): Option<string> {
    if v.Str? then Some(v.s) else None
  }

  /** `JSON.parse` of a `json_data` cell. */
  function Parse(codec: Codec, v: Value): Option<FormDoc> {
    match Blob(v)
    case None => None
    case Some(s) => codec.decode(s)
  }

  /** The tables `SHOW TABLES` lists: each table of the database once. */
  predicate Lists(db: Database, listing: seq<string>) {
    && Distinct(listing)
    && (forall i :: 0 <= i < |listing| ==> listing[i] in db)
    && (forall n :: n in db ==> n in listing)
  }

  // ---------------------------------------------------------------------------
  // get-json-data
  // ---------------------------------------------------------------------------

  /** The refusal sent for a form that is not active. */
  const ClosedMessage := "This form is not live right now."

  /** The schema row of a metadata table is the one with key 1. */
  const SchemaRowKey := 1

  /** `results[0]` of `... WHERE id = key`: the first row with that key. */
  function FirstWithKey(rows: seq<Row>, key: int): (r: Option<Row>)
    ensures r.Some? ==> r.value in rows && Cell(r.value, IdColumn) == Num(key)
    ensures r.None? <==> forall i :: 0 <= i < |rows| ==> Cell(rows[i], IdColumn) != Num(key)
  {
    if rows == [] then None
    else if Cell(rows[0], IdColumn) == Num(key) then Some(rows[0])
    else FirstWithKey(rows[1..], key)
  }

  /** Rows appended after a row with the key do not change which row is found. */
  lemma {:induction false} FirstWithKeyIgnoresLaterRows(rows: seq<Row>, more: seq<Row>, key: int)
    requires FirstWithKey(rows, key).Some?
    ensures FirstWithKey(rows + more, key) == FirstWithKey(rows, key)
  {
    assert rows != [];
    assert (rows + more)[0] == rows[0];
    if Cell(rows[0], IdColumn) != Num(key) {
      assert (rows + more)[1..] == rows[1..] + more;
      FirstWithKeyIgnoresLaterRows(rows[1..], more, key);
    }
  }

  /** A name MySQL reads as one table name without backquotes: ASCII
      letters, digits, `_`, `$` and characters from U+0080 to U+FFFF, and not
      digits alone. get-json-data interpolates the name unquoted, so any other
      name makes its SELECT fail to parse. */
  predicate UnquotedIdentifier(name: string) {
    && 0 < |name| <= 64
    && (forall i :: 0 <= i < |name| ==> IsWordChar(name[i]) || name[i] == '$' || 0x80 <= name[i] as int <= 0xFFFF)
    && exists i :: 0 <= i < |name| && !('0' <= name[i] <= '9')
  }

  /** A table `SELECT json_data, is_active ... WHERE id = 1` can be run on. */
  predicate Readable(t: Table) {
    HasColumn(t, IdColumn) && HasColumn(t, JsonDataColumn) && HasColumn(t, IsActiveColumn)
  }

  /** `GET /get-json-data/:tableName`: the schema in the key-1 row of the named
      table, refused with 403 while that row's `is_active` is falsy. A name
      that does not parse unquoted, a missing table and a table without the
      three columns all answer 500. */
  function GetJsonData(db: Database, name: string, codec: Codec): (r: Response)
    ensures r.status in {OkStatus, ForbiddenStatus, NotFoundStatus, ServerErrorStatus}
    ensures !UnquotedIdentifier(name) ==> r.status == ServerErrorStatus
    ensures r.status == NotFoundStatus <==>
      UnquotedIdentifier(name) && name in db && Readable(db[name]) && FirstWithKey(db[name].rows, SchemaRowKey).None?
    ensures r.status == ForbiddenStatus <==>
      UnquotedIdentifier(name) && name in db && Readable(db[name]) && FirstWithKey(db[name].rows, SchemaRowKey).Some?
      && !Truthy(Cell(FirstWithKey(db[name].rows, SchemaRowKey).value, IsActiveColumn))
    ensures r.status == OkStatus <==>
      && UnquotedIdentifier(name) && name in db && Readable(db[name])
      && FirstWithKey(db[name].rows, SchemaRowKey).Some?
      && Truthy(Cell(FirstWithKey(db[name].rows, SchemaRowKey).value, IsActiveColumn))
      && SchemaReadable(codec, Cell(FirstWithKey(db[name].rows, SchemaRowKey).value, JsonDataColumn))
    ensures r.status == OkStatus ==>
      exists i :: 0 <= i < |db[name].rows| && Served(codec, db[name].rows[i], r.body)
  {
    if !UnquotedIdentifier(name) || name !in db || !Readable(db[name]) then
      Response(ServerErrorStatus, Failure("Database query error"))
    else
      match FirstWithKey(db[name].rows, SchemaRowKey)
      case None => Response(NotFoundStatus, Failure("No data found"))
      case Some(row) =>
        if !Truthy(Cell(row, IsActiveColumn)) then
          Response(ForbiddenStatus, Failure(ClosedMessage))
        else
          if Cell(row, JsonDataColumn) == Null then
            Response(OkStatus, NullSchema)
          else
            match Parse(codec, Cell(row, JsonDataColumn))
            case None => Response(ServerErrorStatus, Failure("Invalid JSON format in database"))
            case Some(doc) => Response(OkStatus, Document(doc))
  }

  /** Once the key-1 row is found, its `is_active` and schema alone decide
      the answer. */
  lemma FetchedRow(db: Database, name: string, row: Row, codec: Codec)
    requires name in db && Readable(db[name]) && FirstWithKey(db[name].rows, SchemaRowKey) == Some(row)
    ensures !UnquotedIdentifier(name) ==> GetJsonData(db, name, codec).status == ServerErrorStatus
    ensures UnquotedIdentifier(name) && !Truthy(Cell(row, IsActiveColumn)) ==>
      GetJsonData(db, name, codec) == Response(ForbiddenStatus, Failure(ClosedMessage))
    ensures UnquotedIdentifier(name) && Truthy(Cell(row, IsActiveColumn)) && Cell(row, JsonDataColumn) == Null ==>
      GetJsonData(db, name, codec) == Response(OkStatus, NullSchema)
    ensures UnquotedIdentifier(name) && Truthy(Cell(row, IsActiveColumn)) && Parse(codec, Cell(row, JsonDataColumn)).Some? ==>
      GetJsonData(db, name, codec) == Response(OkStatus, Document(Parse(codec, Cell(row, JsonDataColumn)).value))
  {
  }

  /** `JSON.parse` of the cell does not throw: it is NULL or a schema text
      that decodes. */
  predicate SchemaReadable(codec: Codec, v: Value) {
    v == Null || Parse(codec, v).Some?
  }

  /** `body` is what `JSON.parse` makes of the schema cell of an active key-1
      row: `null` for a NULL cell, otherwise the parsed schema. */
  predicate Served(codec: Codec, row: Row, body: Body) {
    && Cell(row, IdColumn) == Num(SchemaRowKey)
    && Truthy(Cell(row, IsActiveColumn))
    && if Cell(row, JsonDataColumn) == Null then body == NullSchema
       else Parse(codec, Cell(row, JsonDataColumn)).Some? && body == Document(Parse(codec, Cell(row, JsonDataColumn)).value)
  }

  /** The answer depends on the key-1 row alone: rows appended after it (a
      later create-form of the same title) change nothing. */
  lemma GetJsonDataIgnoresLaterRows(db: Database, name: string, more: seq<Row>, codec: Codec)
    requires name in db && FirstWithKey(db[name].rows, SchemaRowKey).Some?
    ensures var t := db[name];
            GetJsonData(db[name := Table(t.columns, t.rows + more, t.nextId + |more|)], name, codec)
              == GetJsonData(db, name, codec)
  {
    FirstWithKeyIgnoresLaterRows(db[name].rows, more, SchemaRowKey);
  }

  // ---------------------------------------------------------------------------
  // active-forms
  // ---------------------------------------------------------------------------

  /** `row` contributes `e` to the listing: its schema parses, and `e` pairs
      the schema's title with the row's raw `is_active`. */
  predicate Contributes(codec: Codec, row: Row, e: DirectoryEntry) {
    && Parse(codec, Cell(row, JsonDataColumn)).Some?
    && e == DirectoryEntry(Parse(codec, Cell(row, JsonDataColumn)).value.title, Cell(row, IsActiveColumn))
  }

  /** The entries of a metadata table's rows, in row order; a row whose schema
      does not parse is skipped. */
  function RowEntries(rows: seq<Row>, codec: Codec): (r: seq<DirectoryEntry>)
    ensures |r| <= |rows|
  {
    if rows == [] then []
    else
      var first := match Parse(codec, Cell(rows[0], JsonDataColumn))
        case None => []
        case Some(d) => [DirectoryEntry(d.title, Cell(rows[0], IsActiveColumn))];
      first + RowEntries(rows[1..], codec)
  }

  lemma {:induction false} RowEntriesMembership(rows: seq<Row>, codec: Codec, e: DirectoryEntry)
    ensures e in RowEntries(rows, codec) <==> exists i :: 0 <= i < |rows| && Contributes(codec, rows[i], e)
  {
    if rows != [] {
      RowEntriesMembership(rows[1..], codec, e);
      if exists i :: 0 <= i < |rows| && Contributes(codec, rows[i], e) {
        var i :| 0 <= i < |rows| && Contributes(codec, rows[i], e);
        if i > 0 {
          assert rows[1..][i - 1] == rows[i];
        }
      }
      if exists i :: 0 <= i < |rows[1..]| && Contributes(codec, rows[1..][i], e) {
        var i :| 0 <= i < |rows[1..]| && Contributes(codec, rows[1..][i], e);
        assert rows[i + 1] == rows[1..][i];
      }
    }
  }

  /** The entries of the listed tables, table by table; a table without both
      `json_data` and `is_active` contributes nothing. */
  function Collect(db: Database, listing: seq<string>, codec: Codec): (r: seq<DirectoryEntry>)
    requires forall i :: 0 <= i < |listing| ==> listing[i] in db
  {
    if listing == [] then []
    else
      var t := db[listing[0]];
      (if IsMetadataTable(t) then RowEntries(t.rows, codec) else []) + Collect(db, listing[1..], codec)
  }

  /** An entry is listed exactly when some row of some listed metadata table
      contributes it. */
  lemma {:induction false} CollectMembership(db: Database, listing: seq<string>, codec: Codec, e: DirectoryEntry)
    requires forall i :: 0 <= i < |listing| ==> listing[i] in db
    ensures e in Collect(db, listing, codec) <==>
      exists k, i :: 0 <= k < |listing| && IsMetadataTable(db[listing[k]])
                     && 0 <= i < |db[listing[k]].rows| && Contributes(codec, db[listing[k]].rows[i], e)
  {
    if listing != [] {
      var t := db[listing[0]];
      RowEntriesMembership(t.rows, codec, e);
      CollectMembership(db, listing[1..], codec, e);
      if exists k, i :: 0 <= k < |listing| && IsMetadataTable(db[listing[k]])
                        && 0 <= i < |db[listing[k]].rows| && Contributes(codec, db[listing[k]].rows[i], e) {
        var k, i :| 0 <= k < |listing| && IsMetadataTable(db[listing[k]])
                    && 0 <= i < |db[listing[k]].rows| && Contributes(codec, db[listing[k]].rows[i], e);
        if k > 0 {
          assert listing[1..][k - 1] == listing[k];
        }
      }
      if exists k, i :: 0 <= k < |listing[1..]| && IsMetadataTable(db[listing[1..][k]])
                        && 0 <= i < |db[listing[1..][k]].rows| && Contributes(codec, db[listing[1..][k]].rows[i], e) {
        var k, i :| 0 <= k < |listing[1..]| && IsMetadataTable(db[listing[1..][k]])
                    && 0 <= i < |db[listing[1..][k]].rows| && Contributes(codec, db[listing[1..][k]].rows[i], e);
        assert listing[k + 1] == listing[1..][k];
      }
    }
  }

  /** `GET /api/active-forms`: one entry per parsable schema row of every
      metadata table, inactive forms included. On a database without tables
      the handler never answers, which is `None` here. */
  function ActiveForms(db: Database, listing: seq<string>, codec: Codec): (r: Option<Response>)
    requires Lists(db, listing)
    ensures r.None? <==> |db| == 0
    ensures r.Some? ==> r.value.status == OkStatus && r.value.body.Entries?
  {
    if listing == [] then
      assert db.Keys == {};
      None
    else
      assert listing[0] in db.Keys;
      Some(Response(OkStatus, Entries(Collect(db, listing, codec))))
  }

  /** The listing holds an entry exactly when a row of some metadata table of
      the database contributes it; whether the form is active plays no part. */
  lemma ActiveFormsMembership(db: Database, listing: seq<string>, codec: Codec, e: DirectoryEntry)
    requires Lists(db, listing) && |db| > 0
    ensures e in ActiveForms(db, listing, codec).value.body.entries <==>
      exists n, i :: n in db && IsMetadataTable(db[n]) && 0 <= i < |db[n].rows| && Contributes(codec, db[n].rows[i], e)
  {
    CollectMembership(db, listing, codec, e);
    if exists n, i :: n in db && IsMetadataTable(db[n]) && 0 <= i < |db[n].rows| && Contributes(codec, db[n].rows[i], e) {
      var n, i :| n in db && IsMetadataTable(db[n]) && 0 <= i < |db[n].rows| && Contributes(codec, db[n].rows[i], e);
      var k :| 0 <= k < |listing| && listing[k] == n;
      assert IsMetadataTable(db[listing[k]]) && Contributes(codec, db[listing[k]].rows[i], e);
    }
  }

  /** The rows of a table whose schema parses, by position. */
  function ParsableRows(rows: seq<Row>, codec: Codec): set<int> {
    set i | 0 <= i < |rows| && Parse(codec, Cell(rows[i], JsonDataColumn)).Some?
  }

  /** How many schema rows parse across the listed metadata tables. */
  function ParsableTotal(db: Database, listing: seq<string>, codec: Codec): nat
    requires forall i :: 0 <= i < |listing| ==> listing[i] in db
  {
    if listing == [] then 0
    else
      var t := db[listing[0]];
      (if IsMetadataTable(t) then |ParsableRows(t.rows, codec)| else 0) + ParsableTotal(db, listing[1..], codec)
  }

  /** Rows contribute in place: the entries of two runs of rows are the
      entries of the first run followed by those of the second. */
  lemma {:induction false} RowEntriesAppend(a: seq<Row>, b: seq<Row>, codec: Codec)
    ensures RowEntries(a + b, codec) == RowEntries(a, codec) + RowEntries(b, codec)
  {
    if a != [] {
      assert (a + b)[0] == a[0];
      assert (a + b)[1..] == a[1..] + b;
      RowEntriesAppend(a[1..], b, codec);
    } else {
      assert a + b == b;
    }
  }

  /** A table lists one entry per row whose schema parses. */
  lemma {:induction false} RowEntriesCount(rows: seq<Row>, codec: Codec)
    ensures |RowEntries(rows, codec)| == |ParsableRows(rows, codec)|
  {
    if rows != [] {
      var n := |rows| - 1;
      var front := rows[..n];
      assert rows == front + [rows[n]];
      RowEntriesAppend(front, [rows[n]], codec);
      RowEntriesCount(front, codec);
      assert [rows[n]][1..] == [];
      if Parse(codec, Cell(rows[n], JsonDataColumn)).Some? {
        assert ParsableRows(rows, codec) == ParsableRows(front, codec) + {n};
      } else {
        assert ParsableRows(rows, codec) == ParsableRows(front, codec);
      }
    }
  }

  /** The listing gathers exactly as many entries as there are parsable rows
      in the listed metadata tables. */
  lemma {:induction false} CollectCount(db: Database, listing: seq<string>, codec: Codec)
    requires forall i :: 0 <= i < |listing| ==> listing[i] in db
    ensures |Collect(db, listing, codec)| == ParsableTotal(db, listing, codec)
  {
    if listing != [] {
      RowEntriesCount(db[listing[0]].rows, codec);
      CollectCount(db, listing[1..], codec);
    }
  }

  /** The listing holds one entry per parsable schema row of the database,
      duplicates included, whether the form is active or not. */
  lemma ActiveFormsCount(db: Database, listing: seq<string>, codec: Codec)
    requires Lists(db, listing) && |db| > 0
    ensures |ActiveForms(db, listing, codec).value.body.entries| == ParsableTotal(db, listing, codec)
  {
    CollectCount(db, listing, codec);
  }

  /** The listing of a database where one table changed is the same as
      before when that table is not listed. */
  lemma {:induction false} CollectUnlisted(db: Database, db': Database, listing: seq<string>, codec: Codec, n: string)
    requires forall i :: 0 <= i < |listing| ==> listing[i] in db && listing[i] in db' && listing[i] != n
    requires forall m :: m in db && m != n ==> m in db' && db'[m] == db[m]
    ensures Collect(db', listing, codec) == Collect(db, listing, codec)
  {
    if listing != [] {
      CollectUnlisted(db, db', listing[1..], codec, n);
    }
  }

  /** The rest of a listing without repeats has no repeats and does not
      hold the first name again. */
  lemma DistinctTail(listing: seq<string>)
    requires Distinct(listing) && listing != []
    ensures Distinct(listing[1..]) && listing[0] !in listing[1..]
  {
    forall i, j | 0 <= i < j < |listing[1..]| ensures listing[1..][i] != listing[1..][j] {
      assert listing[1..][i] == listing[i + 1] && listing[1..][j] == listing[j + 1];
    }
  }

  /** Appending a row to a metadata table adds that row's entry, if its
      schema parses, and changes no other entry. */
  lemma {:induction false} CollectAfterAppend(db: Database, listing: seq<string>, codec: Codec, n: string, row: Row, next: nat)
    requires Distinct(listing) && forall i :: 0 <= i < |listing| ==> listing[i] in db
    requires n in listing && IsMetadataTable(db[n])
    ensures var db' := db[n := Table(db[n].columns, db[n].rows + [row], next)];
            multiset(Collect(db', listing, codec)) == multiset(Collect(db, listing, codec)) + multiset(RowEntries([row], codec))
  {
    var db' := db[n := Table(db[n].columns, db[n].rows + [row], next)];
    DistinctTail(listing);
    if listing[0] == n {
      AppendHere(db, listing, codec, n, row, next);
    } else {
      CollectAfterAppend(db, listing[1..], codec, n, row, next);
      assert db'[listing[0]] == db[listing[0]];
    }
  }

  /** A schema row appended to a metadata table, as create-form does, adds
      its entry to the listing and leaves every other entry as it was. */
  lemma ActiveFormsAfterAppend(db: Database, listing: seq<string>, codec: Codec, n: string, row: Row, next: nat)
    requires Lists(db, listing) && n in db && IsMetadataTable(db[n])
    ensures var db' := db[n := Table(db[n].columns, db[n].rows + [row], next)];
            && Lists(db', listing)
            && multiset(ActiveForms(db', listing, codec).value.body.entries)
               == multiset(ActiveForms(db, listing, codec).value.body.entries) + multiset(RowEntries([row], codec))
  {
    CollectAfterAppend(db, listing, codec, n, row, next);
  }

  /** The appended table heads the listing: its entries gain the new row's
      entry at their end and the rest of the listing is unchanged. */
  lemma AppendHere(db: Database, listing: seq<string>, codec: Codec, n: string, row: Row, next: nat)
    requires listing != [] && listing[0] == n && n !in listing[1..]
    requires forall i :: 0 <= i < |listing| ==> listing[i] in db
    requires IsMetadataTable(db[n])
    ensures var db' := db[n := Table(db[n].columns, db[n].rows + [row], next)];
            Collect(db', listing, codec) == RowEntries(db[n].rows, codec) + RowEntries([row], codec) + Collect(db, listing[1..], codec)
            && Collect(db, listing, codec) == RowEntries(db[n].rows, codec) + Collect(db, listing[1..], codec)
  {
    var db' := db[n := Table(db[n].columns, db[n].rows + [row], next)];
    assert IsMetadataTable(db'[n]) by { assert db'[n].columns == db[n].columns; }
    RowEntriesAppend(db[n].rows, [row], codec);
    CollectUnlisted(db, db', listing[1..], codec, n);
  }

  // ---------------------------------------------------------------------------
  // update-form-status
  // ---------------------------------------------------------------------------

  /** `json_data LIKE pattern` holds for the row. */
  predicate Selected(row: Row, pattern: string) {
    Blob(Cell(row, JsonDataColumn)).Some? && Like(Blob(Cell(row, JsonDataColumn)).value, pattern)
  }

  /** Some row of some metadata table is selected. */
  predicate AnySelected(db: Database, pattern: string) {
    exists n, i :: n in db && IsMetadataTable(db[n]) && 0 <= i < |db[n].rows| && Selected(db[n].rows[i], pattern)
  }

  /** The row after `SET is_active = v` if it is selected. */
  function UpdatedRow(row: Row, pattern: string, v: Value): Row {
    if Selected(row, pattern) then row[IsActiveColumn := v] else row
  }

  /** `UPDATE t SET is_active = v WHERE json_data LIKE pattern`. */
  function SetActive(t: Table, pattern: string, v: Value): (r: Table)
    ensures r.columns == t.columns && r.nextId == t.nextId && |r.rows| == |t.rows|
  {
    Table(t.columns, seq(|t.rows|, i requires 0 <= i < |t.rows| => UpdatedRow(t.rows[i], pattern, v)), t.nextId)
  }

  /** `POST /api/update-form-status`: in every metadata table, every row whose
      schema text matches `%"formTitle"%` gets `is_active` set to the given
      value; 200 when some row matched, 404 otherwise. A title with an
      apostrophe makes every SELECT fail, which also ends in 404 with nothing
      updated. On a database without tables the handler never answers, which
      is `None` here. */
  function UpdateFormStatus(db: Database, listing: seq<string>, formTitle: string, isActive: Value): (r: Option<Outcome>)
    requires Lists(db, listing)
    ensures r.None? <==> |db| == 0
    ensures r.Some? ==>
      && r.value.db.Keys == db.Keys
      && (forall n :: n in db ==> r.value.db[n].columns == db[n].columns && |r.value.db[n].rows| == |db[n].rows|)
      && r.value.response.status in {OkStatus, NotFoundStatus}
      && (r.value.response.status == OkStatus <==> !ClosesLiteral(formTitle) && AnySelected(db, TitlePattern(formTitle)))
    ensures r.Some? && ClosesLiteral(formTitle) ==> r.value.db == db
  {
    if listing == [] then
      assert db.Keys == {};
      None
    else
      assert listing[0] in db.Keys;
      var pattern := TitlePattern(formTitle);
      var db' := StatusUpdated(db, formTitle, isActive);
      if !ClosesLiteral(formTitle) && AnySelected(db, pattern) then
        Some(Outcome(Response(OkStatus, Message("Form status updated successfully")), db'))
      else
        Some(Outcome(Response(NotFoundStatus, Message("Form not found")), db'))
  }

  /** The database after the status update's queries: unchanged when they do
      not parse. */
  function StatusUpdated(db: Database, formTitle: string, v: Value): Database {
    if ClosesLiteral(formTitle) then db else UpdatedDatabase(db, TitlePattern(formTitle), v)
  }

  /** What the update does to each row: a selected row of a metadata table
      takes the new `is_active` and keeps every other cell; every other row,
      every layout and every key counter is unchanged. */
  lemma UpdateFormStatusRows(db: Database, listing: seq<string>, formTitle: string, isActive: Value, n: string, i: int)
    requires Lists(db, listing) && |db| > 0
    requires n in db && 0 <= i < |db[n].rows|
    ensures var db' := UpdateFormStatus(db, listing, formTitle, isActive).value.db;
            var row := db[n].rows[i];
            && db'[n].columns == db[n].columns && db'[n].nextId == db[n].nextId
            && |db'[n].rows| == |db[n].rows|
            && db'[n].rows[i] ==
                 if !ClosesLiteral(formTitle) && IsMetadataTable(db[n]) && Selected(row, TitlePattern(formTitle))
                 then row[IsActiveColumn := isActive] else row
  {
    var pattern := TitlePattern(formTitle);
    UpdatedDatabaseIsOutcome(db, listing, formTitle, isActive);
    if !ClosesLiteral(formTitle) {
      var db' := UpdatedDatabase(db, pattern, isActive);
      assert db'[n] == if IsMetadataTable(db[n]) then SetActive(db[n], pattern, isActive) else db[n];
    }
  }

  /** A 404 leaves the database as it was. */
  lemma UpdateFormStatusNotFound(db: Database, listing: seq<string>, formTitle: string, isActive: Value)
    requires Lists(db, listing) && |db| > 0
    requires UpdateFormStatus(db, listing, formTitle, isActive).value.response.status == NotFoundStatus
    ensures UpdateFormStatus(db, listing, formTitle, isActive).value.db == db
  {
    var db' := UpdateFormStatus(db, listing, formTitle, isActive).value.db;
    var pattern := TitlePattern(formTitle);
    forall n | n in db && !ClosesLiteral(formTitle) ensures db'[n] == db[n] {
      if IsMetadataTable(db[n]) {
        assert db'[n].rows == db[n].rows by {
          forall i | 0 <= i < |db[n].rows| ensures db'[n].rows[i] == db[n].rows[i] {
            assert !Selected(db[n].rows[i], pattern);
          }
        }
      }
    }
  }

  /** Setting a row's `is_active` does not change whether it is selected. */
  lemma UpdatedRowStaysSelected(row: Row, pattern: string, other: string, v: Value)
    ensures Selected(UpdatedRow(row, pattern, v), other) == Selected(row, other)
  {
    assert Cell(UpdatedRow(row, pattern, v), JsonDataColumn) == Cell(row, JsonDataColumn);
  }

  /** The database after the update, whatever the response. */
  function UpdatedDatabase(db: Database, pattern: string, v: Value): Database {
    map n | n in db :: if IsMetadataTable(db[n]) then SetActive(db[n], pattern, v) else db[n]
  }

  lemma UpdatedDatabaseIsOutcome(db: Database, listing: seq<string>, formTitle: string, isActive: Value)
    requires Lists(db, listing) && |db| > 0
    ensures UpdateFormStatus(db, listing, formTitle, isActive).value.db == StatusUpdated(db, formTitle, isActive)
  {
  }

  lemma UpdatedDatabaseLayout(db: Database, pattern: string, v: Value, n: string)
    requires n in db
    ensures n in UpdatedDatabase(db, pattern, v)
    ensures UpdatedDatabase(db, pattern, v)[n].columns == db[n].columns
  {
  }

  /** The selected rows are the same after the update. */
  lemma {:induction false} UpdateKeepsSelection(db: Database, pattern: string, v: Value)
    ensures AnySelected(UpdatedDatabase(db, pattern, v), pattern) == AnySelected(db, pattern)
  {
    var db1 := UpdatedDatabase(db, pattern, v);
    if AnySelected(db, pattern) {
      var n, i :| n in db && IsMetadataTable(db[n]) && 0 <= i < |db[n].rows| && Selected(db[n].rows[i], pattern);
      UpdatedRowAt(db, pattern, v, n, i);
    }
    if AnySelected(db1, pattern) {
      var n, i :| n in db1 && IsMetadataTable(db1[n]) && 0 <= i < |db1[n].rows| && Selected(db1[n].rows[i], pattern);
      UpdatedDatabaseLayout(db, pattern, v, n);
      UpdatedRowAt(db, pattern, v, n, i);
    }
  }

  /** A row of a metadata table keeps its place, its table's layout and its
      selection through the update. */
  lemma UpdatedRowAt(db: Database, pattern: string, v: Value, n: string, i: int)
    requires n in db && IsMetadataTable(db[n]) && 0 <= i < |db[n].rows|
    ensures var db1 := UpdatedDatabase(db, pattern, v);
            && n in db1 && IsMetadataTable(db1[n]) && 0 <= i < |db1[n].rows|
            && db1[n].rows[i] == UpdatedRow(db[n].rows[i], pattern, v)
            && Selected(db1[n].rows[i], pattern) == Selected(db[n].rows[i], pattern)
  {
    var db1 := UpdatedDatabase(db, pattern, v);
    assert db1[n] == SetActive(db[n], pattern, v);
    UpdatedRowStaysSelected(db[n].rows[i], pattern, pattern, v);
  }

  /** Updating twice with the same pattern and value is updating once. */
  lemma {:induction false} UpdatedDatabaseIdempotent(db: Database, pattern: string, v: Value)
    ensures UpdatedDatabase(UpdatedDatabase(db, pattern, v), pattern, v) == UpdatedDatabase(db, pattern, v)
  {
    var db1 := UpdatedDatabase(db, pattern, v);
    var db2 := UpdatedDatabase(db1, pattern, v);
    forall n | n in db ensures db2[n] == db1[n] {
      if IsMetadataTable(db[n]) {
        assert db2[n].rows == db1[n].rows by {
          forall i | 0 <= i < |db1[n].rows| ensures db2[n].rows[i] == db1[n].rows[i] {
            assert db1[n].rows[i] == UpdatedRow(db[n].rows[i], pattern, v);
            UpdatedRowStaysSelected(db[n].rows[i], pattern, pattern, v);
          }
        }
      }
    }
  }

  /** Repeating an update with the same title and value changes nothing more:
      same database, same answer. */
  lemma UpdateFormStatusIdempotent(db: Database, listing: seq<string>, formTitle: string, isActive: Value)
    requires Lists(db, listing) && |db| > 0
    ensures var once := UpdateFormStatus(db, listing, formTitle, isActive).value;
            && Lists(once.db, listing)
            && UpdateFormStatus(once.db, listing, formTitle, isActive).value == once
  {
    var pattern := TitlePattern(formTitle);
    var once := UpdateFormStatus(db, listing, formTitle, isActive).value;
    UpdatedDatabaseIsOutcome(db, listing, formTitle, isActive);
    assert Lists(once.db, listing);
    UpdatedDatabaseIsOutcome(once.db, listing, formTitle, isActive);
    if !ClosesLiteral(formTitle) {
      UpdatedDatabaseIdempotent(db, pattern, isActive);
      UpdateKeepsSelection(db, pattern, isActive);
    }
  }

  /** For a title free of `%`, `_` and backslashes, a row is selected exactly
      when its schema text contains the title between double quotes. */
  lemma LiteralTitleSelection(row: Row, formTitle: string)
    requires IsLiteral(formTitle)
    ensures Selected(row, TitlePattern(formTitle)) <==>
      Blob(Cell(row, JsonDataColumn)).Some? && Contains(Blob(Cell(row, JsonDataColumn)).value, Quoted(formTitle))
  {
    if Blob(Cell(row, JsonDataColumn)).Some? {
      TitlePatternIsQuotedSubstring(Blob(Cell(row, JsonDataColumn)).value, formTitle);
    }
  }
}

=== FILE: dynamic_form.dfy ===
/** The live form a respondent fills in: the view state built from the
    schema fetch, the change handlers, the required-field check before posting,
    and the control each question type is rendered as. */
module DynamicForm {
  import opened Wrappers
  import opened Objects
  import opened Text
  import opened Schema
  import opened Api

  /** The answers typed so far, keyed by question text. */
  type FormData = Object<string>

  /** Some question has exactly this text. */
  predicate HasText(questions: seq<Question>, k: string) {
    exists i :: 0 <= i < |questions| && questions[i].text == k
  }

  /** `questions.reduce((acc, f) => { acc[f.text] = ''; return acc }, {})`. */
  function InitialData(questions: seq<Question>): FormData {
    if questions == [] then []
    else Put(InitialData(questions[..|questions| - 1]), questions[|questions| - 1].text, "")
  }

  /** The initial answers hold one empty answer per distinct question text and
      nothing else. */
  lemma {:induction false} InitialDataSpec(questions: seq<Question>, k: string)
    ensures Distinct(Keys(InitialData(questions)))
    ensures Get(InitialData(questions), k) == if HasText(questions, k) then Some("") else None
  {
    if questions != [] {
      var front := questions[..|questions| - 1];
      var last := questions[|questions| - 1];
      assert InitialData(questions) == Put(InitialData(front), last.text, "");
      InitialDataSpec(front, k);
      PutSpec(InitialData(front), last.text, "", k);
      if HasText(front, k) {
        var i :| 0 <= i < |front| && front[i].text == k;
        assert questions[i] == front[i];
      }
      if HasText(questions, k) && last.text != k {
        var i :| 0 <= i < |questions| && questions[i].text == k;
        assert i < |front| && front[i] == questions[i];
      }
    }
  }

  // ---------------------------------------------------------------------------
  // View state
  // ---------------------------------------------------------------------------

  datatype View = View(
    loading: bool,
    title: string,
    description: string,
    postscript: string,
    fields: seq<Question>,
    data: FormData,
    errorMessage: string,
    submitted: bool)

  /** The state before the fetch returns. */
  const InitialView := View(true, "Dynamic Form", "", "", [], [], "", false)

  /** The fetch of `/get-json-data/:tableName` settles; `None` is a failure
      without a response. A schema fills the view; a 403 shows its message;
      anything else leaves the defaults. Loading ends in every case. */
  function Load(answer: Option<Response>): (v: View)
    ensures !v.loading && !v.submitted
    ensures v.errorMessage != "" ==> answer.Some? && answer.value.status == ForbiddenStatus
    ensures answer.Some? && answer.value.status == OkStatus && answer.value.body.Document? ==>
      var doc := answer.value.body.doc;
      && v.title == doc.title && v.description == doc.description && v.postscript == doc.postscript
      && v.fields == doc.questions && v.data == InitialData(doc.questions)
    ensures answer.Some? && answer.value.status == ForbiddenStatus && answer.value.body.Failure? ==>
      v == InitialView.(loading := false, errorMessage := answer.value.body.error)
    ensures !SchemaOrRefusal(answer) ==> v == InitialView.(loading := false)
  {
    var settled := InitialView.(loading := false);
    match answer
    case None => settled
    case Some(response) =>
      if response.status == OkStatus && response.body.Document? then
        var doc := response.body.doc;
        settled.(title := doc.title, description := doc.description, postscript := doc.postscript,
                 fields := doc.questions, data := InitialData(doc.questions))
      else if response.status == ForbiddenStatus && response.body.Failure? then
        settled.(errorMessage := response.body.error)
      else
        settled
  }

  /** The answer carries a schema (200) or a refusal message (403). */
  predicate SchemaOrRefusal(answer: Option<Response>) {
    && answer.Some?
    && ((answer.value.status == OkStatus && answer.value.body.Document?)
        || (answer.value.status == ForbiddenStatus && answer.value.body.Failure?))
  }

  /** Any other outcome of the fetch (no answer, 404, 500) shows the empty
      default form: the title "Dynamic Form" with no description and no
      questions. */
  lemma DefaultFormShown(answer: Option<Response>)
    requires !SchemaOrRefusal(answer)
    ensures Render(Load(answer)) == FormCard(InitialView.title, "", [])
  {
  }

  /** A refusal with a message is shown as that message. */
  lemma RefusalShown(message: string)
    requires message != ""
    ensures Render(Load(Some(Response(ForbiddenStatus, Failure(message))))) == ErrorNotice(message)
  {
  }

  /** What the component shows. */
  datatype Screen =
    | Spinner
    | ErrorNotice(message: string)
    | ThankYou(postscript: string)
    | FormCard(title: string, description: string, questions: seq<Question>)

  function Render(v: View): (s: Screen)
    ensures s.FormCard? <==> !v.loading && v.errorMessage == "" && !v.submitted
    ensures s.ThankYou? ==> v.submitted && s.postscript == v.postscript
  {
    if v.loading then Spinner
    else if v.errorMessage != "" then ErrorNotice(v.errorMessage)
    else if v.submitted then ThankYou(v.postscript)
    else FormCard(v.title, v.description, v.fields)
  }

  // ---------------------------------------------------------------------------
  // Change handlers
  // ---------------------------------------------------------------------------

  /** `setFormData({ ...formData, [name]: value })`. */
  function HandleChange(data: FormData, name: string, value: string): (r: FormData)
    ensures Get(r, name) == Some(value)
  {
    PutSpec(data, name, value, name);
    Put(data, name, value)
  }

  /** An edit of one answer leaves every other answer alone. */
  lemma HandleChangeFrame(data: FormData, name: string, value: string, other: string)
    requires other != name
    ensures Get(HandleChange(data, name, value), other) == Get(data, other)
  {
    PutSpec(data, name, value, other);
  }

  /** The ticked options of a tick question: the stored answer split at
      commas, none when it is missing or empty. */
  function Selections(data: FormData, name: string): seq<string> {
    match Get(data, name)
    case None => []
    case Some(s) => if s != "" then Split(s, ',') else []
  }

  /** `(formData[name]?.split(',') || []).includes(opt)`: the checkbox state. */
  predicate Checked(data: FormData, name: string, opt: string) {
    match Get(data, name)
    case None => false
    case Some(s) => opt in Split(s, ',')
  }

  /** For a non-empty option, the checkbox shows exactly the selections. */
  lemma CheckedIsSelected(data: FormData, name: string, opt: string)
    requires opt != ""
    ensures Checked(data, name, opt) <==> opt in Selections(data, name)
  {
    if Get(data, name) == Some("") {
      assert Split("", ',') == [[]];
    }
  }

  /** `xs.indexOf(x)` for an `x` in `xs`: the position of its first occurrence. */
  function IndexOf(xs: seq<string>, x: string): (k: nat)
    requires x in xs
    ensures k < |xs| && xs[k] == x && x !in xs[..k]
  {
    if xs[0] == x then 0
    else
      var k := IndexOf(xs[1..], x);
      assert xs[..k + 1] == [xs[0]] + xs[1..][..k];
      k + 1
  }

  /** `xs.splice(xs.indexOf(x), 1)` for an `x` in `xs`: exactly one element
      is cut out, the first equal to `x`, and the others keep their order. */
  function RemoveFirst(xs: seq<string>, x: string): (r: seq<string>)
    ensures x in xs ==> |r| == |xs| - 1 && exists k :: SplicedAt(xs, x, r, k)
    ensures x !in xs ==> r == xs
  {
    if x in xs then
      var k := IndexOf(xs, x);
      assert SplicedAt(xs, x, xs[..k] + xs[k + 1..], k);
      xs[..k] + xs[k + 1..]
    else xs
  }

  /** `r` is `xs` with its element at `k`, the first `x`, cut out. */
  predicate SplicedAt(xs: seq<string>, x: string, r: seq<string>, k: int) {
    0 <= k < |xs| && xs[k] == x && x !in xs[..k] && r == xs[..k] + xs[k + 1..]
  }

  /** `handleCheckboxChange(name, value)`: untick if ticked, else tick, and
      store the selections joined with commas. */
  function HandleCheckboxChange(data: FormData, name: string, value: string): FormData {
    var current := Selections(data, name);
    var next := if value in current then RemoveFirst(current, value) else current + [value];
    Put(data, name, Join(next, ","))
  }

  /** Selections as toggling keeps them: non-empty, comma-free, each once. */
  predicate WellFormedTicks(xs: seq<string>) {
    && Distinct(xs)
    && forall i :: 0 <= i < |xs| ==> xs[i] != "" && ',' !in xs[i]
  }

  /** Removing the first occurrence from distinct pieces removes that piece
      and keeps the rest. */
  lemma RemoveFirstDistinct(xs: seq<string>, x: string, y: string)
    requires Distinct(xs)
    ensures Distinct(RemoveFirst(xs, x))
    ensures x !in RemoveFirst(xs, x)
    ensures y != x ==> (y in RemoveFirst(xs, x) <==> y in xs)
    ensures forall i :: 0 <= i < |RemoveFirst(xs, x)| ==> RemoveFirst(xs, x)[i] in xs
  {
    if x in xs {
      var r := RemoveFirst(xs, x);
      var k :| SplicedAt(xs, x, r, k);
      forall i, j | 0 <= i < j < |r| ensures r[i] != r[j] {
        SpliceAt(xs, k, i);
        SpliceAt(xs, k, j);
      }
      forall i | 0 <= i < |r| ensures r[i] != x && r[i] in xs {
        SpliceAt(xs, k, i);
      }
      if y != x && y in xs {
        var j :| 0 <= j < |xs| && xs[j] == y;
        SpliceAt(xs, k, if j < k then j else j - 1);
      }
    }
  }

  /** The element at `i` once the one at `k` is cut out. */
  lemma SpliceAt(xs: seq<string>, k: int, i: int)
    requires 0 <= k < |xs| && 0 <= i < |xs| - 1
    ensures (xs[..k] + xs[k + 1..])[i] == xs[if i < k then i else i + 1]
  {
  }

  /** The selections are what was stored, once they are well formed. */
  lemma StoredSelections(data: FormData, name: string, next: seq<string>)
    requires WellFormedTicks(next)
    ensures Selections(Put(data, name, Join(next, ",")), name) == next
  {
    PutSpec(data, name, Join(next, ","), name);
    if next != [] {
      assert next[0] != "";
      assert Join(next, ",")[..|next[0]|] == next[0];
      SplitJoin(next, ',');
    }
  }

  /** Toggling a non-empty, comma-free option in well-formed selections
      keeps them well formed, flips that option and keeps every other. */
  lemma ToggledTicks(current: seq<string>, opt: string, other: string)
    requires opt != "" && ',' !in opt && WellFormedTicks(current)
    ensures var next := if opt in current then RemoveFirst(current, opt) else current + [opt];
            && WellFormedTicks(next)
            && (opt in next <==> opt !in current)
            && (other != opt ==> (other in next <==> other in current))
  {
    if opt in current {
      RemoveFirstDistinct(current, opt, other);
    } else {
      var next := current + [opt];
      assert forall i :: 0 <= i < |current| ==> next[i] == current[i];
    }
  }

  /** Ticking a non-empty, comma-free option flips its checkbox, leaves every
      other option's checkbox and every other answer alone, and keeps the
      selections well formed. */
  lemma HandleCheckboxChangeSpec(data: FormData, name: string, opt: string, other: string)
    requires opt != "" && ',' !in opt
    requires WellFormedTicks(Selections(data, name))
    ensures var after := HandleCheckboxChange(data, name, opt);
            && WellFormedTicks(Selections(after, name))
            && Checked(after, name, opt) == !Checked(data, name, opt)
            && (other != opt && other != "" ==> Checked(after, name, other) == Checked(data, name, other))
            && (other != name ==> Get(after, other) == Get(data, other))
  {
    var current := Selections(data, name);
    var next := if opt in current then RemoveFirst(current, opt) else current + [opt];
    var after := HandleCheckboxChange(data, name, opt);
    ToggledTicks(current, opt, other);
    StoredSelections(data, name, next);
    CheckedIsSelected(data, name, opt);
    CheckedIsSelected(after, name, opt);
    if other != "" {
      CheckedIsSelected(data, name, other);
      CheckedIsSelected(after, name, other);
    }
    PutSpec(data, name, Join(next, ","), other);
  }

  /** Ticking an option twice restores every checkbox of the question. */
  lemma HandleCheckboxChangeTwice(data: FormData, name: string, opt: string, other: string)
    requires opt != "" && ',' !in opt && other != ""
    requires WellFormedTicks(Selections(data, name))
    ensures Checked(HandleCheckboxChange(HandleCheckboxChange(data, name, opt), name, opt), name, other)
            == Checked(data, name, other)
  {
    var once := HandleCheckboxChange(data, name, opt);
    HandleCheckboxChangeSpec(data, name, opt, other);
    HandleCheckboxChangeSpec(once, name, opt, other);
  }

  /** With nothing else ticked, the empty option, once ticked, cannot be
      unticked: its selections join to the empty answer, which reads back as
      no selection, so the next tick adds it again. */
  lemma EmptyOptionStaysTicked(data: FormData, name: string)
    requires Selections(data, name) == []
    ensures var once := HandleCheckboxChange(data, name, "");
            var twice := HandleCheckboxChange(once, name, "");
            && Get(once, name) == Some("") && Checked(once, name, "")
            && Get(twice, name) == Some("") && Checked(twice, name, "")
  {
    assert Join([""], ",") == "";
    assert Split("", ',') == [[]];
    var once := HandleCheckboxChange(data, name, "");
    PutSpec(data, name, "", name);
    assert Selections(once, name) == [];
    PutSpec(once, name, "", name);
  }

  /** An option holding a comma never shows as ticked: the stored answer is
      split at commas before it is searched. */
  lemma CommaOptionNeverChecked(data: FormData, name: string, opt: string)
    requires ',' in opt
    ensures !Checked(data, name, opt)
  {
  }

  // ---------------------------------------------------------------------------
  // Submit
  // ---------------------------------------------------------------------------

  /** `!formData[text] || formData[text].trim() === ''`. */
  predicate Blank(data: FormData, text: string) {
    match Get(data, text)
    case None => true
    case Some(s) => Trim(s) == ""
  }

  /** `q` is one of the questions, is required, and has a blank answer. */
  predicate IsMissing(questions: seq<Question>, data: FormData, q: Question) {
    q in questions && q.required && Blank(data, q.text)
  }

  /** The required questions whose answer is blank, in question order. */
  function MissingFields(questions: seq<Question>, data: FormData): (r: seq<Question>)
    ensures |r| <= |questions|
    ensures forall i :: 0 <= i < |r| ==> IsMissing(questions, data, r[i])
  {
    if questions == [] then []
    else
      var q := questions[0];
      (if q.required && Blank(data, q.text) then [q] else []) + MissingFields(questions[1..], data)
  }

  lemma {:induction false} MissingFieldsMembership(questions: seq<Question>, data: FormData, q: Question)
    ensures q in MissingFields(questions, data) <==> q in questions && q.required && Blank(data, q.text)
  {
    if questions != [] {
      MissingFieldsMembership(questions[1..], data, q);
      assert questions == [questions[0]] + questions[1..];
    }
  }

  /** `s` can be obtained from `t` by deleting elements: matching each
      element of `s` against the earliest possible one of `t` succeeds. */
  predicate IsSubsequence(s: seq<Question>, t: seq<Question>)
    decreases |t|
  {
    s == [] || (t != [] && if s[0] == t[0] then IsSubsequence(s[1..], t[1..]) else IsSubsequence(s, t[1..]))
  }

  /** Dropping the first element of a subsequence leaves a subsequence. */
  lemma {:induction false} SubsequenceTail(s: seq<Question>, t: seq<Question>)
    requires s != [] && IsSubsequence(s, t)
    ensures IsSubsequence(s[1..], t)
    decreases |t|, 0
  {
    if s[0] == t[0] {
      if s[1..] != [] {
        SubsequenceWeaken(s[1..], t[1..], t[0]);
      }
    } else {
      SubsequenceTail(s, t[1..]);
      if s[1..] != [] {
        SubsequenceWeaken(s[1..], t[1..], t[0]);
      }
    }
  }

  /** A subsequence of the tail is a subsequence of the whole. */
  lemma {:induction false} SubsequenceWeaken(s: seq<Question>, rest: seq<Question>, x: Question)
    requires IsSubsequence(s, rest)
    ensures IsSubsequence(s, [x] + rest)
    decreases |rest|, 1
  {
    var t := [x] + rest;
    assert t[1..] == rest;
    if s != [] && s[0] == x {
      SubsequenceTail(s, rest);
    }
  }

  /** The missing questions keep the schema's order: they are a subsequence
      of the questions. */
  lemma {:induction false} MissingFieldsSubsequence(questions: seq<Question>, data: FormData)
    ensures IsSubsequence(MissingFields(questions, data), questions)
  {
    if questions != [] {
      var q := questions[0];
      var rest := MissingFields(questions[1..], data);
      MissingFieldsSubsequence(questions[1..], data);
      if !(q.required && Blank(data, q.text)) {
        assert MissingFields(questions, data) == rest;
        SubsequenceWeaken(rest, questions[1..], q);
        assert [q] + questions[1..] == questions;
      } else {
        assert MissingFields(questions, data) == [q] + rest;
      }
    }
  }

  /** `handleSubmit`: blocked while a required answer is blank; otherwise the
      answers are posted as they are, keyed by question text, and the form
      gives way to the thank-you note only if the post succeeds. */
  function HandleSubmit(v: View, postOk: bool): (r: (View, Option<FormData>))
    ensures r.1.Some? <==> forall q :: q in v.fields && q.required ==> !Blank(v.data, q.text)
    ensures r.1.Some? ==> r.1.value == v.data && r.0 == v.(submitted := v.submitted || postOk)
    ensures r.1.None? ==> r.0 == v
  {
    var missing := MissingFields(v.fields, v.data);
    if missing != [] then
      assert missing[0] in missing;
      MissingFieldsMembership(v.fields, v.data, missing[0]);
      (v, None)
    else
      assert forall q :: q in v.fields && q.required ==> !Blank(v.data, q.text) by {
        forall q | q in v.fields && q.required ensures !Blank(v.data, q.text) {
          MissingFieldsMembership(v.fields, v.data, q);
        }
      }
      (if postOk then v.(submitted := true) else v, Some(v.data))
  }

  /** Freshly loaded answers are all blank, so a form with a required question
      cannot be sent before it is answered. */
  lemma FreshFormBlocksRequired(questions: seq<Question>, i: int)
    requires 0 <= i < |questions| && questions[i].required
    ensures Blank(InitialData(questions), questions[i].text)
  {
    InitialDataSpec(questions, questions[i].text);
    assert Trim("") == "";
  }

  // ---------------------------------------------------------------------------
  // Controls
  // ---------------------------------------------------------------------------

  datatype Control =
    | TextBox(inputType: string, shown: string, required: bool)
    | Dropdown(placeholder: string, choices: seq<string>, shown: string, required: bool)
    | TickBoxes(boxes: seq<(string, bool)>)
    | Slider(min: int, max: int, shown: string, required: bool)
      /** `q.options.map` on a question without options throws. */
    | Broken

  const Placeholder := "-- Select an option --"
  const SliderMin := 0
  const SliderMax := 10
  const SliderFallback := "5"

  /** `formData[q.text] || ''`. */
  function Shown(data: FormData, text: string): string {
    match Get(data, text)
    case None => ""
    case Some(s) => s
  }

  /** The control rendered for a question, chosen by its lower-cased type. */
  function ControlFor(q: Question, data: FormData): (c: Control)
    ensures c.Broken? <==> Classify(q.qtype) in {ChoiceKind, TickKind} && q.options.None?
    ensures c.TickBoxes? ==>
      && Classify(q.qtype) == TickKind
      && |c.boxes| == |q.options.value|
      && forall i :: 0 <= i < |c.boxes| ==> c.boxes[i] == (q.options.value[i], Checked(data, q.text, q.options.value[i]))
    ensures c.Dropdown? ==>
      && Classify(q.qtype) == ChoiceKind
      && c.placeholder == Placeholder && c.choices == q.options.value && c.shown == Shown(data, q.text)
    ensures c.Slider? ==> c.min == SliderMin && c.max == SliderMax && c.shown != ""
    ensures c.Slider? ==> Shown(data, q.text) != "" ==> c.shown == Shown(data, q.text)
    ensures c.TextBox? && c.inputType == "text" <==> Classify(q.qtype) in {StringKind, Unrecognised}
    ensures Classify(q.qtype) in {StringKind, Unrecognised} ==> c == TextBox("text", Shown(data, q.text), q.required)
    ensures Classify(q.qtype) == IntegerKind ==> c == TextBox("number", Shown(data, q.text), q.required)
    ensures Classify(q.qtype) == DateKind ==> c == TextBox("date", Shown(data, q.text), q.required)
    ensures Classify(q.qtype) == ChoiceKind && q.options.Some? ==>
      c == Dropdown(Placeholder, q.options.value, Shown(data, q.text), q.required)
    ensures Classify(q.qtype) == TickKind && q.options.Some? ==> c.TickBoxes?
    ensures Classify(q.qtype) == MeterKind ==>
      && c.Slider? && c.min == SliderMin && c.max == SliderMax && c.required == q.required
      && (Shown(data, q.text) == "" ==> c.shown == SliderFallback)
      && (Shown(data, q.text) != "" ==> c.shown == Shown(data, q.text))
  {
    var shown := Shown(data, q.text);
    match Classify(q.qtype)
    case StringKind => TextBox("text", shown, q.required)
    case IntegerKind => TextBox("number", shown, q.required)
    case DateKind => TextBox("date", shown, q.required)
    case ChoiceKind =>
      if q.options.None? then Broken else Dropdown(Placeholder, q.options.value, shown, q.required)
    case TickKind =>
      if q.options.None? then Broken
      else
        var opts := q.options.value;
        TickBoxes(seq(|opts|, i requires 0 <= i < |opts| => (opts[i], Checked(data, q.text, opts[i]))))
    case MeterKind => Slider(SliderMin, SliderMax, if shown == "" then SliderFallback else shown, q.required)
    case Unrecognised => TextBox("text", shown, q.required)
  }

  /** The control depends on the type's letters, not their case. */
  lemma ControlIgnoresCase(q: Question, data: FormData)
    ensures ControlFor(q.(qtype := ToLower(q.qtype)), data) == ControlFor(q, data)
  {
    ToLowerIdempotent(q.qtype);
    ClassifyIgnoresCase(ToLower(q.qtype), q.qtype);
  }

  /** A `time` question, which the creator offers, is rendered as plain text. */
  lemma TimeRendersAsText(q: Question, data: FormData)
    requires q.qtype == TimeType
    ensures ControlFor(q, data) == TextBox("text", Shown(data, q.text), q.required)
  {
    assert ToLower(TimeType) == TimeType;
    TimeIsUnrecognised(q.qtype);
  }
}

=== FILE: form_creator.dfy ===
/** The form designer: the list of draft questions and its edits, the payload
    posted to create-form, the type menu, and the display of table names. */
module FormCreator {
  import opened Wrappers
  import opened Text
  import opened Schema
  import Provisioning

  /** A question being designed; `options` is empty until options are typed. */
  datatype Draft = Draft(question: string, qtype: string, options: seq<string>, required: bool)

  const BlankDraft := Draft("", StringType, [], false)

  /** `addQuestion`: one blank string question at the end. */
  function AddQuestion(drafts: seq<Draft>): (r: seq<Draft>)
    ensures |r| == |drafts| + 1 && r[..|drafts|] == drafts && r[|drafts|] == BlankDraft
  {
    drafts + [BlankDraft]
  }

  /** The fields `handleQuestionChange` sets. */
  datatype Edit = SetText(text: string) | SetType(qtype: string) | SetRequired(required: bool)

  function Apply(d: Draft, e: Edit): Draft {
    match e
    case SetText(t) => d.(question := t)
    case SetType(t) => d.(qtype := t)
    case SetRequired(b) => d.(required := b)
  }

  /** `handleQuestionChange(index, field, value)`; the index is always that of
      a rendered question. */
  function HandleQuestionChange(drafts: seq<Draft>, index: nat, e: Edit): (r: seq<Draft>)
    requires index < |drafts|
    ensures |r| == |drafts|
    ensures forall i :: 0 <= i < |drafts| && i != index ==> r[i] == drafts[i]
    ensures r[index] == Apply(drafts[index], e)
  {
    drafts[index := Apply(drafts[index], e)]
  }

  /** `value.split(',').map(opt => opt.trim())`. */
  function ParseOptions(value: string): (r: seq<string>)
    ensures |r| == multiset(value)[','] + 1 && |r| == |Split(value, ',')|
    ensures forall i :: 0 <= i < |r| ==> r[i] == Trim(Split(value, ',')[i])
    ensures forall i :: 0 <= i < |r| ==>
      ',' !in r[i] && (r[i] == [] || (!IsWhitespace(r[i][0]) && !IsWhitespace(r[i][|r[i]| - 1])))
  {
    var pieces := Split(value, ',');
    SplitCount(value, ',');
    seq(|pieces|, i requires 0 <= i < |pieces| => TrimmedPiece(pieces[i]))
  }

  function TrimmedPiece(s: string): (r: string)
    requires ',' !in s
    ensures r == Trim(s) && ',' !in r
  {
    TrimKeepsAbsent(s, ',');
    Trim(s)
  }

  /** Options that are already trimmed and comma-free come back unchanged
      from their comma-joined text. */
  lemma ParseOptionsJoin(options: seq<string>)
    requires |options| >= 1
    requires forall i :: 0 <= i < |options| ==> ',' !in options[i]
    requires forall i :: 0 <= i < |options| ==>
      (options[i] == [] || (!IsWhitespace(options[i][0]) && !IsWhitespace(options[i][|options[i]| - 1])))
    ensures ParseOptions(Join(options, ",")) == options
  {
    SplitJoin(options, ',');
    forall i | 0 <= i < |options| ensures TrimmedPiece(options[i]) == options[i] {
      TrimFixedPoint(options[i]);
    }
  }

  /** Options typed with whitespace around them, as in `a, b`, come back
      without it. */
  lemma ParseOptionsSpaced(options: seq<string>, pre: seq<string>, post: seq<string>)
    requires |options| >= 1 && |pre| == |options| && |post| == |options|
    requires forall i :: 0 <= i < |options| ==> ',' !in options[i]
    requires forall i :: 0 <= i < |options| ==>
      (options[i] == [] || (!IsWhitespace(options[i][0]) && !IsWhitespace(options[i][|options[i]| - 1])))
    requires forall i :: 0 <= i < |options| ==> AllWhitespace(pre[i]) && AllWhitespace(post[i])
    ensures ParseOptions(Join(seq(|options|, i requires 0 <= i < |options| => pre[i] + options[i] + post[i]), ",")) == options
  {
    var typed := seq(|options|, i requires 0 <= i < |options| => pre[i] + options[i] + post[i]);
    forall i | 0 <= i < |typed| ensures ',' !in typed[i] {
      assert ',' !in pre[i] && ',' !in post[i];
    }
    SplitJoin(typed, ',');
    forall i | 0 <= i < |options| ensures Trim(typed[i]) == options[i] {
      TrimPadded(pre[i], options[i], post[i]);
    }
  }

  /** `a, b` is read as the two options `a` and `b`. */
  lemma ParseOptionsExample()
    ensures ParseOptions("a, b") == ["a", "b"]
  {
    var options, pre, post := ["a", "b"], ["", " "], ["", ""];
    var typed := seq(2, i requires 0 <= i < 2 => pre[i] + options[i] + post[i]);
    assert typed[0] == "a" && typed[1] == " b";
    assert typed == ["a", " b"];
    assert Join(typed, ",") == "a, b" by {
      assert Join(typed[1..], ",") == " b";
    }
    ParseOptionsSpaced(options, pre, post);
  }

  /** `handleOptionsChange(index, value)`. */
  function HandleOptionsChange(drafts: seq<Draft>, index: nat, value: string): (r: seq<Draft>)
    requires index < |drafts|
    ensures |r| == |drafts|
    ensures forall i :: 0 <= i < |drafts| && i != index ==> r[i] == drafts[i]
    ensures r[index] == drafts[index].(options := ParseOptions(value))
  {
    drafts[index := drafts[index].(options := ParseOptions(value))]
  }

  /** Once the options box has been typed in, even cleared, the question
      carries options: clearing it leaves one empty option. */
  lemma ClearedOptionsBox(drafts: seq<Draft>, index: nat)
    requires index < |drafts|
    ensures HandleOptionsChange(drafts, index, "")[index].options == [""]
  {
    assert Split("", ',') == [[]];
    TrimFixedPoint("");
  }

  // ---------------------------------------------------------------------------
  // Payload
  // ---------------------------------------------------------------------------

  /** One question of the payload: options are omitted when there are none. */
  function ToQuestion(d: Draft): (q: Question)
    ensures q.text == d.question && q.qtype == d.qtype && q.required == d.required
    ensures q.options.None? <==> d.options == []
  {
    Question(d.question, d.qtype, if |d.options| > 0 then Some(d.options) else None, d.required)
  }

  /** The draft a payload question came from. */
  function ToDraft(q: Question): Draft {
    Draft(q.text, q.qtype, match q.options case None => [] case Some(o) => o, q.required)
  }

  /** Nothing about a draft is lost in the payload. */
  lemma DraftRoundTrip(d: Draft)
    ensures ToDraft(ToQuestion(d)) == d
  {
  }

  /** A question with no options or with a non-empty list survives the way
      back. */
  lemma QuestionRoundTrip(q: Question)
    requires q.options.None? || q.options.value != []
    ensures ToQuestion(ToDraft(q)) == q
  {
  }

  /** The request `handleSubmit` posts to create-form. */
  function Payload(title: string, description: string, postscript: string, drafts: seq<Draft>): (r: Provisioning.CreateRequest)
    ensures r.title == Some(title) && r.description == description && r.postscript == postscript
    ensures r.questions.Some? && |r.questions.value| == |drafts|
    ensures forall i :: 0 <= i < |drafts| ==> r.questions.value[i] == ToQuestion(drafts[i])
  {
    Provisioning.CreateRequest(Some(title), description, postscript,
      Some(seq(|drafts|, i requires 0 <= i < |drafts| => ToQuestion(drafts[i]))))
  }

  /** The server turns a designer's payload away before touching the database
      exactly when it has no question or a question without text. */
  lemma PayloadAccepted(title: string, description: string, postscript: string, drafts: seq<Draft>)
    ensures Provisioning.Accepted(Payload(title, description, postscript, drafts)) <==>
      |drafts| > 0 && forall i :: 0 <= i < |drafts| ==> drafts[i].question != ""
  {
    var r := Payload(title, description, postscript, drafts);
    if |drafts| > 0 && forall i :: 0 <= i < |drafts| ==> drafts[i].question != "" {
      assert Provisioning.AllHaveText(r.questions.value);
    }
  }

  // ---------------------------------------------------------------------------
  // Type menu and names
  // ---------------------------------------------------------------------------

  /** The types offered in the question's drop-down, in menu order. */
  const SelectableTypes := [StringType, IntegerType, DateType, TimeType, MeterType, ChoiceType, TickType]

  /** `['multiple choice question', 'multiple tick answer'].includes(q.type)`. */
  predicate OptionsInputShown(qtype: string) {
    qtype in [ChoiceType, TickType]
  }

  /** For every type on the menu, the options box is shown exactly for the
      types rendered from options, and only `time` has no control of its own. */
  lemma SelectableTypesClassified(i: int)
    requires 0 <= i < |SelectableTypes|
    ensures OptionsInputShown(SelectableTypes[i]) <==> Classify(SelectableTypes[i]) in {ChoiceKind, TickKind}
    ensures Classify(SelectableTypes[i]) == Unrecognised <==> SelectableTypes[i] == TimeType
  {
    var t := SelectableTypes[i];
    assert ToLower(t) == t;
  }

  /** `form.replace(/_/g, ' ')`: a table name as the designer lists it. */
  function DisplayName(name: string): (r: string)
    ensures |r| == |name| && '_' !in r
    ensures forall i :: 0 <= i < |name| ==> r[i] == (if name[i] == '_' then ' ' else name[i])
  {
    ReplaceChar(name, '_', ' ')
  }

  /** A table name made from a title holds no space, so the listed name
      gives the table name back when its spaces become underscores. */
  lemma DisplayNameInverse(title: string)
    ensures ReplaceChar(DisplayName(BaseTableName(title)), ' ', '_') == BaseTableName(title)
  {
    var n := BaseTableName(title);
    assert IsWhitespace(' ');
    ReplaceCharBack(n, '_', ' ');
  }

  /** Titles whose only whitespace is single spaces and which have no
      underscore are listed under their own title. */
  predicate SingleSpaced(title: string) {
    && '_' !in title
    && (forall i :: 0 <= i < |title| && IsWhitespace(title[i]) ==> title[i] == ' ')
    && (forall i :: 0 <= i < |title| - 1 && IsWhitespace(title[i]) ==> !IsWhitespace(title[i + 1]))
  }

  lemma {:induction false} DisplayNameRoundTrip(title: string)
    requires SingleSpaced(title)
    ensures DisplayName(BaseTableName(title)) == title
  {
    if title != [] {
      var rest := title[1..];
      assert SingleSpaced(rest) by {
        forall i | 0 <= i < |rest| - 1 && IsWhitespace(rest[i]) ensures !IsWhitespace(rest[i + 1]) {
          assert rest[i] == title[i + 1] && rest[i + 1] == title[i + 2];
        }
      }
      DisplayNameRoundTrip(rest);
      if IsWhitespace(title[0]) {
        DropSingleWhitespace(title);
        assert BaseTableName(title) == "_" + BaseTableName(rest);
      } else {
        assert BaseTableName(title) == [title[0]] + BaseTableName(rest);
      }
      assert DisplayName(BaseTableName(title)) == [title[0]] + DisplayName(BaseTableName(rest));
    }
  }

  /** Distinct titles can share a listed name: `a b` and `a_b` both show as
      `a b`. */
  lemma DisplayNameLossy()
    ensures DisplayName(BaseTableName("a b")) == DisplayName(BaseTableName("a_b")) == "a b"
  {
    assert SingleSpaced("a b");
    DisplayNameRoundTrip("a b");
    assert NoWhitespace("a_b");
    NormalizeFixedPoints("a_b");
  }
}

=== FILE: form_generator.dfy ===
/** The offline form generator: renders a schema loaded from a file and
    collects the values of the rendered controls by name. */
module FormGenerator {
  import opened Wrappers
  import opened Objects
  import opened Text
  import opened Schema
  import opened Api
  import DynamicForm

  /** What the generator shows: the schema's title and its questions. */
  datatype Generated = Generated(title: string, questions: seq<Question>)

  /** `generateForm(jsonData)`. */
  function GenerateForm(doc: FormDoc): (g: Generated)
    ensures g.title == doc.title && g.questions == doc.questions
  {
    Generated(doc.title, doc.questions)
  }

  /** Once the same schema is served to the live form, the generator shows
      the title and the questions that the live form's card shows. */
  lemma GeneratedLikeLiveForm(doc: FormDoc)
    ensures var card := DynamicForm.Render(DynamicForm.Load(Some(Response(OkStatus, Document(doc)))));
            && card.FormCard?
            && card.title == GenerateForm(doc).title
            && card.questions == GenerateForm(doc).questions
  {
  }

  /** The uncontrolled elements the generator renders. */
  datatype Control =
    | Field(inputType: string)
    | Choice(options: seq<string>)
    | Ticks(options: seq<string>)
    | Range(min: int, max: int)
      /** `q.options.map` on a question without options throws. */
    | Broken

  const RangeMin := 1
  const RangeMax := 10

  /** The element rendered for a question, chosen by its lower-cased type;
      drop-downs have no placeholder. */
  function ControlFor(q: Question): (c: Control)
    ensures c.Broken? <==> Classify(q.qtype) in {ChoiceKind, TickKind} && q.options.None?
    ensures c.Range? ==> c.min == RangeMin && c.max == RangeMax
    ensures c.Choice? ==> Classify(q.qtype) == ChoiceKind && c.options == q.options.value
    ensures c.Ticks? ==> Classify(q.qtype) == TickKind && c.options == q.options.value
    ensures c == Field("text") <==> Classify(q.qtype) in {StringKind, Unrecognised}
    ensures Classify(q.qtype) == IntegerKind ==> c == Field("number")
    ensures Classify(q.qtype) == DateKind ==> c == Field("date")
    ensures Classify(q.qtype) == ChoiceKind && q.options.Some? ==> c == Choice(q.options.value)
    ensures Classify(q.qtype) == TickKind && q.options.Some? ==> c == Ticks(q.options.value)
    ensures Classify(q.qtype) == MeterKind ==> c == Range(RangeMin, RangeMax)
  {
    match Classify(q.qtype)
    case StringKind => Field("text")
    case IntegerKind => Field("number")
    case DateKind => Field("date")
    case ChoiceKind => if q.options.None? then Broken else Choice(q.options.value)
    case TickKind => if q.options.None? then Broken else Ticks(q.options.value)
    case MeterKind => Range(RangeMin, RangeMax)
    case Unrecognised => Field("text")
  }

  /** The generator and the live form pick the same kind of control for every
      question and fail on the same questions; only the slider's lower bound
      differs, 1 here against 0 there. */
  lemma SameControlsAsLiveForm(q: Question, data: DynamicForm.FormData)
    ensures ControlFor(q).Broken? == DynamicForm.ControlFor(q, data).Broken?
    ensures ControlFor(q).Field? == DynamicForm.ControlFor(q, data).TextBox?
    ensures ControlFor(q).Field? ==> ControlFor(q).inputType == DynamicForm.ControlFor(q, data).inputType
    ensures ControlFor(q).Choice? == DynamicForm.ControlFor(q, data).Dropdown?
    ensures ControlFor(q).Choice? ==> ControlFor(q).options == DynamicForm.ControlFor(q, data).choices
    ensures ControlFor(q).Ticks? == DynamicForm.ControlFor(q, data).TickBoxes?
    ensures ControlFor(q).Range? == DynamicForm.ControlFor(q, data).Slider?
    ensures ControlFor(q).Range? ==>
      && ControlFor(q).max == DynamicForm.ControlFor(q, data).max
      && ControlFor(q).min == DynamicForm.ControlFor(q, data).min + 1
  {
  }

  // ---------------------------------------------------------------------------
  // Value collection
  // ---------------------------------------------------------------------------

  /** A rendered input or select, as the user left it. */
  datatype Element = Element(name: string, isCheckbox: bool, value: string, checked: bool)

  /** What `handleSubmit` records for an element. */
  datatype Collected = Text(s: string) | Flag(b: bool)

  /** `document.querySelector('input[name=...], select[name=...]')`: the first
      element, in document order, with that name. */
  function Query(dom: seq<Element>, name: string): (r: Option<Element>)
    ensures r.Some? ==> r.value in dom && r.value.name == name
    ensures r.None? <==> forall i :: 0 <= i < |dom| ==> dom[i].name != name
    ensures r.Some? ==> exists i :: FirstNamed(dom, name, i) && dom[i] == r.value
  {
    if dom == [] then None
    else if dom[0].name == name then
      assert FirstNamed(dom, name, 0);
      Some(dom[0])
    else
      var r := Query(dom[1..], name);
      assert r.Some? ==> forall i :: FirstNamed(dom[1..], name, i) ==> FirstNamed(dom, name, i + 1) && dom[i + 1] == dom[1..][i];
      r
  }

  /** `dom[i]` bears the name and no element before it does. */
  predicate FirstNamed(dom: seq<Element>, name: string, i: int) {
    0 <= i < |dom| && dom[i].name == name && forall j :: 0 <= j < i ==> dom[j].name != name
  }

  function ValueOf(e: Element): Collected {
    if e.isCheckbox then Flag(e.checked) else Text(e.value)
  }

  /** `formValues[q.text] = checkbox ? input.checked : input.value` for every
      question whose element is found. */
  function CollectValues(questions: seq<Question>, dom: seq<Element>): Object<Collected> {
    if questions == [] then []
    else
      var front := CollectValues(questions[..|questions| - 1], dom);
      var q := questions[|questions| - 1];
      match Query(dom, q.text)
      case None => front
      case Some(e) => Put(front, q.text, ValueOf(e))
  }

  /** A question's text reads the value of the first element bearing it, and
      nothing else is collected. */
  lemma {:induction false} CollectValuesSpec(questions: seq<Question>, dom: seq<Element>, k: string)
    ensures Distinct(Keys(CollectValues(questions, dom)))
    ensures Get(CollectValues(questions, dom), k) ==
      if DynamicForm.HasText(questions, k) && Query(dom, k).Some? then Some(ValueOf(Query(dom, k).value)) else None
  {
    if questions != [] {
      var front := questions[..|questions| - 1];
      var q := questions[|questions| - 1];
      CollectValuesSpec(front, dom, k);
      if Query(dom, q.text).Some? {
        PutSpec(CollectValues(front, dom), q.text, ValueOf(Query(dom, q.text).value), k);
      }
      if DynamicForm.HasText(front, k) {
        var i :| 0 <= i < |front| && front[i].text == k;
        assert questions[i] == front[i];
      }
      if DynamicForm.HasText(questions, k) && q.text != k {
        var i :| 0 <= i < |questions| && questions[i].text == k;
        assert i < |front| && front[i] == questions[i];
      }
    }
  }

  /** All boxes of a tick question share the question's name, so only the
      first box is read: here the second option is ticked, yet the question
      is recorded as unticked. */
  lemma TickQuestionReadsFirstBox()
    ensures var q := Question("t", TickType, Some(["a", "b"]), false);
            var dom := [Element("t", true, "a", false), Element("t", true, "b", true)];
            Get(CollectValues([q], dom), "t") == Some(Flag(false))
  {
    var q := Question("t", TickType, Some(["a", "b"]), false);
    var dom := [Element("t", true, "a", false), Element("t", true, "b", true)];
    assert Query(dom, "t") == Some(dom[0]);
    assert [q][..0] == [];
  }
}

=== FILE: forms_list.dfy ===
/** The forms list: the directory of forms fetched from active-forms, and the
    button that flips a form between live and closed. */
module FormsList {
  import opened Wrappers
  import opened Store
  import opened Api

  /** One listed form. The component only ever reads `isActive` for its
      truthiness, so the local state keeps that truthiness: the server's raw
      cell before any toggle, the boolean the toggle stores afterwards. */
  datatype ListedForm = ListedForm(title: string, active: bool)

  /** The list's screen: still waiting, the fetch failed, or the forms. */
  datatype State = Loading | Failed | Listing(forms: seq<ListedForm>)

  /** The fetch on mount. `None` is a request that never settles; any answer
      other than 2xx makes axios throw, and the error is shown. */
  function Load(answer: Option<Response>): (s: State)
    ensures s.Loading? <==> answer.None?
    ensures s.Listing? <==> answer.Some? && 200 <= answer.value.status < 300 && answer.value.body.Entries?
    ensures s.Listing? ==>
      && |s.forms| == |answer.value.body.entries|
      && forall i :: 0 <= i < |s.forms| ==>
           s.forms[i].title == answer.value.body.entries[i].title
           && (s.forms[i].active <==> Truthy(answer.value.body.entries[i].isActive))
  {
    match answer
    case None => Loading
    case Some(resp) =>
      if 200 <= resp.status < 300 && resp.body.Entries? then
        var es := resp.body.entries;
        Listing(seq(|es|, i requires 0 <= i < |es| => ListedForm(es[i].title, Truthy(es[i].isActive))))
      else Failed
  }

  /** The status word and the button caption shown for a form. */
  function Line(f: ListedForm): (r: (string, string))
    ensures r.0 == "Active" <==> f.active
    ensures r.1 == "Deactivate" <==> f.active
    ensures r.0 in {"Active", "Inactive"} && r.1 in {"Deactivate", "Activate"}
  {
    if f.active then ("Active", "Deactivate") else ("Inactive", "Activate")
  }

  /** The body posted to update-form-status. */
  datatype StatusRequest = StatusRequest(formTitle: string, isActive: Value)

  /** `toggleActiveState(formTitle, currentState)`: post the flipped state as
      1 or 0; once the post succeeds, every listed form with that title takes
      the flipped state. A failed or unsettled post leaves the list alone. */
  function Toggle(forms: seq<ListedForm>, title: string, current: bool, answer: Option<Response>): (r: (seq<ListedForm>, StatusRequest))
    ensures r.1.formTitle == title
    ensures r.1.isActive == Num(if current then 0 else 1)
    ensures Truthy(r.1.isActive) <==> !current
    ensures |r.0| == |forms|
    ensures forall i :: 0 <= i < |forms| ==>
      r.0[i] == if Succeeded(answer) && forms[i].title == title then forms[i].(active := !current) else forms[i]
  {
    var request := StatusRequest(title, Num(if !current then 1 else 0));
    if Succeeded(answer) then
      (seq(|forms|, i requires 0 <= i < |forms| =>
         if forms[i].title == title then forms[i].(active := !current) else forms[i]), request)
    else (forms, request)
  }

  /** axios resolves for a 2xx answer. */
  predicate Succeeded(answer: Option<Response>) {
    answer.Some? && 200 <= answer.value.status < 300
  }

  /** The button of the `i`th form toggles from that form's own state. */
  function Click(forms: seq<ListedForm>, i: int, answer: Option<Response>): (r: (seq<ListedForm>, StatusRequest))
    requires 0 <= i < |forms|
    ensures |r.0| == |forms|
    ensures Succeeded(answer) ==> r.0[i].active == !forms[i].active
    ensures r.1 == StatusRequest(forms[i].title, Num(if forms[i].active then 0 else 1))
  {
    Toggle(forms, forms[i].title, forms[i].active, answer)
  }

  /** A successful click changes the form's line to the other status word
      and the other caption; a failed one leaves it as it was. */
  lemma ClickFlipsLine(forms: seq<ListedForm>, i: int, answer: Option<Response>)
    requires 0 <= i < |forms|
    ensures Succeeded(answer) ==>
      Line(Click(forms, i, answer).0[i]) == if forms[i].active then ("Inactive", "Activate") else ("Active", "Deactivate")
    ensures Succeeded(answer) <==> Line(Click(forms, i, answer).0[i]) != Line(forms[i])
  {
  }

  /** Every listed form with this title shows the same state. */
  predicate Uniform(forms: seq<ListedForm>, title: string) {
    forall i, j :: 0 <= i < |forms| && 0 <= j < |forms| && forms[i].title == title && forms[j].title == title ==>
      forms[i].active == forms[j].active
  }

  /** Two successful clicks on the same button restore the list exactly when
      the forms sharing that title showed one state; after one click they
      always do. */
  lemma ClickTwice(forms: seq<ListedForm>, i: int, answer: Option<Response>, answer2: Option<Response>)
    requires 0 <= i < |forms| && Succeeded(answer) && Succeeded(answer2)
    ensures Uniform(Click(forms, i, answer).0, forms[i].title)
    ensures Click(Click(forms, i, answer).0, i, answer2).0 == forms <==> Uniform(forms, forms[i].title)
  {
    var title := forms[i].title;
    var once := Click(forms, i, answer).0;
    var twice := Click(once, i, answer2).0;
    if Uniform(forms, title) {
      assert forall j :: 0 <= j < |forms| ==> twice[j] == forms[j];
    }
    if twice == forms {
      forall j, k | 0 <= j < |forms| && 0 <= k < |forms| && forms[j].title == title && forms[k].title == title
        ensures forms[j].active == forms[k].active
      {
        assert twice[j].active == forms[j].active && twice[k].active == forms[k].active;
      }
    }
  }

  /** Two forms with one title, one live and one closed: clicking the live
      one twice leaves both live. */
  lemma ClickTwiceMixedTitles(answer: Option<Response>)
    requires Succeeded(answer)
    ensures var forms := [ListedForm("F", true), ListedForm("F", false)];
            Click(Click(forms, 0, answer).0, 0, answer).0 == [ListedForm("F", true), ListedForm("F", true)]
  {
  }
}

=== FILE: objects.dfy ===
/** JavaScript objects as the handlers and components use them: string keys
    in insertion order, assignment that keeps a key's place, and lookup. */
module Objects {
  import opened Wrappers

  predicate Distinct<T(==)>(s: seq<T>) {
    forall i, j :: 0 <= i < j < |s| ==> s[i] != s[j]
  }

  function Keys<V>(cells: seq<(string, V)>): (r: seq<string>)
    ensures |r| == |cells| && forall i :: 0 <= i < |cells| ==> r[i] == cells[i].0
  {
    seq(|cells|, i requires 0 <= i < |cells| => cells[i].0)
  }

  /** A JavaScript object as its own key/value pairs in insertion order. */
  type Object<V> = seq<(string, V)>

  /** `obj[k] = v`: an existing key keeps its place and takes the new value, a
      new key goes last. */
  function Put<V>(obj: Object<V>, k: string, v: V): Object<V> {
    if obj == [] then [(k, v)]
    else if obj[0].0 == k then [(k, v)] + obj[1..]
    else [obj[0]] + Put(obj[1..], k, v)
  }

  /** `obj[k]`, undefined being `None`. */
  function Get<V>(obj: Object<V>, k: string): Option<V> {
    if obj == [] then None
    else if obj[0].0 == k then Some(obj[0].1)
    else Get(obj[1..], k)
  }

  /** A key is defined exactly when it is one of the object's keys. */
  lemma {:induction false} GetDefined<V>(obj: Object<V>, k: string)
    ensures Get(obj, k).Some? <==> k in Keys(obj)
  {
    if obj != [] {
      GetDefined(obj[1..], k);
      assert Keys(obj) == [obj[0].0] + Keys(obj[1..]);
    }
  }

  /** Assigning one key: the key reads the new value, every other key reads
      what it read before, and distinct keys stay distinct. */
  lemma {:induction false} PutSpec<V>(obj: Object<V>, k: string, v: V, other: string)
    ensures Get(Put(obj, k, v), k) == Some(v)
    ensures other != k ==> Get(Put(obj, k, v), other) == Get(obj, other)
    ensures Distinct(Keys(obj)) ==> Distinct(Keys(Put(obj, k, v)))
  {
    var r := Put(obj, k, v);
    if obj == [] {
    } else if obj[0].0 == k {
      assert Keys(r) == [k] + Keys(obj)[1..];
      assert Keys(obj) == [k] + Keys(obj)[1..];
    } else {
      var tail := obj[1..];
      assert Keys(tail) == Keys(obj)[1..];
      PutSpec(tail, k, v, other);
      if Distinct(Keys(obj)) {
        assert Keys(r) == [obj[0].0] + Keys(Put(tail, k, v));
        assert obj[0].0 !in Keys(Put(tail, k, v)) by {
          GetDefined(Put(tail, k, v), obj[0].0);
          GetDefined(tail, obj[0].0);
          PutSpec(tail, k, v, obj[0].0);
        }
      }
    }
  }

  /** In a distinct-key object, each pair is what its key reads. */
  lemma {:induction false} GetDistinct<V>(obj: Object<V>, i: int)
    requires Distinct(Keys(obj)) && 0 <= i < |obj|
    ensures Get(obj, obj[i].0) == Some(obj[i].1)
  {
    if i > 0 {
      assert Keys(obj[1..]) == Keys(obj)[1..];
      assert Keys(obj)[0] != Keys(obj)[i];
      GetDistinct(obj[1..], i - 1);
    }
  }
}

=== FILE: provisioning.dfy ===
/** The create-form handler: derives the two table names from the title,
    validates the question list, creates the metadata and response tables if
    they are absent, and appends one metadata row holding the serialized
    schema. */
module Provisioning {
  import opened Wrappers
  import opened Text
  import opened Objects
  import opened Store
  import opened Schema
  import opened Api

  /** The body of a create-form request. A title that is not a string and a
      `questions` field that is not an array are `None`. */
  datatype CreateRequest = CreateRequest(
    title: Option<string>,
    description: string,
    postscript: string,
    questions: Option<seq<Question>>)

  const NoQuestionsMessage := "No questions provided or questions is not an array."
  const CreatedMessage := "Form created successfully with metadata and response tables!"

  predicate HasQuestions(req: CreateRequest) {
    req.questions.Some? && |req.questions.value| > 0
  }

  predicate AllHaveText(questions: seq<Question>) {
    forall i :: 0 <= i < |questions| ==> questions[i].text != []
  }

  /** The requests that get past the handler's checks to the first query. */
  predicate Accepted(req: CreateRequest) {
    req.title.Some? && HasQuestions(req) && AllHaveText(req.questions.value)
  }

  /** `{title, description, postscript, questions}` as the handler serializes it. */
  function RequestDocument(req: CreateRequest): FormDoc
    requires req.title.Some? && req.questions.Some?
  {
    FormDoc(req.title.value, req.description, req.postscript, req.questions.value)
  }

  /** `INSERT INTO base (json_data) VALUES (?)`. */
  function MetadataCells(blob: string): seq<(string, Value)> {
    [(JsonDataColumn, Str(blob))]
  }

  /** The metadata table the insert goes to: the existing one, or the one the
      first step creates. */
  function MetadataTableBefore(db: Database, base: string): Table {
    if base in db then db[base] else Table(MetadataLayout, [], 1)
  }

  /** The database after all three steps succeeded: both tables exist, an
      existing table keeps its layout, a new response table has one column per
      question and no rows, and the metadata table gained exactly one row. */
  ghost predicate Provisioned(db: Database, db': Database, title: string, questions: seq<Question>, blob: string, now: int) {
    var base := BaseTableName(title);
    var responses := ResponseTableName(base);
    var meta := MetadataTableBefore(db, base);
    && db'.Keys == db.Keys + {base, responses}
    && (forall n :: n in db && n != base ==> db'[n] == db[n])
    && (responses !in db ==> db'[responses] == Table(ResponseLayout(questions), [], 1))
    && db'[base] == Table(meta.columns, meta.rows + [NewRow(meta, MetadataCells(blob), now)], meta.nextId + 1)
  }

  /** What a failed request leaves: no existing table is touched, and a table
      created before the failing step stays, empty. */
  ghost predicate NothingAppended(db: Database, db': Database, title: string) {
    var base := BaseTableName(title);
    && db.Keys <= db'.Keys <= db.Keys + {base, ResponseTableName(base)}
    && (forall n :: n in db ==> db'[n] == db[n])
    && (forall n :: n in db' && n !in db ==> db'[n].rows == [])
  }

  /** The three queries, each run only if the one before it succeeded: the
      request succeeds exactly when both creations and the insert are
      accepted, and a failure leaves what the steps before it did. */
  function Provision(db: Database, title: string, questions: seq<Question>, blob: string, now: int): (r: Outcome)
    ensures r.response.status in {OkStatus, ServerErrorStatus}
    ensures var base := BaseTableName(title);
            var step1 := CreateTableIfNotExists(db, base, MetadataLayout);
            var step2 := if step1.Some? then CreateTableIfNotExists(step1.value, ResponseTableName(base), ResponseLayout(questions)) else None;
            && (r.response.status == OkStatus <==> step2.Some? && InsertAccepted(step2.value, base, MetadataCells(blob)))
            && (step1.None? ==> r.db == db)
            && (step1.Some? && step2.None? ==> r.db == step1.value)
            && (step2.Some? && r.response.status == ServerErrorStatus ==> r.db == step2.value)
    ensures r.response.status == OkStatus ==> Provisioned(db, r.db, title, questions, blob, now)
    ensures r.response.status == ServerErrorStatus ==> NothingAppended(db, r.db, title)
  {
    var base := BaseTableName(title);
    var responses := ResponseTableName(base);
    match CreateTableIfNotExists(db, base, MetadataLayout)
    case None => Outcome(Response(ServerErrorStatus, Failure("Error creating metadata table")), db)
    case Some(db1) =>
      match CreateTableIfNotExists(db1, responses, ResponseLayout(questions))
      case None =>
        FirstStepOnly(db, db1, title);
        Outcome(Response(ServerErrorStatus, Failure("Error creating response table")), db1)
      case Some(db2) =>
        BothTablesReady(db, db1, db2, title, questions);
        match Insert(db2, base, MetadataCells(blob), now)
        case None => Outcome(Response(ServerErrorStatus, Failure("Error inserting JSON data")), db2)
        case Some((db3, _)) =>
          RowAppended(db, db2, db3, title, questions, blob, now);
          Outcome(Response(OkStatus, Message(CreatedMessage)), db3)
  }

  /** After the first step alone, at most the metadata table is new, and empty. */
  lemma FirstStepOnly(db: Database, db1: Database, title: string)
    requires CreateTableIfNotExists(db, BaseTableName(title), MetadataLayout) == Some(db1)
    ensures NothingAppended(db, db1, title)
  {
  }

  /** After both creations, both tables exist, no earlier table changed, and
      a new table is empty. */
  lemma BothTablesReady(db: Database, db1: Database, db2: Database, title: string, questions: seq<Question>)
    requires CreateTableIfNotExists(db, BaseTableName(title), MetadataLayout) == Some(db1)
    requires CreateTableIfNotExists(db1, ResponseTableName(BaseTableName(title)), ResponseLayout(questions)) == Some(db2)
    ensures NothingAppended(db, db2, title)
    ensures db2.Keys == db.Keys + {BaseTableName(title), ResponseTableName(BaseTableName(title))}
    ensures db2[BaseTableName(title)] == MetadataTableBefore(db, BaseTableName(title))
    ensures ResponseTableName(BaseTableName(title)) !in db ==>
      db2[ResponseTableName(BaseTableName(title))] == Table(ResponseLayout(questions), [], 1)
  {
    var base := BaseTableName(title);
    assert ResponseTableName(base) != base;
  }

  /** The accepted insert completes the provisioning. */
  lemma RowAppended(db: Database, db2: Database, db3: Database, title: string, questions: seq<Question>, blob: string, now: int)
    requires db2.Keys == db.Keys + {BaseTableName(title), ResponseTableName(BaseTableName(title))}
    requires forall n :: n in db ==> n != BaseTableName(title) ==> db2[n] == db[n]
    requires db2[BaseTableName(title)] == MetadataTableBefore(db, BaseTableName(title))
    requires ResponseTableName(BaseTableName(title)) !in db ==>
      db2[ResponseTableName(BaseTableName(title))] == Table(ResponseLayout(questions), [], 1)
    requires Insert(db2, BaseTableName(title), MetadataCells(blob), now).Some?
    requires db3 == Insert(db2, BaseTableName(title), MetadataCells(blob), now).value.0
    ensures Provisioned(db, db3, title, questions, blob, now)
  {
    var base := BaseTableName(title);
    assert ResponseTableName(base) != base;
    MetadataColumnsDistinct();
    assert Keys(MetadataCells(blob)) == [JsonDataColumn];
    AutoKey(db2[base], MetadataCells(blob));
  }

  /** `POST /create-form`. The title is normalized first (a title that is not
      a string throws there), then the question list is checked (400), then
      every question must have a text (a throw, so 500), and only then do the
      queries run. */
  function CreateForm(db: Database, req: CreateRequest, codec: Codec, now: int): (r: Outcome)
    ensures r.response.status in {OkStatus, BadRequestStatus, ServerErrorStatus}
    ensures r.response.status == BadRequestStatus <==> req.title.Some? && !HasQuestions(req)
    ensures !Accepted(req) ==> r.db == db && r.response.status != OkStatus
    ensures r.response.status == OkStatus ==>
      Accepted(req) && Provisioned(db, r.db, req.title.value, req.questions.value, codec.encode(RequestDocument(req)), now)
    ensures Accepted(req) && r.response.status == ServerErrorStatus ==> NothingAppended(db, r.db, req.title.value)
  {
    if req.title.None? then
      Outcome(Response(ServerErrorStatus, Failure("title.replace is not a function")), db)
    else if !HasQuestions(req) then
      Outcome(Response(BadRequestStatus, Message(NoQuestionsMessage)), db)
    else if !AllHaveText(req.questions.value) then
      Outcome(Response(ServerErrorStatus, Failure("Question text is missing")), db)
    else
      Provision(db, req.title.value, req.questions.value, codec.encode(RequestDocument(req)), now)
  }

  // ---------------------------------------------------------------------------
  // Properties
  // ---------------------------------------------------------------------------

  /** The row a fresh metadata table receives: key 1, the blob, and the
      `is_active` default of 1. */
  function FirstMetadataRow(blob: string): Row {
    map[IdColumn := Num(1), JsonDataColumn := Str(blob), IsActiveColumn := Num(1)]
  }

  lemma FreshMetadataInsert(blob: string, now: int)
    ensures InsertAccepted(map["m" := Table(MetadataLayout, [], 1)], "m", MetadataCells(blob))
    ensures NewRow(Table(MetadataLayout, [], 1), MetadataCells(blob), now) == FirstMetadataRow(blob)
  {
    FreshMetadataAccepted(blob);
    FreshMetadataRow(blob, now);
  }

  lemma FreshMetadataAccepted(blob: string)
    ensures InsertAccepted(map["m" := Table(MetadataLayout, [], 1)], "m", MetadataCells(blob))
  {
    var cells := MetadataCells(blob);
    MetadataNames();
    MetadataColumnsDistinct();
    assert Keys(cells) == [JsonDataColumn];
  }

  lemma FreshMetadataRow(blob: string, now: int)
    ensures NewRow(Table(MetadataLayout, [], 1), MetadataCells(blob), now) == FirstMetadataRow(blob)
  {
    var t := Table(MetadataLayout, [], 1);
    MetadataNames();
    assert HasColumn(t, IdColumn);
    MetadataDefaults(now);
    MetadataAssoc(blob);
    MetadataColumnsDistinct();
    RowShape(IdColumn, JsonDataColumn, IsActiveColumn, Str(blob));
  }

  /** Defaults for three distinct columns, one inserted cell, then the key. */
  lemma RowShape(id: string, json: string, active: string, x: Value)
    requires id != json && id != active && json != active
    ensures (map[active := Num(1), json := Null, id := Null] + map[json := x])[id := Num(1)]
            == map[id := Num(1), json := x, active := Num(1)]
  {
  }

  lemma MetadataAssoc(blob: string)
    ensures Assoc(MetadataCells(blob)) == map[JsonDataColumn := Str(blob)]
  {
    var cells := MetadataCells(blob);
    assert cells[..0] == [];
  }

  /** The metadata table's three column names differ. */
  lemma MetadataColumnsDistinct()
    ensures IdColumn != JsonDataColumn && IdColumn != IsActiveColumn && JsonDataColumn != IsActiveColumn
  {
    assert IdColumn[0] != JsonDataColumn[0];
    assert IdColumn[1] != IsActiveColumn[1];
    assert JsonDataColumn[0] != IsActiveColumn[0];
  }

  /** The metadata layout's column names, in order. */
  lemma MetadataNames()
    ensures Names(MetadataLayout) == [IdColumn, JsonDataColumn, IsActiveColumn]
  {
    var n := Names(MetadataLayout);
    assert n[0] == IdColumn && n[1] == JsonDataColumn && n[2] == IsActiveColumn;
  }

  /** A metadata row before any value is inserted: only `is_active` has a
      default. */
  lemma MetadataDefaults(now: int)
    ensures Defaults(MetadataLayout, now) == map[IsActiveColumn := Num(1), JsonDataColumn := Null, IdColumn := Null]
  {
    MetadataColumnsDistinct();
    assert Defaults(MetadataLayout[2..], now) == map[IsActiveColumn := Num(1)];
    assert Defaults(MetadataLayout[1..], now) == map[IsActiveColumn := Num(1), JsonDataColumn := Null];
  }

  /** On a database holding neither table, a request with valid names
      provisions both tables and the metadata table holds exactly the row
      `{id: 1, json_data: blob, is_active: 1}`. */
  lemma CreateFormOnFreshNames(db: Database, req: CreateRequest, codec: Codec, now: int)
    requires Accepted(req)
    requires BaseTableName(req.title.value) !in db && ResponseTableName(BaseTableName(req.title.value)) !in db
    requires ValidIdentifier(BaseTableName(req.title.value))
    requires ValidIdentifier(ResponseTableName(BaseTableName(req.title.value)))
    requires ValidLayout(ResponseLayout(req.questions.value))
    ensures var r := CreateForm(db, req, codec, now);
            && r.response.status == OkStatus
            && r.db[BaseTableName(req.title.value)].rows == [FirstMetadataRow(codec.encode(RequestDocument(req)))]
  {
    var base := BaseTableName(req.title.value);
    var responses := ResponseTableName(base);
    var blob := codec.encode(RequestDocument(req));
    MetadataLayoutValid();
    var db1 := db[base := Table(MetadataLayout, [], 1)];
    var db2 := db1[responses := Table(ResponseLayout(req.questions.value), [], 1)];
    FreshMetadataInsert(blob, now);
    MetadataNames();
    assert Keys(MetadataCells(blob)) == [JsonDataColumn];
    assert InsertAccepted(db2, base, MetadataCells(blob));
  }

  /** Without an `id` cell, the engine's verdict on an INSERT depends only
      on the target table's layout, not on the rows it holds. */
  lemma InsertAcceptedByLayout(db: Database, db': Database, name: string, cells: seq<(string, Value)>)
    requires name in db && name in db' && db[name].columns == db'[name].columns
    requires IdColumn !in Keys(cells)
    ensures InsertAccepted(db, name, cells) == InsertAccepted(db', name, cells)
  {
    assert HasColumn(db[name], IdColumn) == HasColumn(db'[name], IdColumn);
  }

  /** Repeating a successful create-form succeeds again: both table creations
      are no-ops and one further metadata row is appended. */
  lemma {:induction false} CreateFormRepeated(db: Database, req: CreateRequest, codec: Codec, now: int, later: int)
    requires CreateForm(db, req, codec, now).response.status == OkStatus
    ensures var first := CreateForm(db, req, codec, now).db;
            var second := CreateForm(first, req, codec, later);
            var base := BaseTableName(req.title.value);
            && second.response.status == OkStatus
            && second.db.Keys == first.Keys
            && (forall n :: n in first && n != base ==> second.db[n] == first[n])
            && second.db[base].columns == first[base].columns
            && |second.db[base].rows| == |first[base].rows| + 1
            && second.db[base].rows[..|first[base].rows|] == first[base].rows
  {
    var first := CreateForm(db, req, codec, now).db;
    var base := BaseTableName(req.title.value);
    var responses := ResponseTableName(base);
    var blob := codec.encode(RequestDocument(req));
    var meta := MetadataTableBefore(db, base);
    assert first[base].columns == meta.columns;
    // The first run's insert was accepted on a table with this very layout.
    var db1 := if base in db then db else db[base := meta];
    var db2 := if responses in db1 then db1 else db1[responses := Table(ResponseLayout(req.questions.value), [], 1)];
    assert CreateTableIfNotExists(db, base, MetadataLayout) == Some(db1);
    assert CreateTableIfNotExists(db1, responses, ResponseLayout(req.questions.value)) == Some(db2);
    assert Insert(db2, base, MetadataCells(blob), now).Some?;
    MetadataColumnsDistinct();
    assert Keys(MetadataCells(blob)) == [JsonDataColumn];
    InsertAcceptedByLayout(db2, first, base, MetadataCells(blob));
    var second := CreateForm(first, req, codec, later);
    assert second.db[base].rows == first[base].rows + [NewRow(first[base], MetadataCells(blob), later)];
  }

  /** Provisioning is not atomic: when the response table cannot be created
      (here a question whose column name clashes with the key `id`), the
      metadata table created by the first step stays behind, with no row. */
  lemma PartialProvisioning(codec: Codec, now: int)
    ensures var req := CreateRequest(Some("F"), "", "", Some([Question("id", StringType, None, false)]));
            var r := CreateForm(map[], req, codec, now);
            && r.response.status == ServerErrorStatus
            && "F" in r.db && r.db["F"].rows == []
            && "F_responses" !in r.db
  {
    var q := Question("id", StringType, None, false);
    var req := CreateRequest(Some("F"), "", "", Some([q]));
    assert Accepted(req);
    assert BaseTableName("F") == "F" by { NormalizeFixedPoints("F"); }
    ClashingResponseLayout(q);
    ResponseTableRefused(map[], "F", [q], codec.encode(RequestDocument(req)), now);
    assert |"F_responses"| != |"F"|;
  }

  /** When the metadata table is new and the response layout is refused, the
      request fails with the new, empty metadata table left behind. */
  lemma ResponseTableRefused(db: Database, title: string, questions: seq<Question>, blob: string, now: int)
    requires BaseTableName(title) !in db && ValidIdentifier(BaseTableName(title))
    requires ResponseTableName(BaseTableName(title)) !in db
    requires !ValidLayout(ResponseLayout(questions))
    ensures var r := Provision(db, title, questions, blob, now);
            && r.response.status == ServerErrorStatus
            && r.db == db[BaseTableName(title) := Table(MetadataLayout, [], 1)]
  {
    var base := BaseTableName(title);
    MetadataLayoutValid();
    TableNamesWellFormed(title);
    var db1 := db[base := Table(MetadataLayout, [], 1)];
    assert CreateTableIfNotExists(db, base, MetadataLayout) == Some(db1);
    assert CreateTableIfNotExists(db1, ResponseTableName(base), ResponseLayout(questions)) == None;
  }

  /** The three metadata column names are names MySQL accepts. */
  lemma MetadataNamesValid()
    ensures ValidIdentifier(IdColumn) && ValidIdentifier(JsonDataColumn) && ValidIdentifier(IsActiveColumn)
  {
    assert ValidIdentifier(IdColumn);
    assert ValidIdentifier(JsonDataColumn);
    assert ValidIdentifier(IsActiveColumn);
  }

  lemma MetadataLayoutValid()
    ensures ValidLayout(MetadataLayout)
  {
    MetadataNames();
    MetadataColumnsDistinct();
    var n := Names(MetadataLayout);
    MetadataNamesValid();
    forall i | 0 <= i < 3 ensures ValidIdentifier(MetadataLayout[i].name) {
      assert MetadataLayout[i].name == n[i];
    }
    assert forall i, j :: 0 <= i < j < 3 ==> n[i] != n[j];
  }

  /** A question whose text normalizes to `id` repeats the key column. */
  lemma ClashingResponseLayout(q: Question)
    requires q.text == "id"
    ensures !ValidLayout(ResponseLayout([q]))
  {
    assert Normalize("id") == "id" by { NormalizeFixedPoints("id"); }
    var layout := ResponseLayout([q]);
    assert Names(layout)[0] == layout[0].name == IdColumn;
    assert Names(layout)[2] == layout[2].name == ColumnName(q);
  }
}

=== FILE: scenarios.dfy ===
/** Journeys across the client and the server: a designed form is served to
    the live form, closing it from the list refuses it there but not its
    answers, and the live form's answers land in the question's columns. */
module Scenarios {
  import opened Wrappers
  import opened Text
  import opened Objects
  import opened Store
  import opened Schema
  import opened SqlLike
  import opened Api
  import opened Provisioning
  import opened Directory
  import opened Submission
  import DynamicForm
  import FormsList
  import FormCreator
  import FormGenerator

  // ---------------------------------------------------------------------------
  // Create, then fetch
  // ---------------------------------------------------------------------------

  /** A form created on fresh names is served back as the document that was
      posted, and the live form shows its title, description and questions,
      provided its table name reads without backquotes. A name such as
      `Sign-up_sheet` is created (the create queries quote it) but its fetch
      fails, and the live form shows the empty default form. */
  lemma CreateThenFetch(db: Database, req: CreateRequest, codec: Codec, now: int)
    requires RoundTrips(codec)
    requires Accepted(req)
    requires BaseTableName(req.title.value) !in db && ResponseTableName(BaseTableName(req.title.value)) !in db
    requires ValidIdentifier(BaseTableName(req.title.value))
    requires ValidIdentifier(ResponseTableName(BaseTableName(req.title.value)))
    requires ValidLayout(ResponseLayout(req.questions.value))
    ensures CreateForm(db, req, codec, now).response.status == OkStatus
    ensures var served := GetJsonData(CreateForm(db, req, codec, now).db, BaseTableName(req.title.value), codec);
            UnquotedIdentifier(BaseTableName(req.title.value)) ==>
            && served == Response(OkStatus, Document(RequestDocument(req)))
            && DynamicForm.Render(DynamicForm.Load(Some(served))) ==
                 DynamicForm.FormCard(req.title.value, req.description, req.questions.value)
    ensures var served := GetJsonData(CreateForm(db, req, codec, now).db, BaseTableName(req.title.value), codec);
            !UnquotedIdentifier(BaseTableName(req.title.value)) ==>
            && served.status == ServerErrorStatus
            && DynamicForm.Render(DynamicForm.Load(Some(served))) ==
                 DynamicForm.FormCard(DynamicForm.InitialView.title, "", [])
  {
    var base := BaseTableName(req.title.value);
    var doc := RequestDocument(req);
    var blob := codec.encode(doc);
    var db' := CreateForm(db, req, codec, now).db;
    CreateFormOnFreshNames(db, req, codec, now);
    assert db'[base].columns == MetadataLayout;
    if UnquotedIdentifier(base) {
      ServedFirstRow(db', base, blob, doc, codec);
    } else {
      var served := GetJsonData(db', base, codec);
      assert served.status == ServerErrorStatus;
      DynamicForm.DefaultFormShown(Some(served));
    }
  }

  /** A metadata table holding just its first row serves that row's schema. */
  lemma ServedFirstRow(db: Database, base: string, blob: string, doc: FormDoc, codec: Codec)
    requires UnquotedIdentifier(base)
    requires base in db && db[base].columns == MetadataLayout && db[base].rows == [FirstMetadataRow(blob)]
    requires codec.decode(blob) == Some(doc)
    ensures GetJsonData(db, base, codec) == Response(OkStatus, Document(doc))
  {
    assert Names(MetadataLayout) == [IdColumn, JsonDataColumn, IsActiveColumn];
    assert Readable(db[base]);
    assert FirstWithKey(db[base].rows, SchemaRowKey) == Some(FirstMetadataRow(blob));
  }

  // ---------------------------------------------------------------------------
  // Close, then fetch and answer
  // ---------------------------------------------------------------------------

  /** `rows'` is `rows` after `SET is_active = v WHERE json_data LIKE pattern`. */
  predicate UpdatedRows(rows: seq<Row>, rows': seq<Row>, pattern: string, v: Value) {
    |rows'| == |rows| && forall i :: 0 <= i < |rows| ==> rows'[i] == UpdatedRow(rows[i], pattern, v)
  }

  /** The update leaves the keys alone, so the key-1 row is the same row,
      updated. */
  lemma {:induction false} FirstWithKeyUpdated(rows: seq<Row>, rows': seq<Row>, pattern: string, v: Value, key: int)
    requires UpdatedRows(rows, rows', pattern, v)
    ensures FirstWithKey(rows', key) ==
      match FirstWithKey(rows, key)
      case None => None
      case Some(row) => Some(UpdatedRow(row, pattern, v))
  {
    if rows != [] {
      assert Cell(rows'[0], IdColumn) == Cell(rows[0], IdColumn);
      assert UpdatedRows(rows[1..], rows'[1..], pattern, v);
      FirstWithKeyUpdated(rows[1..], rows'[1..], pattern, v, key);
    }
  }

  /** After the update, the table still answers the key-1 query, and with
      the same row updated. */
  lemma UpdatedSchemaRow(db: Database, listing: seq<string>, name: string, formTitle: string, v: Value)
    requires Lists(db, listing) && !ClosesLiteral(formTitle)
    requires name in db && Readable(db[name])
    ensures |db| > 0
    ensures var db' := UpdateFormStatus(db, listing, formTitle, v).value.db;
            && name in db' && Readable(db'[name])
            && FirstWithKey(db'[name].rows, SchemaRowKey) ==
                 match FirstWithKey(db[name].rows, SchemaRowKey)
                 case None => None
                 case Some(row) => Some(UpdatedRow(row, TitlePattern(formTitle), v))
  {
    assert name in db.Keys;
    var pattern := TitlePattern(formTitle);
    var db' := UpdateFormStatus(db, listing, formTitle, v).value.db;
    UpdatedDatabaseIsOutcome(db, listing, formTitle, v);
    UpdatedDatabaseLayout(db, pattern, v, name);
    assert IsMetadataTable(db[name]);
    assert UpdatedRows(db[name].rows, db'[name].rows, pattern, v);
    FirstWithKeyUpdated(db[name].rows, db'[name].rows, pattern, v, SchemaRowKey);
  }

  /** Setting `is_active` from the list on the rows matching a title decides
      what the live form of a table whose schema row matches gets: a falsy
      value refuses it with 403, a truthy one serves the unchanged schema.
      A title with an apostrophe updates nothing, so the fetch is answered
      as before. */
  lemma StatusThenFetch(db: Database, listing: seq<string>, name: string, formTitle: string, v: Value, codec: Codec)
    requires Lists(db, listing)
    requires name in db && Readable(db[name])
    requires FirstWithKey(db[name].rows, SchemaRowKey).Some?
    requires Selected(FirstWithKey(db[name].rows, SchemaRowKey).value, TitlePattern(formTitle))
    ensures |db| > 0
    ensures ClosesLiteral(formTitle) ==>
            GetJsonData(UpdateFormStatus(db, listing, formTitle, v).value.db, name, codec) == GetJsonData(db, name, codec)
    ensures var db' := UpdateFormStatus(db, listing, formTitle, v).value.db;
            var served := GetJsonData(db', name, codec);
            var schema := Parse(codec, Cell(FirstWithKey(db[name].rows, SchemaRowKey).value, JsonDataColumn));
            var effective := !ClosesLiteral(formTitle) && UnquotedIdentifier(name);
            && (!UnquotedIdentifier(name) ==> served.status == ServerErrorStatus)
            && (effective && !Truthy(v) ==> served == Response(ForbiddenStatus, Failure(ClosedMessage)))
            && (effective && !Truthy(v) ==>
                  DynamicForm.Render(DynamicForm.Load(Some(served))) == DynamicForm.ErrorNotice(ClosedMessage))
            && (effective && Truthy(v) && schema.Some? ==> served == Response(OkStatus, Document(schema.value)))
  {
    assert name in db.Keys;
    if ClosesLiteral(formTitle) || !UnquotedIdentifier(name) {
      return;
    }
    UpdatedSchemaRow(db, listing, name, formTitle, v);
    var db' := UpdateFormStatus(db, listing, formTitle, v).value.db;
    var row := FirstWithKey(db[name].rows, SchemaRowKey).value;
    var row' := UpdatedRow(row, TitlePattern(formTitle), v);
    assert FirstWithKey(db'[name].rows, SchemaRowKey) == Some(row');
    assert Cell(row', IsActiveColumn) == v;
    assert Cell(row', JsonDataColumn) == Cell(row, JsonDataColumn);
    FetchedRow(db', name, row', codec);
    DynamicForm.RefusalShown(ClosedMessage);
  }

  /** Closing or opening a form does not touch its response table, so the
      live form's answers get the same reception either way, unless that
      table itself looks like a metadata table. */
  lemma StatusThenSubmit(db: Database, listing: seq<string>, formTitle: string, v: Value,
                         param: string, body: Object<Value>, now: int)
    requires Lists(db, listing) && |db| > 0
    requires ResponseTableName(param) in db ==> !IsMetadataTable(db[ResponseTableName(param)])
    ensures Submit(UpdateFormStatus(db, listing, formTitle, v).value.db, param, body, now).response ==
            Submit(db, param, body, now).response
  {
    var db' := UpdateFormStatus(db, listing, formTitle, v).value.db;
    UpdatedDatabaseIsOutcome(db, listing, formTitle, v);
    SubmitIgnoresOtherTables(db', db, param, body, now);
  }

  // ---------------------------------------------------------------------------
  // The list's button against the server
  // ---------------------------------------------------------------------------

  /** The list flips its local state exactly when the server found a row to
      update, and the value it posted is truthy exactly when the new state is
      live. */
  lemma ClickAgainstServer(forms: seq<FormsList.ListedForm>, i: int, db: Database, listing: seq<string>)
    requires 0 <= i < |forms|
    requires Lists(db, listing) && |db| > 0
    ensures var request := FormsList.Click(forms, i, None).1;
            var out := UpdateFormStatus(db, listing, request.formTitle, request.isActive).value;
            var forms' := FormsList.Click(forms, i, Some(out.response)).0;
            && (forms'[i].active != forms[i].active <==>
                  !ClosesLiteral(forms[i].title) && AnySelected(db, TitlePattern(forms[i].title)))
            && (Truthy(request.isActive) <==> !forms[i].active)
  {
  }

  // ---------------------------------------------------------------------------
  // The list against the directory
  // ---------------------------------------------------------------------------

  /** `row` shows in the list as `f`: its schema parses, `f` carries the
      schema's title, and `f` is live exactly when the row's `is_active` is
      truthy. */
  predicate ListedAs(codec: Codec, row: Row, f: FormsList.ListedForm) {
    && Parse(codec, Cell(row, JsonDataColumn)).Some?
    && f == FormsList.ListedForm(Parse(codec, Cell(row, JsonDataColumn)).value.title, Truthy(Cell(row, IsActiveColumn)))
  }

  /** The forms list loaded from active-forms shows one form per parsable
      schema row of every metadata table, each live exactly when its
      `is_active` is truthy; on a database without tables it keeps loading. */
  lemma ListingShown(db: Database, listing: seq<string>, codec: Codec, f: FormsList.ListedForm)
    requires Lists(db, listing)
    ensures |db| == 0 ==> FormsList.Load(ActiveForms(db, listing, codec)) == FormsList.Loading
    ensures |db| > 0 ==>
      var s := FormsList.Load(ActiveForms(db, listing, codec));
      && s.Listing?
      && |s.forms| == ParsableTotal(db, listing, codec)
      && (f in s.forms <==>
            exists n, i :: n in db && IsMetadataTable(db[n]) && 0 <= i < |db[n].rows| && ListedAs(codec, db[n].rows[i], f))
  {
    if |db| > 0 {
      ActiveFormsCount(db, listing, codec);
      var es := ActiveForms(db, listing, codec).value.body.entries;
      var s := FormsList.Load(ActiveForms(db, listing, codec));
      if f in s.forms {
        var k :| 0 <= k < |s.forms| && s.forms[k] == f;
        ActiveFormsMembership(db, listing, codec, es[k]);
        var n, i :| n in db && IsMetadataTable(db[n]) && 0 <= i < |db[n].rows| && Contributes(codec, db[n].rows[i], es[k]);
        assert ListedAs(codec, db[n].rows[i], f);
      }
      if exists n, i :: n in db && IsMetadataTable(db[n]) && 0 <= i < |db[n].rows| && ListedAs(codec, db[n].rows[i], f) {
        var n, i :| n in db && IsMetadataTable(db[n]) && 0 <= i < |db[n].rows| && ListedAs(codec, db[n].rows[i], f);
        var e := DirectoryEntry(f.title, Cell(db[n].rows[i], IsActiveColumn));
        assert Contributes(codec, db[n].rows[i], e);
        ActiveFormsMembership(db, listing, codec, e);
        var k :| 0 <= k < |es| && es[k] == e;
        assert s.forms[k] == f;
      }
    }
  }

  // ---------------------------------------------------------------------------
  // Designer to generator
  // ---------------------------------------------------------------------------

  /** The document the designer posts, opened in the generator, shows the
      designer's title and one question per draft, in order; the questions
      it cannot render are exactly the choice and tick drafts left without
      options. */
  lemma DesignedFormGenerated(title: string, description: string, postscript: string, drafts: seq<FormCreator.Draft>)
    ensures var g := FormGenerator.GenerateForm(RequestDocument(FormCreator.Payload(title, description, postscript, drafts)));
            && g.title == title
            && |g.questions| == |drafts|
            && forall i :: 0 <= i < |drafts| ==>
                 && g.questions[i] == FormCreator.ToQuestion(drafts[i])
                 && (FormGenerator.ControlFor(g.questions[i]).Broken? <==>
                       Classify(drafts[i].qtype) in {ChoiceKind, TickKind} && drafts[i].options == [])
  {
  }

  // ---------------------------------------------------------------------------
  // Answers into columns
  // ---------------------------------------------------------------------------

  /** The live form's answers as the JSON body the server receives. */
  function Posted(data: DynamicForm.FormData): (body: Object<Value>)
    ensures Keys(body) == Keys(data)
    ensures forall i :: 0 <= i < |data| ==> body[i].1 == Str(data[i].1)
  {
    seq(|data|, i requires 0 <= i < |data| => (data[i].0, Str(data[i].1)))
  }

  /** No two answer keys share a column. */
  predicate SeparateColumns(data: DynamicForm.FormData) {
    forall j, k :: 0 <= j < k < |data| ==> Normalize(data[j].0) != Normalize(data[k].0)
  }

  /** When keys go to separate columns, each key's column reads its own value. */
  lemma {:induction false} LastValueSeparate(body: Object<Value>, i: int)
    requires 0 <= i < |body|
    requires forall j, k :: 0 <= j < k < |body| ==> Normalize(body[j].0) != Normalize(body[k].0)
    ensures LastValue(body, Normalize(body[i].0)) == Some(body[i].1)
  {
    if i < |body| - 1 {
      var front := body[..|body| - 1];
      assert front[i] == body[i];
      LastValueSeparate(front, i);
    }
  }

  /** An accepted submission of the live form stores, under the column of
      each answered question, the text that was entered for it. */
  lemma AnswersInColumns(data: DynamicForm.FormData, q: Question, db: Database, param: string, now: int)
    requires SeparateColumns(data)
    requires Get(data, q.text).Some?
    requires Submit(db, param, Posted(data), now).response.status == OkStatus
    ensures var rows := Submit(db, param, Posted(data), now).db[ResponseTableName(param)].rows;
            && rows != []
            && ColumnName(q) in rows[|rows| - 1]
            && rows[|rows| - 1][ColumnName(q)] == Str(Get(data, q.text).value)
  {
    var body := Posted(data);
    GetDefined(data, q.text);
    var i :| 0 <= i < |data| && Keys(data)[i] == q.text;
    assert Distinct(Keys(data)) by {
      forall j, k | 0 <= j < k < |data| ensures Keys(data)[j] != Keys(data)[k] {
        assert Normalize(data[j].0) != Normalize(data[k].0);
      }
    }
    GetDistinct(data, i);
    SubmittedRow(db, param, body, now, i);
    assert body[i].0 == q.text;
    LastValueSeparate(body, i);
    assert ColumnName(q) != IdColumn;
  }
}

=== FILE: schema.dfy ===
/** The form schema shared by server and clients: questions, the serialized
    form document, the identifiers derived from a title, the two table
    layouts the server provisions, and the closed set of question kinds the
    renderers switch on. */
module Schema {
  import opened Wrappers
  import opened Text
  import opened Objects
  import opened Store

  /** One question as posted to create-form and kept in the schema blob. A
      missing `text` is modelled as the empty string: both are falsy to the
      server's `!q.text`. Questions created without options carry `None`. */
  datatype Question = Question(text: string, qtype: string, options: Option<seq<string>>, required: bool)

  /** The document `{title, description, postscript, questions}` the server
      serializes into a metadata row. */
  datatype FormDoc = FormDoc(title: string, description: string, postscript: string, questions: seq<Question>)

  /** `JSON.stringify` and `JSON.parse` on form documents; parsing may fail. */
  datatype Codec = Codec(encode: FormDoc -> string, decode: string -> Option<FormDoc>)

  /** Parsing a serialized document gives it back. */
  ghost predicate RoundTrips(codec: Codec) {
    forall d :: codec.decode(codec.encode(d)) == Some(d)
  }

  // ---------------------------------------------------------------------------
  // Storage identifiers
  // ---------------------------------------------------------------------------

  /** `title.replace(/\s+/g, '_')`: the metadata table of a form. */
  function BaseTableName(title: string): string {
    Normalize(title)
  }

  const ResponsesSuffix := "_responses"

  /** `${name}_responses`: the response table behind a table name. */
  function ResponseTableName(name: string): (r: string)
    ensures |r| == |name| + 10
    ensures r[..|name|] == name && r[|name|..] == ResponsesSuffix
  {
    name + ResponsesSuffix
  }

  /** The column that holds a question's answers. */
  function ColumnName(q: Question): string {
    Normalize(q.text)
  }

  /** Both identifiers of a form are free of whitespace, and its response
      table is never its metadata table. */
  lemma TableNamesWellFormed(title: string)
    ensures NoWhitespace(BaseTableName(title))
    ensures NoWhitespace(ResponseTableName(BaseTableName(title)))
    ensures ResponseTableName(BaseTableName(title)) != BaseTableName(title)
    ensures BaseTableName(BaseTableName(title)) == BaseTableName(title)
  {
    var base := BaseTableName(title);
    var resp := ResponseTableName(base);
    forall i | 0 <= i < |resp| ensures !IsWhitespace(resp[i]) {
      if i < |base| { assert resp[i] == base[i]; } else { assert resp[i] == ResponsesSuffix[i - |base|]; }
    }
    NormalizeIdempotent(title);
  }

  // ---------------------------------------------------------------------------
  // Layouts
  // ---------------------------------------------------------------------------

  const JsonDataColumn := "json_data"
  const IsActiveColumn := "is_active"
  const TimestampColumn := "timestamp"

  /** `id INT AUTO_INCREMENT PRIMARY KEY, json_data JSON NOT NULL,
      is_active BOOLEAN DEFAULT TRUE`. */
  const MetadataLayout: seq<Column> := [
    Column(IdColumn, "int", false, NoDefault),
    Column(JsonDataColumn, "json", false, NoDefault),
    Column(IsActiveColumn, "tinyint(1)", true, Fixed(Num(1)))
  ]

  /** `id INT AUTO_INCREMENT PRIMARY KEY, timestamp DATETIME DEFAULT
      CURRENT_TIMESTAMP`, then one `VARCHAR(255)` column per question. */
  function ResponseLayout(questions: seq<Question>): (r: seq<Column>)
    ensures |r| == |questions| + 2
    ensures r[0].name == IdColumn && r[1].name == TimestampColumn
    ensures forall i :: 0 <= i < |questions| ==> r[i + 2] == Column(ColumnName(questions[i]), "varchar(255)", true, NoDefault)
  {
    [Column(IdColumn, "int", false, NoDefault), Column(TimestampColumn, "datetime", true, CurrentTime)]
      + seq(|questions|, i requires 0 <= i < |questions| => Column(ColumnName(questions[i]), "varchar(255)", true, NoDefault))
  }

  /** A table that the directory treats as a form's metadata table. */
  predicate IsMetadataTable(t: Table) {
    HasColumn(t, JsonDataColumn) && HasColumn(t, IsActiveColumn)
  }

  // ---------------------------------------------------------------------------
  // Question kinds
  // ---------------------------------------------------------------------------

  const StringType := "string"
  const IntegerType := "integer"
  const DateType := "date"
  const TimeType := "time"
  const MeterType := "meter"
  const ChoiceType := "multiple choice question"
  const TickType := "multiple tick answer"

  /** The cases of the renderers' `switch (q.type.toLowerCase())`; every
      other type string, `time` included, falls to `Unrecognised`. */
  datatype Kind = StringKind | IntegerKind | DateKind | ChoiceKind | TickKind | MeterKind | Unrecognised

  function Classify(qtype: string): (k: Kind)
    ensures k == StringKind <==> ToLower(qtype) == StringType
    ensures k == IntegerKind <==> ToLower(qtype) == IntegerType
    ensures k == DateKind <==> ToLower(qtype) == DateType
    ensures k == ChoiceKind <==> ToLower(qtype) == ChoiceType
    ensures k == TickKind <==> ToLower(qtype) == TickType
    ensures k == MeterKind <==> ToLower(qtype) == MeterType
    ensures k == Unrecognised <==>
      ToLower(qtype) !in {StringType, IntegerType, DateType, ChoiceType, TickType, MeterType}
  {
    var t := ToLower(qtype);
    if t == StringType then StringKind
    else if t == IntegerType then IntegerKind
    else if t == DateType then DateKind
    else if t == ChoiceType then ChoiceKind
    else if t == TickType then TickKind
    else if t == MeterType then MeterKind
    else Unrecognised
  }

  /** Classification ignores letter case. */
  lemma ClassifyIgnoresCase(a: string, b: string)
    requires ToLower(a) == ToLower(b)
    ensures Classify(a) == Classify(b)
  {
  }

  /** `time` has no case of its own, in any spelling. */
  lemma TimeIsUnrecognised(qtype: string)
    requires ToLower(qtype) == TimeType
    ensures Classify(qtype) == Unrecognised
  {
  }
}

=== FILE: sql_like.dfy ===
/** The `LIKE` operator that update-form-status uses to find a form's
    metadata row by title, and its relation to plain substring search. */
module SqlLike {
  import opened Text

  /** `t LIKE p` under MySQL's rules: `%` matches any run of characters, `_`
      matches exactly one character, and a backslash makes the character after
      it literal. */
  predicate Like(t: string, p: string)
    decreases |t| + |p|
  {
    if p == [] then t == []
    else if p[0] == '%' then Like(t, p[1..]) || (t != [] && Like(t[1..], p))
    else if p[0] == '_' then t != [] && Like(t[1..], p[1..])
    else if p[0] == '\\' && |p| >= 2 then t != [] && t[0] == p[1] && Like(t[1..], p[2..])
    else t != [] && t[0] == p[0] && Like(t[1..], p[1..])
  }

  /** A string in which `LIKE` sees no wildcard and no escape. */
  predicate IsLiteral(w: string) {
    forall i :: 0 <= i < |w| ==> w[i] != '%' && w[i] != '_' && w[i] != '\\'
  }

  /** The status update writes its pattern between single quotes, so an
      apostrophe in the title ends the string literal early and the statement
      does not parse. */
  predicate ClosesLiteral(title: string) {
    '\'' in title
  }

  /** A title between double quotes, as it appears in the serialized schema. */
  function Quoted(title: string): string {
    "\"" + title + "\""
  }

  /** The pattern `%"<formTitle>"%` of server.js's status update. */
  function TitlePattern(title: string): string {
    "%" + Quoted(title) + "%"
  }

  /** A lone `%` matches every string. */
  lemma {:induction false} PercentMatchesAll(t: string)
    ensures Like(t, "%")
  {
    if t != [] {
      PercentMatchesAll(t[1..]);
    }
  }

  /** A literal followed by `%` matches exactly the strings it prefixes. */
  lemma {:induction false} LiteralPrefixMatch(t: string, w: string)
    requires IsLiteral(w)
    ensures Like(t, w + "%") <==> IsPrefix(w, t)
  {
    if w == [] {
      assert w + "%" == "%";
      PercentMatchesAll(t);
    } else {
      var p := w + "%";
      assert p[0] == w[0] && p[1..] == w[1..] + "%";
      assert IsLiteral(w[1..]) by {
        forall i | 0 <= i < |w[1..]| ensures w[1..][i] != '%' && w[1..][i] != '_' && w[1..][i] != '\\' {
          assert w[1..][i] == w[i + 1];
        }
      }
      if t != [] {
        LiteralPrefixMatch(t[1..], w[1..]);
        assert IsPrefix(w, t) <==> t[0] == w[0] && IsPrefix(w[1..], t[1..]) by {
          if IsPrefix(w, t) {
            assert t[1..][..|w| - 1] == t[..|w|][1..];
          }
          if t[0] == w[0] && IsPrefix(w[1..], t[1..]) {
            assert t[..|w|] == [t[0]] + t[1..][..|w| - 1];
          }
        }
      }
    }
  }

  /** `%w%` for a literal `w` is substring search. */
  lemma {:induction false} LikeIsContains(t: string, w: string)
    requires IsLiteral(w)
    ensures Like(t, "%" + w + "%") <==> Contains(t, w)
  {
    var p := "%" + w + "%";
    assert p[0] == '%' && p[1..] == w + "%";
    LiteralPrefixMatch(t, w);
    ContainsUnfold(t, w);
    if t != [] {
      LikeIsContains(t[1..], w);
    }
  }

  /** For a title free of wildcards and backslashes, the status update selects
      exactly the blobs that contain the quoted title. */
  lemma TitlePatternIsQuotedSubstring(blob: string, title: string)
    requires IsLiteral(title)
    ensures Like(blob, TitlePattern(title)) <==> Contains(blob, Quoted(title))
  {
    assert IsLiteral(Quoted(title)) by {
      var q := Quoted(title);
      forall i | 0 <= i < |q| ensures q[i] != '%' && q[i] != '_' && q[i] != '\\' {
        if 0 < i < |q| - 1 { assert q[i] == title[i - 1]; }
      }
    }
    assert TitlePattern(title) == "%" + Quoted(title) + "%";
    LikeIsContains(blob, Quoted(title));
  }

  /** A leading `%` absorbs any prefix of the subject. */
  lemma {:induction false} PercentAbsorbsPrefix(u: string, t: string, p: string)
    requires p != [] && p[0] == '%' && Like(t, p[1..])
    ensures Like(u + t, p)
  {
    if u == [] {
      assert u + t == t;
    } else {
      PercentAbsorbsPrefix(u[1..], t, p);
      assert (u + t)[1..] == u[1..] + t;
    }
  }

  /** An occurrence of `w` in `t` brings every character of `w` into `t`. */
  lemma ContainsCharacters(t: string, w: string, c: char)
    requires Contains(t, w) && c in w
    ensures c in t
  {
    var i :| 0 <= i <= |t| && OccursAt(t, w, i);
    var j :| 0 <= j < |w| && w[j] == c;
    assert t[i..][j] == c;
  }

  /** The directory blob of a form titled `a b`. */
  function SpacedTitleBlob(): string {
    "{\"title\":" + Quoted("a b") + "}"
  }

  /** An underscore in a title is a wildcard: the pattern for `a_b` also
      selects the blob of a form titled `a b`. */
  lemma UnderscoreTitleMatchesSpacedTitle()
    ensures Like(SpacedTitleBlob(), TitlePattern("a_b"))
  {
    var u, t := "{\"title\":", Quoted("a b") + "}";
    var p := TitlePattern("a_b");
    assert p[0] == '%';
    assert Like(t, p[1..]) by {
      assert t == "\"a b\"}";
      assert p[1..] == "\"a_b\"%";
      PercentMatchesAll("}");
      assert Like("\"}", "\"%");
      assert Like("b\"}", "b\"%");
      assert Like(" b\"}", "_b\"%");
      assert Like("a b\"}", "a_b\"%");
    }
    PercentAbsorbsPrefix(u, t, p);
    assert u + t == SpacedTitleBlob();
  }

  /** ... although that blob does not contain the quoted title `a_b`. */
  lemma SpacedTitleBlobLacksUnderscoreTitle()
    ensures !Contains(SpacedTitleBlob(), Quoted("a_b"))
  {
    var blob := SpacedTitleBlob();
    assert '_' !in blob;
    if Contains(blob, Quoted("a_b")) {
      assert Quoted("a_b")[2] == '_';
      ContainsCharacters(blob, Quoted("a_b"), '_');
    }
  }
}

=== FILE: store.dfy ===
/** The relational store behind the server, reduced to what the forms engine
    asks of it: named tables with ordered columns and rows, `CREATE TABLE IF
    NOT EXISTS`, and `INSERT` with an AUTO_INCREMENT key. Each query is a pure
    transition that either yields the new database or is rejected. */
module Store {
  import opened Wrappers
  import opened Objects

  /** A cell as the mysql driver hands it to JavaScript. */
  datatype Value = Null | Num(n: int) | Str(s: string) | Stamp(at: int)

  /** JavaScript truthiness of a cell: NULL, 0 and the empty string are false. */
  predicate Truthy(v: Value) {
    match v
    case Null => false
    case Num(n) => n != 0
    case Str(s) => s != []
    case Stamp(_) => true
  }

  datatype Default = NoDefault | Fixed(v: Value) | CurrentTime

  /** A column as `DESCRIBE` reports it: name, SQL type, whether NULL is
      allowed, and its default. */
  datatype Column = Column(name: string, sqlType: string, nullable: bool, default: Default)

  type Row = map<string, Value>

  /** A table: columns in declaration order, rows in insertion order, and the
      next AUTO_INCREMENT value. */
  datatype Table = Table(columns: seq<Column>, rows: seq<Row>, nextId: nat)

  type Database = map<string, Table>

  /** The AUTO_INCREMENT primary key of every table the forms engine creates. */
  const IdColumn := "id"

  function Names(cols: seq<Column>): (r: seq<string>)
    ensures |r| == |cols| && forall i :: 0 <= i < |cols| ==> r[i] == cols[i].name
  {
    seq(|cols|, i requires 0 <= i < |cols| => cols[i].name)
  }

  predicate HasColumn(t: Table, name: string) {
    name in Names(t.columns)
  }

  /** A name MySQL accepts between backquotes: 1 to 64 characters of the
      Basic Multilingual Plane, none of them a backquote or NUL. */
  predicate ValidIdentifier(s: string) {
    && 0 < |s| <= 64 && '`' !in s && '\0' !in s
    && forall i :: 0 <= i < |s| ==> s[i] as int <= 0xFFFF
  }

  /** The layouts `CREATE TABLE` accepts: valid, pairwise distinct names. */
  predicate ValidLayout(cols: seq<Column>) {
    && (forall i :: 0 <= i < |cols| ==> ValidIdentifier(cols[i].name))
    && Distinct(Names(cols))
  }

  /** The value of a column in a row; a missing cell reads as NULL. */
  function Cell(r: Row, name: string): Value {
    if name in r then r[name] else Null
  }

  /** `CREATE TABLE IF NOT EXISTS name (cols)`: an existing table of that name
      is left exactly as it is, whatever its layout. */
  function CreateTableIfNotExists(db: Database, name: string, cols: seq<Column>): (r: Option<Database>)
    ensures name in db ==> r == Some(db)
    ensures name !in db ==> (r.Some? <==> ValidIdentifier(name) && ValidLayout(cols))
    ensures r.Some? ==> r.value.Keys == db.Keys + {name}
                        && (forall n :: n in db ==> r.value[n] == db[n])
                        && (name !in db ==> r.value[name] == Table(cols, [], 1))
  {
    if name in db then Some(db)
    else if ValidIdentifier(name) && ValidLayout(cols) then Some(db[name := Table(cols, [], 1)])
    else None
  }

  function DefaultValue(c: Column, now: int): Value {
    match c.default
    case NoDefault => Null
    case Fixed(v) => v
    case CurrentTime => Stamp(now)
  }

  /** Every column at its default; the first of two equal names wins. */
  function Defaults(cols: seq<Column>, now: int): (m: map<string, Value>)
    ensures m.Keys == set i | 0 <= i < |cols| :: cols[i].name
  {
    if cols == [] then map[]
    else Defaults(cols[1..], now)[cols[0].name := DefaultValue(cols[0], now)]
  }

  /** The cells of an INSERT as a map; a later pair overrides an earlier one. */
  function Assoc(cells: seq<(string, Value)>): (m: map<string, Value>)
    ensures m.Keys == set i | 0 <= i < |cells| :: cells[i].0
  {
    if cells == [] then map[]
    else Assoc(cells[..|cells| - 1])[cells[|cells| - 1].0 := cells[|cells| - 1].1]
  }

  /** The key an explicit `id` cell asks for: a non-zero number is taken as
      given, while NULL and 0 leave the choice to AUTO_INCREMENT. */
  function RequestedId(cells: seq<(string, Value)>): Option<int> {
    if IdColumn in Assoc(cells) && Assoc(cells)[IdColumn].Num? && Assoc(cells)[IdColumn].n != 0
    then Some(Assoc(cells)[IdColumn].n)
    else None
  }

  /** Some row of `t` already holds key `k`. */
  predicate KeyTaken(t: Table, k: int) {
    exists i :: 0 <= i < |t.rows| && Cell(t.rows[i], IdColumn) == Num(k)
  }

  /** An explicit `id` cell, when there is one, is NULL, 0 or a number no row
      holds yet; any other value breaks the PRIMARY KEY or the column type. */
  predicate KeyAccepted(t: Table, cells: seq<(string, Value)>) {
    IdColumn !in Assoc(cells) ||
    match Assoc(cells)[IdColumn]
    case Null => true
    case Num(n) => n == 0 || !KeyTaken(t, n)
    case _ => false
  }

  /** The key the new row receives: the requested one, else the counter. */
  function AssignedId(t: Table, cells: seq<(string, Value)>): int {
    match RequestedId(cells)
    case Some(n) => n
    case None => t.nextId
  }

  /** The counter after an insert: one past the assigned key when that key
      reached it, unchanged when an explicit key lies below it. */
  function NextIdAfter(t: Table, cells: seq<(string, Value)>): nat {
    if AssignedId(t, cells) >= t.nextId then AssignedId(t, cells) + 1 else t.nextId
  }

  /** The conditions under which the engine accepts
      `INSERT INTO name (k1, ..., kn) VALUES (v1, ..., vn)`: the table exists,
      every named column exists and is named once, an explicit key is one the
      engine takes, and no NOT NULL column without a default is left out. */
  predicate InsertAccepted(db: Database, name: string, cells: seq<(string, Value)>) {
    && name in db
    && Distinct(Keys(cells))
    && KeyAccepted(db[name], cells)
    && (forall i :: 0 <= i < |cells| ==> HasColumn(db[name], cells[i].0))
    && (forall c :: c in db[name].columns && !c.nullable && c.default == NoDefault && c.name != IdColumn
          ==> c.name in Keys(cells))
  }

  /** The row an accepted INSERT appends. */
  function NewRow(t: Table, cells: seq<(string, Value)>, now: int): Row {
    var row := Defaults(t.columns, now) + Assoc(cells);
    if HasColumn(t, IdColumn) then row[IdColumn := Num(AssignedId(t, cells))] else row
  }

  /** An INSERT: appends one row to table `name` and reports the key it took;
      every other table and every earlier row is untouched. */
  function Insert(db: Database, name: string, cells: seq<(string, Value)>, now: int): (r: Option<(Database, int)>)
    ensures r.Some? <==> InsertAccepted(db, name, cells)
    ensures r.Some? ==>
      var (db', id) := r.value;
      && db'.Keys == db.Keys
      && (forall n :: n in db && n != name ==> db'[n] == db[n])
      && db'[name].columns == db[name].columns
      && db'[name].rows == db[name].rows + [NewRow(db[name], cells, now)]
      && id == AssignedId(db[name], cells)
      && db'[name].nextId == NextIdAfter(db[name], cells)
  {
    if InsertAccepted(db, name, cells) then
      var t := db[name];
      Some((db[name := Table(t.columns, t.rows + [NewRow(t, cells, now)], NextIdAfter(t, cells))], AssignedId(t, cells)))
    else None
  }

  /** Without an `id` cell the key comes from the counter, which then moves
      on by one. */
  lemma AutoKey(t: Table, cells: seq<(string, Value)>)
    requires IdColumn !in Keys(cells)
    ensures AssignedId(t, cells) == t.nextId && NextIdAfter(t, cells) == t.nextId + 1
  {
  }

  /** An explicit non-zero `id` that the engine accepts becomes the new
      row's key, and the counter moves past it. */
  lemma InsertExplicitKey(db: Database, name: string, cells: seq<(string, Value)>, now: int, i: int, n: int)
    requires Insert(db, name, cells, now).Some?
    requires 0 <= i < |cells| && cells[i] == (IdColumn, Num(n)) && n != 0
    ensures var (db', id) := Insert(db, name, cells, now).value;
            && id == n
            && !KeyTaken(db[name], n)
            && db'[name].nextId > n && db'[name].nextId >= db[name].nextId
            && (HasColumn(db[name], IdColumn) ==> NewRow(db[name], cells, now)[IdColumn] == Num(n))
  {
    AssocDistinct(cells, i);
  }

  /** Every key in the table is a distinct number below the counter. */
  predicate KeysSound(t: Table) {
    && (forall i :: 0 <= i < |t.rows| ==> Cell(t.rows[i], IdColumn).Num? && Cell(t.rows[i], IdColumn).n < t.nextId)
    && (forall i, j :: 0 <= i < j < |t.rows| ==> Cell(t.rows[i], IdColumn) != Cell(t.rows[j], IdColumn))
  }

  /** A table `CREATE TABLE` just made has sound keys. */
  lemma CreatedTableKeysSound(db: Database, name: string, cols: seq<Column>)
    requires name !in db && CreateTableIfNotExists(db, name, cols).Some?
    ensures KeysSound(CreateTableIfNotExists(db, name, cols).value[name])
  {
  }

  /** Inserts keep the keys of a table with an `id` column sound: the new
      key, whether requested or counted, clashes with no earlier row. */
  lemma InsertKeepsKeysSound(db: Database, name: string, cells: seq<(string, Value)>, now: int)
    requires Insert(db, name, cells, now).Some?
    requires HasColumn(db[name], IdColumn) && KeysSound(db[name])
    ensures KeysSound(Insert(db, name, cells, now).value.0[name])
  {
    var t := db[name];
    var t' := Insert(db, name, cells, now).value.0[name];
    var k := AssignedId(t, cells);
    assert Cell(t'.rows[|t.rows|], IdColumn) == Num(k);
    assert !KeyTaken(t, k) by {
      if RequestedId(cells).Some? {
        assert Assoc(cells)[IdColumn] == Num(k);
      } else {
        forall i | 0 <= i < |t.rows| ensures Cell(t.rows[i], IdColumn) != Num(k) {
        }
      }
    }
    forall i, j | 0 <= i < j < |t'.rows| ensures Cell(t'.rows[i], IdColumn) != Cell(t'.rows[j], IdColumn) {
      if j == |t.rows| {
        assert t'.rows[i] == t.rows[i];
      } else {
        assert t'.rows[i] == t.rows[i] && t'.rows[j] == t.rows[j];
      }
    }
    forall i | 0 <= i < |t'.rows| ensures Cell(t'.rows[i], IdColumn).Num? && Cell(t'.rows[i], IdColumn).n < t'.nextId {
      if i < |t.rows| {
        assert t'.rows[i] == t.rows[i];
      }
    }
  }

  /** With pairwise distinct keys, each key maps to its own value. */
  lemma {:induction false} AssocDistinct(cells: seq<(string, Value)>, i: int)
    requires Distinct(Keys(cells)) && 0 <= i < |cells|
    ensures Assoc(cells)[cells[i].0] == cells[i].1
  {
    var n := |cells| - 1;
    if i < n {
      var front := cells[..n];
      assert Keys(front) == Keys(cells)[..n];
      assert front[i] == cells[i];
      AssocDistinct(front, i);
      assert Keys(cells)[i] != Keys(cells)[n];
    }
  }

  /** The appended row carries every inserted value under its column name,
      the assigned key, and the defaults of the columns left out. */
  lemma NewRowContents(t: Table, cells: seq<(string, Value)>, now: int)
    requires Distinct(Keys(cells))
    requires forall i :: 0 <= i < |cells| ==> HasColumn(t, cells[i].0)
    ensures NewRow(t, cells, now).Keys == set i | 0 <= i < |t.columns| :: t.columns[i].name
    ensures forall i :: 0 <= i < |cells| && cells[i].0 != IdColumn ==> NewRow(t, cells, now)[cells[i].0] == cells[i].1
    ensures HasColumn(t, IdColumn) ==> NewRow(t, cells, now)[IdColumn] == Num(AssignedId(t, cells))
  {
    NewRowKeys(t, cells, now);
    forall i | 0 <= i < |cells| && cells[i].0 != IdColumn ensures NewRow(t, cells, now)[cells[i].0] == cells[i].1 {
      NewRowValue(t, cells, now, i);
    }
    if HasColumn(t, IdColumn) {
      var j :| 0 <= j < |t.columns| && Names(t.columns)[j] == IdColumn;
      assert IdColumn in Defaults(t.columns, now);
    }
  }

  /** The appended row has exactly the table's columns. */
  lemma NewRowKeys(t: Table, cells: seq<(string, Value)>, now: int)
    requires forall i :: 0 <= i < |cells| ==> HasColumn(t, cells[i].0)
    ensures NewRow(t, cells, now).Keys == set i | 0 <= i < |t.columns| :: t.columns[i].name
  {
    forall k | k in Assoc(cells) ensures k in Defaults(t.columns, now) {
      var i :| 0 <= i < |cells| && cells[i].0 == k;
      assert k in Names(t.columns);
    }
    if HasColumn(t, IdColumn) {
      var j :| 0 <= j < |t.columns| && Names(t.columns)[j] == IdColumn;
      assert IdColumn in Defaults(t.columns, now);
    }
  }

  /** An inserted value that is not the key lands under its column name. */
  lemma NewRowValue(t: Table, cells: seq<(string, Value)>, now: int, i: int)
    requires Distinct(Keys(cells)) && 0 <= i < |cells| && cells[i].0 != IdColumn
    ensures NewRow(t, cells, now)[cells[i].0] == cells[i].1
  {
    AssocDistinct(cells, i);
    assert Keys(cells)[i] == cells[i].0;
  }
}

=== FILE: submission.dfy ===
/** The handlers on the response side: submit (one answer row, keys
    normalized the way column names were) and form-fields (a table's columns
    described for a client). */
module Submission {
  import opened Wrappers
  import opened Text
  import opened Objects
  import opened Store
  import opened Schema
  import opened SqlLike
  import opened Api

  // ---------------------------------------------------------------------------
  // Key cleaning
  // ---------------------------------------------------------------------------

  /** `for (key in formData) cleaned[key.replace(/\s+/g, '_')] = formData[key]`. */
  function CleanKeys(body: Object<Value>): Object<Value> {
    if body == [] then []
    else
      var last := body[|body| - 1];
      Put(CleanKeys(body[..|body| - 1]), Normalize(last.0), last.1)
  }

  /** Reference reading of the cleaned object: the value of the last posted
      pair whose key normalizes to `k`. */
  function LastValue(body: Object<Value>, k: string): Option<Value> {
    if body == [] then None
    else if Normalize(body[|body| - 1].0) == k then Some(body[|body| - 1].1)
    else LastValue(body[..|body| - 1], k)
  }

  /** The cleaned object has distinct keys, and each key reads the last value
      posted under any key that normalizes to it. */
  lemma {:induction false} CleanKeysSpec(body: Object<Value>, k: string)
    ensures Distinct(Keys(CleanKeys(body)))
    ensures Get(CleanKeys(body), k) == LastValue(body, k)
  {
    if body != [] {
      var front := body[..|body| - 1];
      var last := body[|body| - 1];
      CleanKeysSpec(front, k);
      PutSpec(CleanKeys(front), Normalize(last.0), last.1, k);
    }
  }

  /** Cleaning yields no key at all only for an empty body. */
  lemma CleanKeysEmpty(body: Object<Value>)
    ensures CleanKeys(body) == [] <==> body == []
  {
    if body != [] {
      var last := body[|body| - 1];
      CleanKeysSpec(body, Normalize(last.0));
    }
  }

  // ---------------------------------------------------------------------------
  // submit
  // ---------------------------------------------------------------------------

  /** `INSERT INTO target (timestamp, k1, ...) VALUES (NOW(), v1, ...)`. */
  function SubmitCells(cleaned: Object<Value>, now: int): Object<Value> {
    [(TimestampColumn, Stamp(now))] + cleaned
  }

  /** `POST /api/submit/:tableName`: one row into `<tableName>_responses`,
      stamped with the time, under the cleaned keys. The parameter itself is
      not normalized. An empty body yields the column list `(timestamp , )`,
      which the engine refuses. Nothing checks that the form is active. */
  function Submit(db: Database, param: string, body: Object<Value>, now: int): (r: Outcome)
    ensures r.response.status in {OkStatus, ServerErrorStatus}
    ensures r.response.status == OkStatus <==>
      body != [] && InsertAccepted(db, ResponseTableName(param), SubmitCells(CleanKeys(body), now))
    ensures r.response.status == ServerErrorStatus ==> r.db == db
    ensures r.response.status == OkStatus ==>
      var target := ResponseTableName(param);
      var t := db[target];
      var cells := SubmitCells(CleanKeys(body), now);
      && r.response.body == Inserted(AssignedId(t, cells))
      && r.db == db[target := Table(t.columns, t.rows + [NewRow(t, cells, now)], NextIdAfter(t, cells))]
  {
    CleanKeysEmpty(body);
    var target := ResponseTableName(param);
    var cleaned := CleanKeys(body);
    if cleaned == [] then
      Outcome(Response(ServerErrorStatus, Failure("Database insert error")), db)
    else
      match Insert(db, target, SubmitCells(cleaned, now), now)
      case None => Outcome(Response(ServerErrorStatus, Failure("Database insert error")), db)
      case Some((db', id)) => Outcome(Response(OkStatus, Inserted(id)), db')
  }

  /** The stored answer: under each posted key other than `id`, normalized,
      the last value posted for it; the submission time under `timestamp`;
      the assigned key under `id`, which is the posted one when that is a
      non-zero number and the counter otherwise. */
  lemma SubmittedRow(db: Database, param: string, body: Object<Value>, now: int, i: int)
    requires Submit(db, param, body, now).response.status == OkStatus
    requires 0 <= i < |body|
    ensures var target := ResponseTableName(param);
            var rows := Submit(db, param, body, now).db[target].rows;
            var k := Normalize(body[i].0);
            && |rows| == |db[target].rows| + 1
            && LastValue(body, k).Some?
            && (k != IdColumn ==> k in rows[|rows| - 1] && rows[|rows| - 1][k] == LastValue(body, k).value)
            && TimestampColumn in rows[|rows| - 1] && rows[|rows| - 1][TimestampColumn] == Stamp(now)
            && (HasColumn(db[target], IdColumn) ==>
                  IdColumn in rows[|rows| - 1] && rows[|rows| - 1][IdColumn] == Num(AssignedId(db[target], SubmitCells(CleanKeys(body), now))))
            && (k == IdColumn ==> LastValue(body, k).value.Null? || LastValue(body, k).value.Num?)
  {
    var target := ResponseTableName(param);
    var t := db[target];
    var cleaned := CleanKeys(body);
    var cells := SubmitCells(cleaned, now);
    var k := Normalize(body[i].0);
    assert InsertAccepted(db, target, cells);
    LastValueDefined(body, i);
    CleanKeysSpec(body, k);
    SubmittedCells(t, cleaned, now, k);
  }

  /** The row an accepted submission appends holds each cleaned value under
      its key, the time under `timestamp` and the assigned key under `id`. */
  lemma SubmittedCells(t: Table, cleaned: Object<Value>, now: int, k: string)
    requires Distinct(Keys(cleaned)) && Get(cleaned, k).Some?
    requires Distinct(Keys(SubmitCells(cleaned, now)))
    requires forall i :: 0 <= i < |SubmitCells(cleaned, now)| ==> HasColumn(t, SubmitCells(cleaned, now)[i].0)
    ensures var row := NewRow(t, SubmitCells(cleaned, now), now);
            && (k != IdColumn ==> k in row && row[k] == Get(cleaned, k).value)
            && TimestampColumn in row && row[TimestampColumn] == Stamp(now)
            && (HasColumn(t, IdColumn) ==> IdColumn in row && row[IdColumn] == Num(AssignedId(t, SubmitCells(cleaned, now))))
            && (k == IdColumn ==> IdColumn in Assoc(SubmitCells(cleaned, now))
                                  && Assoc(SubmitCells(cleaned, now))[IdColumn] == Get(cleaned, k).value)
  {
    var cells := SubmitCells(cleaned, now);
    SubmittedStamp(t, cleaned, now);
    GetDefined(cleaned, k);
    var j :| 0 <= j < |cleaned| && Keys(cleaned)[j] == k;
    GetDistinct(cleaned, j);
    assert cells[j + 1] == cleaned[j];
    if k != IdColumn {
      NewRowValue(t, cells, now, j + 1);
    } else {
      AssocDistinct(cells, j + 1);
      assert Keys(cells)[j + 1] == cells[j + 1].0;
    }
  }

  /** The appended row holds the submission time under `timestamp`. */
  lemma SubmittedStamp(t: Table, cleaned: Object<Value>, now: int)
    requires Distinct(Keys(SubmitCells(cleaned, now)))
    ensures var row := NewRow(t, SubmitCells(cleaned, now), now);
            TimestampColumn in row && row[TimestampColumn] == Stamp(now)
  {
    var cells := SubmitCells(cleaned, now);
    assert cells[0] == (TimestampColumn, Stamp(now));
    assert TimestampColumn != IdColumn by { assert |TimestampColumn| != |IdColumn|; }
    NewRowValue(t, cells, now, 0);
  }

  /** Every posted key normalizes to a key that has a value. */
  lemma {:induction false} LastValueDefined(body: Object<Value>, i: int)
    requires 0 <= i < |body|
    ensures LastValue(body, Normalize(body[i].0)).Some?
  {
    if i < |body| - 1 && Normalize(body[|body| - 1].0) != Normalize(body[i].0) {
      var front := body[..|body| - 1];
      assert front[i] == body[i];
      LastValueDefined(front, i);
    }
  }

  /** An empty body is always refused. */
  lemma SubmitEmptyBody(db: Database, param: string, now: int)
    ensures Submit(db, param, [], now).response.status == ServerErrorStatus
  {
  }

  /** A posted key that normalizes to `timestamp` names that column twice,
      and the insert is refused. */
  lemma SubmitTimestampClash(db: Database, param: string, body: Object<Value>, now: int, i: int)
    requires 0 <= i < |body| && Normalize(body[i].0) == TimestampColumn
    ensures Submit(db, param, body, now).response.status == ServerErrorStatus
  {
    var cleaned := CleanKeys(body);
    CleanKeysSpec(body, TimestampColumn);
    LastValueDefined(body, i);
    GetDefined(cleaned, TimestampColumn);
    TimestampTwice(cleaned, now);
  }

  lemma TimestampTwice(cleaned: Object<Value>, now: int)
    requires TimestampColumn in Keys(cleaned)
    ensures !Distinct(Keys(SubmitCells(cleaned, now)))
  {
    var j :| 0 <= j < |cleaned| && Keys(cleaned)[j] == TimestampColumn;
    var cells := SubmitCells(cleaned, now);
    assert Keys(cells)[0] == Keys(cells)[j + 1];
  }

  /** Submission reads and writes the response table alone: whether the form
      is active, or anything else in the database, does not change the answer,
      and every other table is left as it was. */
  lemma SubmitIgnoresOtherTables(db: Database, db': Database, param: string, body: Object<Value>, now: int)
    requires var target := ResponseTableName(param);
             (target in db <==> target in db') && (target in db ==> db[target] == db'[target])
    ensures Submit(db, param, body, now).response == Submit(db', param, body, now).response
    ensures forall n :: n in db && n != ResponseTableName(param) ==> Submit(db, param, body, now).db[n] == db[n]
  {
  }

  // ---------------------------------------------------------------------------
  // form-fields
  // ---------------------------------------------------------------------------

  /** One `DESCRIBE` row as the handler maps it. */
  function FieldFor(c: Column): (f: FieldInfo)
    ensures f.name == c.name && |f.caption| == |c.name|
    ensures f.caption != [] ==> !IsLower(f.caption[0]) && f.caption[0] == UpperChar(c.name[0]) && f.caption[1..] == c.name[1..]
    ensures ToLower(f.caption) == ToLower(c.name)
    ensures f.fieldType == (if Contains(c.sqlType, "int") then "number" else "text")
    ensures f.required <==> !c.nullable
  {
    CapitalizeKeepsLetters(c.name);
    FieldInfo(c.name, Capitalize(c.name), if Contains(c.sqlType, "int") then "number" else "text", !c.nullable)
  }

  /** `GET /api/form-fields/:tableName`: the table's columns in order, each
      with a capitalized label, `number` for integer SQL types, and `required`
      for NOT NULL columns. The name must match `^[a-zA-Z0-9_]+$`. */
  function FormFields(db: Database, name: string): (r: Response)
    ensures r.status in {OkStatus, BadRequestStatus, ServerErrorStatus}
    ensures r.status == BadRequestStatus <==> !IsWord(name)
    ensures r.status == ServerErrorStatus <==> IsWord(name) && name !in db
    ensures r.status == OkStatus ==>
      && r.body.Fields?
      && |r.body.fields| == |db[name].columns|
      && forall i :: 0 <= i < |r.body.fields| ==> r.body.fields[i] == FieldFor(db[name].columns[i])
  {
    if !IsWord(name) then Response(BadRequestStatus, Failure("Invalid table name format"))
    else if name !in db then Response(ServerErrorStatus, Failure("Internal server error"))
    else
      var cols := db[name].columns;
      Response(OkStatus, Fields(seq(|cols|, i requires 0 <= i < |cols| => FieldFor(cols[i]))))
  }

  /** A type name without the letter `n` is not an integer type. */
  lemma NotIntegerType(t: string)
    requires 'n' !in t
    ensures !Contains(t, "int")
  {
    if Contains(t, "int") {
      ContainsCharacters(t, "int", 'n');
    }
  }

  lemma IntegerType()
    ensures Contains("int", "int")
  {
    assert OccursAt("int", "int", 0);
  }

  /** The fields of a response table provisioned by create-form: the key as a
      required number, the timestamp as optional text, then every question as
      optional text, whether or not the question was marked required. */
  lemma ResponseTableFields(db: Database, name: string, questions: seq<Question>)
    requires IsWord(name) && name in db && db[name].columns == ResponseLayout(questions)
    ensures var r := FormFields(db, name);
            && r.status == OkStatus
            && r.body.fields[0] == FieldInfo(IdColumn, "Id", "number", true)
            && r.body.fields[1] == FieldInfo(TimestampColumn, "Timestamp", "text", false)
            && forall i :: 0 <= i < |questions| ==>
                 r.body.fields[i + 2] == FieldInfo(ColumnName(questions[i]), Capitalize(ColumnName(questions[i])), "text", false)
  {
    var cols := ResponseLayout(questions);
    IntegerType();
    NotIntegerType("datetime");
    NotIntegerType("varchar(255)");
    assert cols[0] == Column(IdColumn, "int", false, NoDefault);
    assert cols[1] == Column(TimestampColumn, "datetime", true, CurrentTime);
  }

  /** Form-fields accepts the response table of every form whose table name
      is a word. */
  lemma ResponseTableNameIsWord(name: string)
    requires IsWord(name)
    ensures IsWord(ResponseTableName(name))
  {
    var r := ResponseTableName(name);
    forall i | 0 <= i < |r| ensures IsWordChar(r[i]) {
      if i < |name| {
        assert r[i] == name[i];
      } else {
        assert r[i] == ResponsesSuffix[i - |name|];
      }
    }
  }
}

=== FILE: text.dfy ===
/** String operations the forms engine relies on: the whitespace-collapsing
    `replace(/\s+/g, '_')` that derives every storage identifier, comma
    splitting and joining, `trim`, and ASCII case mapping. */
module Text {

  /** A character matched by `\s` and removed by `trim`. Only the ASCII members
      are modelled: space, tab, line feed, vertical tab, form feed and
      carriage return. */
  predicate IsWhitespace(c: char) {
    c == ' ' || '\t' <= c <= '\r'
  }

  predicate NoWhitespace(s: string) {
    forall i :: 0 <= i < |s| ==> !IsWhitespace(s[i])
  }

  predicate AllWhitespace(s: string) {
    forall i :: 0 <= i < |s| ==> IsWhitespace(s[i])
  }

  /** `s` without its leading run of whitespace. */
  function DropLeadingWhitespace(s: string): (r: string)
    ensures |r| <= |s|
  {
    if s != [] && IsWhitespace(s[0]) then DropLeadingWhitespace(s[1..]) else s
  }

  /** What `DropLeadingWhitespace` removes is whitespace, and what it keeps is
      a suffix that does not start with whitespace. */
  lemma {:induction false} DropLeadingWhitespaceSpec(s: string)
    ensures var r := DropLeadingWhitespace(s);
            && r == s[|s| - |r|..]
            && AllWhitespace(s[..|s| - |r|])
            && (r == [] || !IsWhitespace(r[0]))
  {
    if s != [] && IsWhitespace(s[0]) {
      DropLeadingWhitespaceSpec(s[1..]);
      var r := DropLeadingWhitespace(s);
      var k := |s| - |r|;
      assert s[1..][|s| - 1 - |r|..] == s[k..];
      forall i | 0 <= i < k ensures IsWhitespace(s[..k][i]) {
        if i > 0 { assert s[..k][i] == s[1..][..k - 1][i - 1]; }
      }
    } else {
      assert s[|s|..] == [] && s[0..] == s;
    }
  }

  /** A lone whitespace character is all a leading run holds when the next
      character is not whitespace. */
  lemma DropSingleWhitespace(s: string)
    requires s != [] && IsWhitespace(s[0]) && (|s| == 1 || !IsWhitespace(s[1]))
    ensures DropLeadingWhitespace(s) == s[1..]
  {
    assert DropLeadingWhitespace(s) == DropLeadingWhitespace(s[1..]);
  }

  /** `s` without its trailing run of whitespace. */
  function DropTrailingWhitespace(s: string): (r: string)
    ensures |r| <= |s| && r == s[..|r|]
    ensures AllWhitespace(s[|r|..])
    ensures r == [] || !IsWhitespace(r[|r| - 1])
  {
    if s != [] && IsWhitespace(s[|s| - 1]) then
      var front := s[..|s| - 1];
      var r := DropTrailingWhitespace(front);
      assert s[..|r|] == front[..|r|];
      assert s[|r|..] == front[|r|..] + [s[|s| - 1]];
      r
    else s
  }

  // ---------------------------------------------------------------------------
  // Identifier normalisation
  // ---------------------------------------------------------------------------

  /** `s.replace(/\s+/g, '_')`: each maximal run of whitespace becomes a single
      underscore, every other character is kept in place. */
  function Normalize(s: string): (r: string)
    ensures NoWhitespace(r)
    ensures |r| <= |s|
    decreases |s|
  {
    if s == [] then []
    else if IsWhitespace(s[0]) then "_" + Normalize(DropLeadingWhitespace(s))
    else [s[0]] + Normalize(s[1..])
  }

  /** Normalisation changes a string exactly when it contains whitespace. */
  lemma {:induction false} NormalizeFixedPoints(s: string)
    ensures Normalize(s) == s <==> NoWhitespace(s)
    decreases |s|
  {
    if s != [] && NoWhitespace(s) {
      assert !IsWhitespace(s[0]);
      assert NoWhitespace(s[1..]) by {
        forall i | 0 <= i < |s[1..]| ensures !IsWhitespace(s[1..][i]) {
          assert s[1..][i] == s[i + 1];
        }
      }
      NormalizeFixedPoints(s[1..]);
      assert s == [s[0]] + s[1..];
    }
  }

  /** Normalising twice is normalising once. */
  lemma NormalizeIdempotent(s: string)
    ensures Normalize(Normalize(s)) == Normalize(s)
  {
    NormalizeFixedPoints(Normalize(s));
  }

  /** Normalisation distributes over a concatenation whose seam does not fall
      inside a whitespace run. */
  lemma {:induction false} NormalizeAppend(a: string, b: string)
    requires a == [] || b == [] || !IsWhitespace(a[|a| - 1]) || !IsWhitespace(b[0])
    ensures Normalize(a + b) == Normalize(a) + Normalize(b)
    decreases |a|
  {
    if a == [] {
      assert a + b == b;
    } else if b == [] {
      assert a + b == a;
    } else if !IsWhitespace(a[0]) {
      NormalizeAppendCharacter(a, b);
    } else {
      NormalizeAppendRun(a, b);
    }
  }

  /** One character in front of a string: a character that is not whitespace
      is copied, a whitespace character joins the run that follows it, and a
      whitespace character before anything else becomes an underscore. */
  lemma NormalizeCons(c: char, s: string)
    ensures !IsWhitespace(c) ==> Normalize([c] + s) == [c] + Normalize(s)
    ensures IsWhitespace(c) && s != [] && IsWhitespace(s[0]) ==> Normalize([c] + s) == Normalize(s)
    ensures IsWhitespace(c) && (s == [] || !IsWhitespace(s[0])) ==> Normalize([c] + s) == "_" + Normalize(s)
  {
    var t := [c] + s;
    assert t != [] && t[0] == c && t[1..] == s;
    if IsWhitespace(c) {
      assert DropLeadingWhitespace(t) == DropLeadingWhitespace(s);
      assert Normalize(t) == "_" + Normalize(DropLeadingWhitespace(s));
      if s == [] || !IsWhitespace(s[0]) {
        assert DropLeadingWhitespace(s) == s;
      } else {
        assert Normalize(s) == "_" + Normalize(DropLeadingWhitespace(s));
      }
    } else {
      assert Normalize(t) == [c] + Normalize(s);
    }
  }

  /** The step of `NormalizeAppend` for a first part that starts with a
      character that is not whitespace. */
  lemma {:induction false} NormalizeAppendCharacter(a: string, b: string)
    requires a != [] && b != [] && !IsWhitespace(a[0])
    requires !IsWhitespace(a[|a| - 1]) || !IsWhitespace(b[0])
    ensures Normalize(a + b) == Normalize(a) + Normalize(b)
    decreases |a|, 0
  {
    var c, tail := a[0], a[1..];
    assert a == [c] + tail && a + b == [c] + (tail + b);
    NormalizeCons(c, tail);
    NormalizeCons(c, tail + b);
    assert tail == [] || tail[|tail| - 1] == a[|a| - 1];
    NormalizeAppend(tail, b);
    var x, y := Normalize(tail), Normalize(b);
    assert Normalize(a + b) == [c] + (x + y);
    assert Normalize(a) == [c] + x;
    assert [c] + (x + y) == ([c] + x) + y;
  }

  /** The step of `NormalizeAppend` for a first part that starts with
      whitespace. */
  lemma {:induction false} NormalizeAppendRun(a: string, b: string)
    requires a != [] && b != [] && IsWhitespace(a[0])
    requires !IsWhitespace(a[|a| - 1]) || !IsWhitespace(b[0])
    ensures Normalize(a + b) == Normalize(a) + Normalize(b)
    decreases |a|, 1
  {
    var c := a[0];
    if |a| == 1 {
      assert a + b == [c] + b && a == [c] + [];
      NormalizeCons(c, b);
      NormalizeCons(c, []);
    } else if IsWhitespace(a[1]) {
      NormalizeAppendLongRun(a, b);
    } else {
      NormalizeAppendSingleSpace(a, b);
    }
  }

  /** The step of `NormalizeAppend` for a first part that starts with two
      whitespace characters: the first joins the run. */
  lemma {:induction false} NormalizeAppendLongRun(a: string, b: string)
    requires |a| >= 2 && b != [] && IsWhitespace(a[0]) && IsWhitespace(a[1])
    requires !IsWhitespace(a[|a| - 1]) || !IsWhitespace(b[0])
    ensures Normalize(a + b) == Normalize(a) + Normalize(b)
    decreases |a|, 0
  {
    var c, tail := a[0], a[1..];
    assert a == [c] + tail && a + b == [c] + (tail + b);
    assert (tail + b)[0] == tail[0] == a[1];
    NormalizeCons(c, tail);
    NormalizeCons(c, tail + b);
    assert tail[|tail| - 1] == a[|a| - 1];
    NormalizeAppend(tail, b);
  }

  /** The step of `NormalizeAppend` for a first part that starts with exactly
      one whitespace character: it becomes an underscore. */
  lemma {:induction false} NormalizeAppendSingleSpace(a: string, b: string)
    requires |a| >= 2 && b != [] && IsWhitespace(a[0]) && !IsWhitespace(a[1])
    requires !IsWhitespace(a[|a| - 1]) || !IsWhitespace(b[0])
    ensures Normalize(a + b) == Normalize(a) + Normalize(b)
    decreases |a|, 0
  {
    var c, tail := a[0], a[1..];
    assert a == [c] + tail && a + b == [c] + (tail + b);
    assert (tail + b)[0] == tail[0] == a[1];
    NormalizeCons(c, tail);
    NormalizeCons(c, tail + b);
    assert tail[|tail| - 1] == a[|a| - 1];
    NormalizeAppend(tail, b);
    var x, y := Normalize(tail), Normalize(b);
    assert Normalize(a + b) == "_" + (x + y) && Normalize(a) == "_" + x;
    assert "_" + (x + y) == ("_" + x) + y;
  }

  /** A run of whitespace followed by a character that is not whitespace
      becomes one underscore. */
  lemma {:induction false} NormalizeLeadingRun(w: string, b: string)
    requires w != [] && AllWhitespace(w)
    requires b == [] || !IsWhitespace(b[0])
    ensures Normalize(w + b) == "_" + Normalize(b)
    decreases |w|
  {
    var wb := w + b;
    assert wb[0] == w[0] && wb[1..] == w[1..] + b;
    if |w| == 1 {
      assert wb[1..] == b;
      assert DropLeadingWhitespace(wb) == b;
    } else {
      assert (w[1..] + b)[0] == w[1];
      assert Normalize(wb) == Normalize(w[1..] + b);
      NormalizeLeadingRun(w[1..], b);
    }
  }

  /** A maximal run of whitespace collapses to exactly one underscore. */
  lemma NormalizeCollapsesRun(a: string, w: string, b: string)
    requires a == [] || !IsWhitespace(a[|a| - 1])
    requires w != [] && AllWhitespace(w)
    requires b == [] || !IsWhitespace(b[0])
    ensures Normalize(a + w + b) == Normalize(a) + "_" + Normalize(b)
  {
    var wb := w + b;
    calc {
      Normalize(a + w + b);
      { assert a + w + b == a + wb; }
      Normalize(a + wb);
      { assert wb[0] == w[0]; NormalizeAppend(a, wb); }
      Normalize(a) + Normalize(wb);
      { NormalizeLeadingRun(w, b); }
      Normalize(a) + ("_" + Normalize(b));
      Normalize(a) + "_" + Normalize(b);
    }
  }

  /** A character that is not whitespace is copied through unchanged, and the
      two sides are normalised independently. */
  lemma NormalizeKeepsCharacter(a: string, c: char, b: string)
    requires !IsWhitespace(c)
    ensures Normalize(a + [c] + b) == Normalize(a) + [c] + Normalize(b)
  {
    assert ([c] + b)[0] == c;
    assert a + [c] + b == a + ([c] + b);
    NormalizeAppend(a, [c] + b);
    assert ([c] + b)[1..] == b;
  }

  // ---------------------------------------------------------------------------
  // trim
  // ---------------------------------------------------------------------------

  /** `s.trim()`: the contiguous middle of `s` left after removing whitespace
      from both ends. */
  function Trim(s: string): (r: string)
    ensures exists i :: 0 <= i <= |s| - |r| && s[i..i + |r|] == r
                        && AllWhitespace(s[..i]) && AllWhitespace(s[i + |r|..])
    ensures r == [] || (!IsWhitespace(r[0]) && !IsWhitespace(r[|r| - 1]))
    ensures r == [] <==> AllWhitespace(s)
  {
    var d := DropLeadingWhitespace(s);
    DropLeadingWhitespaceSpec(s);
    var r := DropTrailingWhitespace(d);
    TrimParts(s, d, r);
    r
  }

  /** A suffix `d` of `s` behind leading whitespace, and a prefix `r` of `d`
      before trailing whitespace, sit in `s` between two runs of whitespace. */
  lemma TrimParts(s: string, d: string, r: string)
    requires |d| <= |s| && d == s[|s| - |d|..] && AllWhitespace(s[..|s| - |d|])
    requires d == [] || !IsWhitespace(d[0])
    requires |r| <= |d| && r == d[..|r|] && AllWhitespace(d[|r|..])
    requires r == [] || !IsWhitespace(r[|r| - 1])
    ensures exists i :: 0 <= i <= |s| - |r| && s[i..i + |r|] == r
                        && AllWhitespace(s[..i]) && AllWhitespace(s[i + |r|..])
    ensures r == [] || (!IsWhitespace(r[0]) && !IsWhitespace(r[|r| - 1]))
    ensures r == [] <==> AllWhitespace(s)
  {
    var i := |s| - |d|;
    assert s[i..i + |r|] == r;
    assert s[i + |r|..] == d[|r|..];
    if r == [] {
      assert d[|r|..] == d;
      assert d == [];
      assert s[..i] == s;
    } else {
      assert s[i] == r[0] == d[0];
    }
  }

  /** Trimming brings in no character that was not there. */
  lemma TrimKeepsAbsent(s: string, c: char)
    requires c !in s
    ensures c !in Trim(s)
  {
    var r := Trim(s);
    var i :| 0 <= i <= |s| - |r| && s[i..i + |r|] == r;
    forall j | 0 <= j < |r| ensures r[j] != c {
      assert r[j] == s[i + j];
    }
  }

  /** A string that neither starts nor ends with whitespace is its own trim. */
  lemma TrimFixedPoint(s: string)
    requires s == [] || (!IsWhitespace(s[0]) && !IsWhitespace(s[|s| - 1]))
    ensures Trim(s) == s
  {
    assert DropLeadingWhitespace(s) == s;
    assert DropTrailingWhitespace(s) == s;
  }

  /** Trimming a text padded on both sides with whitespace gives the text
      back, as long as the text itself neither starts nor ends with
      whitespace. */
  lemma TrimPadded(pre: string, o: string, post: string)
    requires AllWhitespace(pre) && AllWhitespace(post)
    requires o == [] || (!IsWhitespace(o[0]) && !IsWhitespace(o[|o| - 1]))
    ensures Trim(pre + o + post) == o
  {
    var s := pre + o + post;
    PaddedParts(s, pre, o, post);
    if o == [] {
      assert AllWhitespace(s) by {
        forall k | 0 <= k < |s| ensures IsWhitespace(s[k]) {
          if k < |pre| { assert s[k] == s[..|pre|][k]; } else { assert s[k] == s[|pre|..][k - |pre|]; }
        }
      }
    } else {
      TrimPaddedText(s, |pre|, |pre| + |o|);
    }
  }

  /** The three parts of a padded text, as slices. */
  lemma PaddedParts(s: string, pre: string, o: string, post: string)
    requires s == pre + o + post
    ensures s[..|pre|] == pre && s[|pre|..|pre| + |o|] == o && s[|pre| + |o|..] == post
  {
  }

  /** When `s[b..e]` is preceded and followed only by whitespace and starts
      and ends with other characters, trimming `s` gives exactly it. */
  lemma TrimPaddedText(s: string, b: int, e: int)
    requires 0 <= b < e <= |s|
    requires AllWhitespace(s[..b]) && AllWhitespace(s[e..])
    requires !IsWhitespace(s[b]) && !IsWhitespace(s[e - 1])
    ensures Trim(s) == s[b..e]
  {
    DropLeadingAt(s, b);
    var d := s[b..];
    assert d[..e - b] == s[b..e] && d[e - b..] == s[e..] && d[e - b - 1] == s[e - 1];
    DropTrailingAt(d, e - b);
  }

  /** Leading whitespace up to position `b`, where another character
      stands, is what `DropLeadingWhitespace` removes. */
  lemma DropLeadingAt(s: string, b: int)
    requires 0 <= b < |s| && AllWhitespace(s[..b]) && !IsWhitespace(s[b])
    ensures DropLeadingWhitespace(s) == s[b..]
  {
    DropLeadingWhitespaceSpec(s);
    var d := DropLeadingWhitespace(s);
    var k := |s| - |d|;
    if d != [] {
      assert s[k] == d[0];
      SameFirstNonWhitespace(s, k, b);
    }
  }

  /** Trailing whitespace from position `e`, after another character, is
      what `DropTrailingWhitespace` removes. */
  lemma DropTrailingAt(d: string, e: int)
    requires 0 < e <= |d| && AllWhitespace(d[e..]) && !IsWhitespace(d[e - 1])
    ensures DropTrailingWhitespace(d) == d[..e]
  {
    var r := DropTrailingWhitespace(d);
    if r != [] {
      assert d[|r| - 1] == r[|r| - 1];
      SameLastNonWhitespace(d, |r|, e);
    }
  }

  /** Two positions that each end a run of leading whitespace with a
      non-whitespace character are the same position. */
  lemma SameFirstNonWhitespace(s: string, i: int, k: int)
    requires 0 <= i < |s| && 0 <= k < |s|
    requires AllWhitespace(s[..i]) && !IsWhitespace(s[i])
    requires AllWhitespace(s[..k]) && !IsWhitespace(s[k])
    ensures i == k
  {
  }

  /** Two positions that each start a run of trailing whitespace after a
      non-whitespace character are the same position. */
  lemma SameLastNonWhitespace(s: string, e: int, f: int)
    requires 0 < e <= |s| && 0 < f <= |s|
    requires AllWhitespace(s[e..]) && !IsWhitespace(s[e - 1])
    requires AllWhitespace(s[f..]) && !IsWhitespace(s[f - 1])
    ensures e == f
  {
  }

  // ---------------------------------------------------------------------------
  // split and join on a separator
  // ---------------------------------------------------------------------------

  /** `s.split(sep)` for a one-character separator: the pieces between
      separators, empty pieces included. */
  function Split(s: string, sep: char): (r: seq<string>)
    ensures |r| >= 1
    ensures forall i :: 0 <= i < |r| ==> sep !in r[i]
  {
    if s == [] then [[]]
    else
      var rest := Split(s[1..], sep);
      if s[0] == sep then [[]] + rest
      else [[s[0]] + rest[0]] + rest[1..]
  }

  /** `parts.join(sep)`. */
  function Join(parts: seq<string>, sep: string): string
  {
    if |parts| == 0 then []
    else if |parts| == 1 then parts[0]
    else parts[0] + sep + Join(parts[1..], sep)
  }

  /** Joining the pieces of a split restores the original string. */
  lemma {:induction false} JoinSplit(s: string, sep: char)
    ensures Join(Split(s, sep), [sep]) == s
  {
    if s != [] {
      var rest := Split(s[1..], sep);
      JoinSplit(s[1..], sep);
      if s[0] == sep {
        assert ([[]] + rest)[1..] == rest;
      } else {
        var parts := [[s[0]] + rest[0]] + rest[1..];
        if |rest| == 1 {
          assert Join(parts, [sep]) == [s[0]] + rest[0];
        } else {
          assert parts[1..] == rest[1..];
          var x := Join(rest[1..], [sep]);
          assert Join(rest, [sep]) == rest[0] + [sep] + x;
          assert Join(parts, [sep]) == ([s[0]] + rest[0]) + [sep] + x;
          assert ([s[0]] + rest[0]) + [sep] + x == [s[0]] + (rest[0] + [sep] + x);
        }
      }
      assert s == [s[0]] + s[1..];
    }
  }

  /** Splitting a join of separator-free pieces gives the pieces back. */
  lemma {:induction false} SplitJoin(parts: seq<string>, sep: char)
    requires |parts| >= 1
    requires forall i :: 0 <= i < |parts| ==> sep !in parts[i]
    ensures Split(Join(parts, [sep]), sep) == parts
    decreases |parts|, |parts[0]|
  {
    if |parts[0]| > 0 {
      var p := parts[0];
      var tail := [p[1..]] + parts[1..];
      assert tail[0] == p[1..] && tail[1..] == parts[1..];
      assert forall i :: 0 <= i < |tail| ==> sep !in tail[i] by {
        forall i | 0 <= i < |tail| ensures sep !in tail[i] {
          if i == 0 { assert forall c :: c in p[1..] ==> c in p; } else { assert tail[i] == parts[i]; }
        }
      }
      SplitJoin(tail, sep);
      JoinFirstCharacter(parts, sep);
      var j := Join(parts, [sep]);
      assert j[0] == p[0] && j[1..] == Join(tail, [sep]);
      assert p[0] != sep by { assert p[0] in p; }
      assert Split(j, sep) == [[p[0]] + tail[0]] + tail[1..];
      assert [p[0]] + p[1..] == p;
    } else if |parts| > 1 {
      var j := Join(parts, [sep]);
      assert parts[0] == [];
      assert j == [sep] + Join(parts[1..], [sep]);
      assert j[1..] == Join(parts[1..], [sep]);
      SplitJoin(parts[1..], sep);
      assert parts == [[]] + parts[1..];
    }
  }

  /** The first character of a join is that of its first non-empty piece. */
  lemma JoinFirstCharacter(parts: seq<string>, sep: char)
    requires |parts| >= 1 && |parts[0]| > 0
    ensures Join(parts, [sep]) == [parts[0][0]] + Join([parts[0][1..]] + parts[1..], [sep])
  {
    var p := parts[0];
    var tail := [p[1..]] + parts[1..];
    assert tail[0] == p[1..] && tail[1..] == parts[1..] && |tail| == |parts|;
    assert p == [p[0]] + p[1..];
    if |parts| > 1 {
      var x := Join(parts[1..], [sep]);
      calc {
        Join(parts, [sep]);
        p + [sep] + x;
        ([p[0]] + p[1..]) + [sep] + x;
        [p[0]] + (p[1..] + [sep] + x);
        { assert Join(tail, [sep]) == tail[0] + [sep] + Join(tail[1..], [sep]); }
        [p[0]] + Join(tail, [sep]);
      }
    }
  }

  /** Splitting yields one more piece than there are separators. */
  lemma {:induction false} SplitCount(s: string, sep: char)
    ensures |Split(s, sep)| == multiset(s)[sep] + 1
  {
    if s != [] {
      SplitCount(s[1..], sep);
      assert s == [s[0]] + s[1..];
      assert multiset(s) == multiset([s[0]]) + multiset(s[1..]);
    }
  }

  // ---------------------------------------------------------------------------
  // Case mapping (ASCII)
  // ---------------------------------------------------------------------------

  predicate IsUpper(c: char) { 'A' <= c <= 'Z' }
  predicate IsLower(c: char) { 'a' <= c <= 'z' }

  function LowerChar(c: char): char {
    if IsUpper(c) then (c as int + 32) as char else c
  }

  function UpperChar(c: char): char {
    if IsLower(c) then (c as int - 32) as char else c
  }

  /** `s.toLowerCase()` on ASCII letters. */
  function ToLower(s: string): (r: string)
    ensures |r| == |s|
    ensures forall i :: 0 <= i < |r| ==> !IsUpper(r[i])
    ensures forall i :: 0 <= i < |s| ==>
      && (!IsUpper(s[i]) ==> r[i] == s[i])
      && (IsUpper(s[i]) ==> IsLower(r[i]) && UpperChar(r[i]) == s[i])
  {
    seq(|s|, i requires 0 <= i < |s| => LowerChar(s[i]))
  }

  /** Lower-casing twice is lower-casing once. */
  lemma ToLowerIdempotent(s: string)
    ensures ToLower(ToLower(s)) == ToLower(s)
  {
  }

  /** `s.charAt(0).toUpperCase() + s.slice(1)`. */
  function Capitalize(s: string): (r: string)
    ensures |r| == |s|
    ensures r != [] ==> !IsLower(r[0])
    ensures |s| > 0 ==> r[0] == UpperChar(s[0]) && r[1..] == s[1..]
    ensures |s| > 0 && IsLower(s[0]) ==> IsUpper(r[0]) && LowerChar(r[0]) == s[0]
    ensures |s| > 0 && !IsLower(s[0]) ==> r == s
  {
    if s == [] then [] else [UpperChar(s[0])] + s[1..]
  }

  /** Capitalizing changes the case of one letter and nothing else: both
      strings lower-case to the same text. */
  lemma CapitalizeKeepsLetters(s: string)
    ensures ToLower(Capitalize(s)) == ToLower(s)
  {
    if s != [] {
      assert LowerChar(UpperChar(s[0])) == LowerChar(s[0]);
      assert forall i :: 0 <= i < |s| ==> Capitalize(s)[i] == s[i] || i == 0;
    }
  }

  /** Capitalizing twice is capitalizing once. */
  lemma CapitalizeIdempotent(s: string)
    ensures Capitalize(Capitalize(s)) == Capitalize(s)
  {
  }

  // ---------------------------------------------------------------------------
  // Substrings and character classes
  // ---------------------------------------------------------------------------

  predicate IsPrefix(w: string, t: string) {
    |w| <= |t| && t[..|w|] == w
  }

  /** `w` occurs in `t` starting at position `i`. */
  predicate OccursAt(t: string, w: string, i: int) {
    0 <= i <= |t| && IsPrefix(w, t[i..])
  }

  /** `t.includes(w)`. */
  predicate Contains(t: string, w: string) {
    exists i :: 0 <= i <= |t| && OccursAt(t, w, i)
  }

  /** A substring occurs either at the front or somewhere in the tail. */
  lemma ContainsUnfold(t: string, w: string)
    ensures Contains(t, w) <==> IsPrefix(w, t) || (t != [] && Contains(t[1..], w))
  {
    if Contains(t, w) && !IsPrefix(w, t) {
      var i :| 0 <= i <= |t| && OccursAt(t, w, i);
      assert i > 0;
      assert t[1..][i - 1..] == t[i..];
      assert OccursAt(t[1..], w, i - 1);
    }
    if t != [] && Contains(t[1..], w) {
      var u := t[1..];
      var i :| 0 <= i <= |u| && OccursAt(u, w, i);
      assert u[i..] == t[i + 1..];
      assert OccursAt(t, w, i + 1);
    }
    if IsPrefix(w, t) {
      assert t[0..] == t;
      assert OccursAt(t, w, 0);
    }
  }

  /** `s.replace(/x/g, y)` for single characters. */
  function ReplaceChar(s: string, x: char, y: char): (r: string)
    ensures |r| == |s|
    ensures x != y ==> x !in r
    ensures forall i :: 0 <= i < |s| ==> (s[i] == x ==> r[i] == y) && (s[i] != x ==> r[i] == s[i])
  {
    seq(|s|, i requires 0 <= i < |s| => if s[i] == x then y else s[i])
  }

  /** Replacing `x` by a character `y` the text did not hold is undone by
      replacing `y` by `x`. */
  lemma ReplaceCharBack(s: string, x: char, y: char)
    requires y !in s
    ensures ReplaceChar(ReplaceChar(s, x, y), y, x) == s
  {
    var r := ReplaceChar(s, x, y);
    forall i | 0 <= i < |s| ensures ReplaceChar(r, y, x)[i] == s[i] {
      assert s[i] != y;
    }
  }

  /** A character of the class `[a-zA-Z0-9_]`. */
  predicate IsWordChar(c: char) {
    IsUpper(c) || IsLower(c) || '0' <= c <= '9' || c == '_'
  }

  /** `/^[a-zA-Z0-9_]+$/.test(s)`. */
  predicate IsWord(s: string) {
    |s| > 0 && forall i :: 0 <= i < |s| ==> IsWordChar(s[i])
  }
}

=== FILE: wrappers.dfy ===
/** Optional values, used for absent request fields and for queries the
    storage engine rejects. */
module Wrappers {

  datatype Option<+T> = None | Some(value: T)
}
